=== FILE: README.md ===
# dvx orchestrator: a Dafny model of its decision logic

dvx drives a markdown plan through coding agents. Each task goes through the same pipeline:

1. A splitter may break the task into subtasks.
2. An implementer does the work.
3. A reviewer judges the diff, and a bounded fix loop follows.
4. Tests are written when they are missing.
5. The task is committed.

When no task is left, a polisher and a bounded finalizer loop close the plan. When an agent fails or a bound is hit, an escalater agent decides whether to proceed or to block the run for a human.

This project models that decision logic as pure functions over immutable data:

- **Agent classifiers** (`Interpreter`) read agent text. They are case-insensitive marker and phrase tests, plus the safety gate, the trigger context and the change-size rule.
- **The task-status store** (`Plans`) is a map keyed by plan basename and then task id. The module also covers task selection, the plan summary, reconciliation with a fresh parse, normalisation of parsed records and the plan-size guard.
- **The orchestration record** (`StateStore`) is the `State` record and its `Phase`. Its mutators act on a map from key to record. The module also holds the blocked-context artifact and the append-only decision log.
- **Agent-result reduction** (`Session`) folds the stream events of a run into a `SessionResult`. It also models how `run_claude` builds that result for each way a process can end.
- **The orchestrator** (`Orchestrator`) is a step function. It runs over a `World`: the plan, the override store, the record store, the blocked artifact and the working tree. A sequence of agent replies drives it. Each agent call consumes one reply and appends its role to the calls made, so the reply sequence is both input and fuel. Running out of replies is a distinct stop, `Exhausted`, and it happens only once every reply has been used.
- **The `dvx run` dispatch** (`Cli`) covers `cmd_run`'s resume from the loaded record, the `FILENAME:` line of `cmd_plan` and the comment filter of the editor input.

`Text` holds the string primitives the classifiers rest on: ASCII lower-casing, substring search, `strip`, `split`/`join` and number rendering. `Wrappers` holds `Option` and `Result`.

The headline guarantee is `Orchestrator.RunOrchestrator`'s contract, which follows from `Settled` holding on every stage:

- A run exits with 0 or 1, or stops on the error of a plan that does not parse.
- Exit 1 always leaves the record BLOCKED with a blocked context written. The exception is the finalization bug under "## Findings".
- Exit 0 always leaves it PAUSED or COMPLETE.
- A run never makes more agent calls than it was given replies. It stops with `Exhausted` only when it has used all of them.

## Model

| member | source | states |
|---|---|---|
| Text.Lower | dvx/src/orchestrator.py:425 | lower-casing keeps the length and maps each character to its lower-case twin, so every classifier reads case-insensitively |
| Text.LowerIdempotent | dvx/src/orchestrator.py:425 | lower-casing twice is lower-casing once |
| Text.Find | dvx/src/claude_session.py:150 | the first match at or after the start, and no match before it; none when no position matches |
| Text.ContainsIff | dvx/src/orchestrator.py:581 | `sub in s` holds exactly when some position of `s` matches `sub` |
| Text.Strip | dvx/src/orchestrator.py:61 | the result is no longer than the input and neither starts nor ends with whitespace |
| Text.StripIsSlice | dvx/src/orchestrator.py:61 | the result is a slice of the input with only whitespace cut off either end |
| Text.StripEmptyIff | dvx/src/orchestrator.py:556 | stripping yields the empty string exactly when the text is all whitespace |
| Text.JoinSplit | dvx/src/cli.py:141-151 | joining the lines of a split with the same separator gives back the text |
| Text.SplitJoin | dvx/src/cli.py:141-151 | splitting a join of separator-free parts gives back the parts |
| Text.JoinPrefix | dvx/src/cli.py:145-148 | the join of the first k lines is a prefix of the join of all lines |
| Text.LStripChars | dvx/src/orchestrator.py:61 | `lstrip(chars)` removes the longest prefix made of the given characters |
| Text.ParseNatToString | dvx/src/plan_parser.py:328 | reading back the decimal rendering of n gives n |
| Interpreter.ParseReview | dvx/src/orchestrator.py:414-481 | suggestions are the whole output; critical iff a critical phrase occurs, and critical excludes approved; with `[approved]` the review is approved iff nothing critical occurs and has issues iff `[issues]` or `[suggestions]` occurs; with none of `[approved]`, `[issues]` and `[suggestions]` it has issues iff a heuristic issue phrase occurs and is approved iff a heuristic approval phrase occurs with no issue or critical phrase; missing-tests iff a test phrase occurs |
| Interpreter.ReviewOfEmpty | dvx/src/orchestrator.py:414-481 | an empty review sets none of the four flags |
| Interpreter.ReviewIgnoresCase | dvx/src/orchestrator.py:425 | classifying the lower-cased text gives the same flags as classifying the text |
| Interpreter.ApprovedMarkerBeatsHeuristics | dvx/src/orchestrator.py:446-473 | `[approved]` without `[issues]` or a critical phrase approves with no issues, whatever heuristic issue phrase is present |
| Interpreter.IssuesMarkerNeedsExplicitApproval | dvx/src/orchestrator.py:446-473 | with `[issues]` the review has issues, and it is approved exactly when `[approved]` is present and nothing critical is |
| Interpreter.ParseEscalation | dvx/src/orchestrator.py:524-543 | escalate iff `[escalate]` occurs; proceed iff `[proceed]` occurs without `[escalate]`; never both |
| Interpreter.ParseSplit | dvx/src/orchestrator.py:297-324 | split iff `[split]` occurs without `[no_split]`; with both `[split]` and `## subtasks` the subtasks are the section after the first heading match, and otherwise they are empty |
| Interpreter.SubtasksSection | dvx/src/orchestrator.py:312-319 | with no `## Subtasks` heading followed by whitespace holding a newline the text is empty; otherwise it is the stripped text after the first such heading, as `re.search` picks it |
| Interpreter.ParsePolisher | dvx/src/orchestrator.py:653-673 | suggestions iff `[suggestions]` occurs; polished iff `[polished]` occurs without it; suggestions text is empty unless there are suggestions |
| Interpreter.ParseFinalizer | dvx/src/orchestrator.py:802-830 | issues iff `[issues]` occurs; approved iff `[approved]` occurs without `[issues]`; never both |
| Interpreter.MarkersIgnoreCase | dvx/src/orchestrator.py:312-321 | the escalation, split, polisher, finalizer and already-complete markers give the same verdict on the lower-cased text |
| Interpreter.FirstForbidden | dvx/src/orchestrator.py:255-271 | the first forbidden pattern in list order that occurs in the text, with none before it; none when no pattern occurs |
| Interpreter.ValidateTaskSafety | dvx/src/orchestrator.py:245-273 | unsafe iff some forbidden pattern occurs in the lower-cased `title + " " + description`; the message names the first such pattern; a safe task gets an empty message |
| Interpreter.BuildTriggerContext | dvx/src/orchestrator.py:546-571 | the context is never empty; it holds the stripped output when there is one and the block reason when it is truthy; with neither it is the fallback or the fixed placeholder |
| Interpreter.JoinedPair | dvx/src/orchestrator.py:565-571 | the newline join of output and error line keeps both the output and the reason |
| Interpreter.CountPorcelain | dvx/src/orchestrator.py:124-132 | deleted plus added never exceed changed, and changed never exceeds the number of lines |
| Interpreter.LineCounts | dvx/src/orchestrator.py:125-132 | an empty line counts nothing and any other line one changed file, of which at most one deletion or addition |
| Interpreter.CountPorcelainCounts | dvx/src/orchestrator.py:124-132 | changed is the number of non-empty lines, deleted the number whose status column strips to `D`, added the number whose status column strips to `??` |
| Interpreter.MassiveMatchesRatio | dvx/src/orchestrator.py:166-177 | the integer massive rule agrees with the rule written with a real-valued deletion ratio |
| Interpreter.BalancedNotMassive | dvx/src/orchestrator.py:166-177 | deletions within ten times the insertions and at most 20 deleted files are never massive |
| Interpreter.GetChangeStats | dvx/src/orchestrator.py:94-187 | on the stripped porcelain split into lines: changed files are the non-empty lines, deleted files the `D` lines, added files the `??` lines; the line counts are kept; massive holds iff the ratio rule does |
| Interpreter.CleanAlternatives | dvx/src/orchestrator.py:61 | no kept alternative starts with `-` or a space or ends with whitespace, and none is added |
| Interpreter.AlternativesList | dvx/src/orchestrator.py:61 | every alternative is clean: it does not start with `-` or a space and does not end with whitespace |
| Interpreter.CleanAlternativesAppend | dvx/src/orchestrator.py:61 | cleaning works line by line: cleaning two runs of lines is cleaning each and concatenating |
| Interpreter.CleanAlternativesOne | dvx/src/orchestrator.py:61 | a blank line gives no alternative; any other line gives its stripped text with leading dashes and spaces removed |
| Interpreter.CleanAlternativesKeeps | dvx/src/orchestrator.py:61 | lines that are already alternatives pass the cleaning unchanged |
| Interpreter.AlternativesRoundTrip | dvx/src/orchestrator.py:61 | the alternatives written one per line read back as the same list |
| Plans.ParseStatus | dvx/src/plan_parser.py:34-38 | a parsed status renders back to the string; a string no status renders to does not parse |
| Plans.ParseStatusValue | dvx/src/plan_parser.py:34-38 | every status parses back from its value |
| Plans.StatusOrPending | dvx/src/plan_parser.py:323-327 | an unknown status string falls back to PENDING, otherwise it is the status it names |
| Plans.Basename | dvx/src/plan_parser.py:72 | the plan key is the path's whole final segment: a suffix of the path with no `/`, which is either the whole path or preceded by `/` |
| Plans.SaveStatusOverride | dvx/src/plan_parser.py:79-100 | exactly the entry for that plan and task is set; every other plan and every other task of the plan keeps its entry |
| Plans.UpdateTaskStatus | dvx/src/plan_parser.py:415-424 | the task's recorded status under the plan's basename reads back as the new status; other plans are untouched |
| Plans.ClearStatusForPlan | dvx/src/plan_parser.py:457-478 | only the plan's key is removed |
| Plans.OverriddenStatus | dvx/src/plan_parser.py:355-368 | a non-PENDING status is read from a recorded entry naming it |
| Plans.ApplyStatusOverrides | dvx/src/plan_parser.py:341-368 | length, order, ids, titles and descriptions are kept; each status is the recorded one when valid and PENDING otherwise, whatever was parsed |
| Plans.OverridesIgnoreParsedStatus | dvx/src/plan_parser.py:355-368 | two parses with the same ids get the same statuses, whatever statuses they parsed |
| Plans.FirstWithStatus | dvx/src/plan_parser.py:402-412 | the first task at or after k with the status, none before it; none when no such task exists |
| Plans.NextPendingTask | dvx/src/plan_parser.py:398-412 | the first in-progress task when one exists; otherwise the first pending task when one exists; otherwise none |
| Plans.PlanSummary | dvx/src/plan_parser.py:427-438 | each of done, in progress, pending and blocked is the number of task positions with that status; they sum to the total, the number of tasks; no pending and no in-progress task iff there is no next task |
| Plans.CountsPartition | dvx/src/plan_parser.py:431-438 | the four status counts partition the task list |
| Plans.RemoveIds | dvx/src/plan_parser.py:545-560 | removal touches only the plan's map and removes exactly the given ids |
| Plans.SyncPlanState | dvx/src/plan_parser.py:481-566 | the report counts every task; synced plus added never exceed the tasks; removed is the number of recorded ids absent from the parse |
| Plans.SyncFromUntouched | dvx/src/plan_parser.py:522-543 | ids the loop does not reach keep their entries, and other plans keep theirs |
| Plans.SyncFromEntry | dvx/src/plan_parser.py:522-543 | the entry of each visited task after the loop, by its parsed status |
| Plans.SyncReconciles | dvx/src/plan_parser.py:522-560 | a task parsed DONE ends DONE; parsed PENDING over a DONE entry ends PENDING; IN_PROGRESS and BLOCKED tasks keep their entries; entries for ids absent from the parse are removed |
| Plans.SyncCounters | dvx/src/plan_parser.py:522-543 | `added` counts DONE tasks with no previous entry; `synced` counts entries that changed |
| Plans.NormalizeRecord | dvx/src/plan_parser.py:321-335 | every field given is kept as given; a missing id becomes the decimal index + 1, a missing title "Untitled", a missing description empty and a missing line number 0; a status is the lower-cased string when valid, PENDING otherwise |
| Plans.NormalizeRecords | dvx/src/plan_parser.py:321-335 | a given id is kept and a missing one becomes the 1-based position, so the defaulted ids are pairwise distinct; each record is normalised with its own index, in order |
| Plans.JsonPayload | dvx/src/plan_parser.py:305-312 | when some `{` precedes some `}` in the stripped output, the payload is the slice from the first `{` to the last `}`; otherwise it is the whole stripped output |
| Plans.EstimateTokens | dvx/src/plan_parser.py:147-149 | the estimate is the length divided by four, rounded down |
| Plans.NeedsCompressionLength | dvx/src/plan_parser.py:256-258 | compression is attempted iff the plan has at least 80004 characters, i.e. more than 20000 estimated tokens |
| Plans.CompressPlan | dvx/src/plan_parser.py:215-234 | a compressed plan is kept iff the agent succeeded and the result has at least 100 characters and is strictly shorter; otherwise the original stays |
| Plans.CompressionNeverGrows | dvx/src/plan_parser.py:215-234 | the plan after the size guard is never longer than before it |
| StateStore.ParsePhase | dvx/src/state.py:24-32 | a parsed phase renders back to its string |
| StateStore.ParsePhaseValue | dvx/src/state.py:24-32 | every phase, PAUSED and FINALIZING included, parses back from its value |
| StateStore.PhaseValueInjective | dvx/src/state.py:24-32 | distinct phases have distinct values |
| StateStore.DefaultState | dvx/src/state.py:35-46 | phase IDLE, counter 0, maximum 3, no task, no session, step mode off |
| StateStore.Load | dvx/src/state.py:75-88 | a record is found iff one was saved under the key |
| StateStore.Save | dvx/src/state.py:91-98 | saving adds the key and leaves every other key's record as it was |
| StateStore.Reset | dvx/src/state.py:101-108 | reset removes only the key |
| StateStore.SaveThenLoad | dvx/src/state.py:75-98 | a load after a save returns the saved record except `updated_at`, which is the save time |
| StateStore.ResetThenLoad | dvx/src/state.py:75-108 | a load after a reset finds nothing, and other keys load as before |
| StateStore.CreateInitialState | dvx/src/state.py:111-119 | the new record is IDLE, started now, counter 0, maximum 3, with no task, and it is what the store then loads |
| StateStore.UpdatePhase | dvx/src/state.py:122-130 | fails with the no-active-state message iff nothing is stored; otherwise only the phase and `updated_at` change, and other keys are untouched |
| StateStore.SetCurrentTask | dvx/src/state.py:133-143 | fails iff nothing is stored; otherwise sets the task id and title and resets the counter, changing nothing else but `updated_at` |
| StateStore.IncrementIteration | dvx/src/state.py:146-159 | fails iff nothing is stored; otherwise the counter grows by exactly one and `exceeded` holds iff the new count exceeds the maximum |
| StateStore.FourthRoundExceeds | dvx/src/state.py:146-159 | with the default maximum, after a new task the first three increments are within bounds and the fourth exceeds |
| StateStore.SetOverseerSession | dvx/src/state.py:162-170 | fails iff nothing is stored; otherwise only the overseer session and `updated_at` change |
| StateStore.BlockedText | dvx/tests/test_state.py:198-212 | the blocked file starts with its `# Blocked:` title and holds the context and, when there is one, the session to resume |
| StateStore.ClearBlocked | dvx/src/state.py:200-211 | the artifact is gone; a BLOCKED record becomes IDLE and any other record is left as it was |
| StateStore.AlternativesSection | dvx/src/state.py:233-237 | every alternative appears and the entry closes with its separator |
| StateStore.DecisionEntry | dvx/src/state.py:224-237 | the entry holds the decision, the reasoning and every alternative |
| StateStore.LogDecision | dvx/src/state.py:214-247 | the old log of the topic is a prefix of the new one; a first write starts with the topic header; the entry's decision and reasoning are in it; other topics are unchanged |
| StateStore.LogIsAppendOnly | dvx/src/state.py:240-245 | every topic's previous log is a prefix of its log after any write |
| Session.LastCarrier | dvx/src/claude_session.py:131-143 | the last event carrying a `session_id` key, with none after it |
| Session.LastResult | dvx/src/claude_session.py:139-141 | the last `result` event, with none after it |
| Session.ScanEvents | dvx/src/claude_session.py:131-143 | the session id is that of the last event carrying the key, or none; the text is the `result` of the last result event, or empty |
| Session.NonDictsIgnored | dvx/src/claude_session.py:132-133 | inserting a non-dict event anywhere changes nothing |
| Session.CloseBracket | dvx/src/claude_session.py:151 | the first `]` at or after the start, none before it |
| Session.ReasonSpan | dvx/src/claude_session.py:148-153 | the reason lies after the first `[BLOCKED:` and before the next `]` |
| Session.BlockReason | dvx/src/claude_session.py:146-157 | a reason exists iff a `[BLOCKED:` marker has a closing bracket after it, and it is the stripped text between them |
| Session.ParseStreamOutput | dvx/src/claude_session.py:115-159 | blocked iff the text holds one of the three case-sensitive signals; the block reason is exactly the one read from the text, and implies blocked; text and session come from the event fold |
| Session.RunClaude | dvx/src/claude_session.py:269-305 | success iff the process exited 0; a finished process reports its stream and falls back to the caller's session; a timeout, a missing executable or an exception gives an unsuccessful, blocked result with no output and its reason |
| Session.FailureIsExplained | dvx/src/claude_session.py:269-305 | a failed result either exited non-zero or is blocked with no output |
| Orchestrator.SetPhase | dvx/src/state.py:122-130 | the orchestrator's phase update changes only the stored phase and `updated_at` |
| Orchestrator.SetStatus | dvx/src/plan_parser.py:415-424 | a task status update reads back as the new status and changes no other task's status or the record |
| Orchestrator.HandleBlocked | dvx/src/orchestrator.py:1059-1087 | the record is BLOCKED and the blocked context holds the reason, the context and the given session, or else the in-memory overseer session |
| Orchestrator.EscalationContext | dvx/src/orchestrator.py:954-1013 | the escalation context carries the original context |
| Orchestrator.EvaluateTrigger | dvx/src/orchestrator.py:927-1020 | exactly one escalater call; the run proceeds iff the call succeeded and its output parses as proceed; otherwise exit 1 with the record BLOCKED and a context written |
| Orchestrator.SplitStage | dvx/src/orchestrator.py:1367-1399 | only a split with subtasks and a successful plan update restarts the loop (two calls); otherwise the task proceeds with store and plan untouched |
| Orchestrator.SkipCompleted | dvx/src/orchestrator.py:1415-1426 | the task is DONE and the stored counter is 0 |
| Orchestrator.Implement | dvx/src/orchestrator.py:1409-1436 | the implementer runs first; the task goes to the next one iff the output is marked `[already_complete]`, and then it is DONE with counter 0 after that one call; otherwise a failed or blocked call is followed by an implementer-sourced escalation and a good one proceeds after that one call |
| Orchestrator.ImplementStage | dvx/src/orchestrator.py:1401-1437 | the implementer runs first; `[already_complete]` marks the task DONE with counter 0 and goes to the next task, and only it does; otherwise a failed or blocked call is followed by an implementer-sourced escalation and a good one proceeds after that one call |
| Orchestrator.CallReviewer | dvx/src/orchestrator.py:1504-1512 | phase REVIEWING; a returned session becomes the stored overseer session; counter, maximum and step mode unchanged |
| Orchestrator.ReviewStage | dvx/src/orchestrator.py:1439-1577 | a massive change exits 1 before any reviewer call; to proceed, the reviewer was called and its output is the parsed review |
| Orchestrator.Judge | dvx/src/orchestrator.py:1513-1577 | a failed review is followed by exactly one reviewer-sourced escalation, and goes on only if the escalater proceeds; a successful answer mentioning "prompt is too long" blocks the plan with exit 1 and no call; any other successful answer goes on with no call; to proceed, the review is the parsed output and the record is unchanged |
| Orchestrator.Overflow | dvx/src/orchestrator.py:1523-1572 | a reviewer answer mentioning "prompt is too long" gives exit 1 with the record BLOCKED and a blocked context; any other answer leaves the run as it was, with the parsed review and the reviewer's session |
| Orchestrator.RoundGate | dvx/src/orchestrator.py:1580-1606 | the orchestrator-sourced escalation happens iff the incremented counter exceeds the maximum; on proceed the counter is 0 after an exceeded round and the increment otherwise |
| Orchestrator.BoundGate | dvx/src/orchestrator.py:1583-1596 | within the maximum nothing is called and the counter is the increment; past it exactly one orchestrator-sourced escalater call, and on proceed the counter is 0 |
| Orchestrator.CriticalGate | dvx/src/orchestrator.py:1598-1605 | a review that is not critical changes nothing; a critical one makes exactly one reviewer-sourced escalater call and proceeds iff that call succeeded and its answer parses as proceed; a proceed leaves the record as it was |
| Orchestrator.FixRound | dvx/src/orchestrator.py:1580-1638 | one round: the gate, then a fix and a re-review; a round that goes on ends with the reviewer call, and its review and session are that reviewer's reply; replies are taken from the front |
| Orchestrator.FixAndReview | dvx/src/orchestrator.py:1607-1637 | the implementer fixes first; to go on, the last call is the re-review and the review and session are that reviewer's reply |
| Orchestrator.GoodFixIsReviewed | dvx/src/orchestrator.py:1607-1637 | a fix that neither fails nor is blocked is followed by exactly one re-review, whose parsed answer is the new review |
| Orchestrator.ReReview | dvx/src/orchestrator.py:1626-1637 | one reviewer call, whose parsed answer and session become the review |
| Orchestrator.ThenConsumes | dvx/src/orchestrator.py:1580-1638 | two stages that each take the next replies take them in order together, so every agent answer is the one its call received |
| Orchestrator.ReviewedLastThen | dvx/src/orchestrator.py:1580-1638 | the last review of a later stage stays the last review once an earlier stage precedes it |
| Orchestrator.Attempt | dvx/src/orchestrator.py:1614-1623 | one agent call; if it fails or reports itself blocked, the escalater (source implementer) is next and decides; otherwise the step proceeds after that one call; it never exits 0 |
| Orchestrator.Fix | dvx/src/orchestrator.py:1607-1624 | the implementer runs first; a failed or blocked fix is followed by an implementer-sourced escalation, a good one proceeds after one call; a proceed keeps the step mode |
| Orchestrator.FixLoop | dvx/src/orchestrator.py:1580-1638 | the loop ends with proceed only when the last review has no issues or is approved; a review that needs fixing ends only with a re-review, and the returned review is that reviewer's reply; a review that needs nothing makes no call |
| Orchestrator.TestStage | dvx/src/orchestrator.py:1640-1665 | nothing happens unless tests are missing; otherwise the test writer runs, a failed or blocked call is followed by an implementer-sourced escalation, and a good one proceeds after one call |
| Orchestrator.CommitStage | dvx/src/orchestrator.py:1667-1680 | the committer runs first; a failed or blocked commit is followed by an implementer-sourced escalation, and a good one proceeds after one call |
| Orchestrator.FinishTask | dvx/src/orchestrator.py:1682-1701 | the task is DONE with counter 0; in step mode the record is PAUSED and the run exits 0, otherwise the next task follows |
| Orchestrator.TaskBody | dvx/src/orchestrator.py:1367-1701 | every task stage sequence leaves a settled run that accounts for each reply, and going to the next task took an agent call |
| Orchestrator.Develop | dvx/src/orchestrator.py:1401-1701 | from the implementer on, a task ends settled; an `[already_complete]` answer ends it exactly as the implementation stage does |
| Orchestrator.Verify | dvx/src/orchestrator.py:1438-1701 | from the review on, a task ends settled, and going to the next task took an agent call |
| Orchestrator.Land | dvx/src/orchestrator.py:1639-1701 | tests, commit and bookkeeping end settled and never fall through to another stage |
| Orchestrator.PolishStage | dvx/src/orchestrator.py:1147-1214 | the polisher runs first; a failed polisher is followed by a polisher-sourced escalation; with no suggestions finalization proceeds after that one call; it never calls the finalizer and never exits 0 |
| Orchestrator.PolishFix | dvx/src/orchestrator.py:1168-1209 | the polish fixer runs first; a failed fix is followed by an implementer-sourced escalation; a good fix and a good commit proceed after exactly those two calls; the finalizer is never called |
| Orchestrator.PolishFixCall | dvx/src/orchestrator.py:1172-1185 | the polish fixer runs first; a failed or blocked call escalates (source implementer), a good one proceeds after one call |
| Orchestrator.PolishCommit | dvx/src/orchestrator.py:1191-1207 | the polish committer runs first; a failed or blocked commit escalates (source implementer), a good one proceeds after one call; the finalizer is never called |
| Orchestrator.FinalizerLoop | dvx/src/orchestrator.py:1218-1292 | from round i the finalizer runs at most 5 - i more times; each round starts with the finalizer; after round 5 exactly one orchestrator-sourced escalater call decides; every stop is settled and none exits 0 |
| Orchestrator.FinalizerRound | dvx/src/orchestrator.py:1221-1278 | each round calls the finalizer exactly once and first; a failed finalizer is followed by a finalizer-sourced escalation and never goes round again; approval or an unmarked answer ends the loop after that one call; issues are followed by the fixer, and a good fix sends the loop round again after exactly those two calls |
| Orchestrator.FinalizerFailed | dvx/src/orchestrator.py:1228-1240 | a failed finalizer call is followed by exactly one finalizer-sourced escalater call |
| Orchestrator.FinalizerIssues | dvx/src/orchestrator.py:1249-1272 | issues are followed by the fixer; the loop goes round again exactly when the fix proceeds, and a good fix does so after those two calls |
| Orchestrator.FinalizerFix | dvx/src/orchestrator.py:1249-1274 | the fixer runs first; a failed or blocked fix escalates (source implementer), a good one proceeds after one call; the finalizer is never called |
| Orchestrator.Finalize | dvx/src/orchestrator.py:1117-1317 | finalization always stops, settled, with at most five finalizer calls; exit 0 only with the record COMPLETE |
| Orchestrator.FinalizeApproves | dvx/src/orchestrator.py:1117-1317 | nothing to polish and an approving finalizer: exactly the polisher and the finalizer are called, then COMPLETE with exit 0 |
| Orchestrator.NewTaskAsWritten | dvx/src/plan_parser.py:41-48 | building a task fails iff no line number is given |
| Orchestrator.EscalateInFinalizationAsWritten | dvx/src/orchestrator.py:1090-1114 | without a line number the escalation raises the missing-argument error with no call and the world untouched |
| Orchestrator.PolishStageAsWritten | dvx/src/orchestrator.py:1149-1163 | as written, a failed polisher raises after the polisher call alone |
| Orchestrator.PolisherFailureAsWritten | dvx/src/orchestrator.py:1149-1163 | as written, a failed polisher raises, which `run_orchestrator` turns into exit 1, with the record still FINALIZING, no blocked context and no escalater call, so the exit is not settled |
| Orchestrator.PolisherFailureEscalates | dvx/src/orchestrator.py:1149-1163 | with the task built, a failed polisher reaches the escalater, and a stop leaves the record BLOCKED with a context |
| Orchestrator.OpenCountMonotone | dvx/src/orchestrator.py:1356-1365 | blocking one task never opens another |
| Orchestrator.OpenCountShrinks | dvx/src/orchestrator.py:1356-1365 | blocking an open task reduces the number of open tasks |
| Orchestrator.SkipUnsafe | dvx/src/orchestrator.py:1356-1365 | the safety skip blocks the task, closes it and leaves the record as it was |
| Orchestrator.RunTasks | dvx/src/orchestrator.py:1336-1703 | the task loop always stops, settled, and accounts for every reply; each turn starts from the plan as parsed after the last agent call, and a plan that does not parse raises before any agent call |
| Orchestrator.ReplanFailureRaises | dvx/src/orchestrator.py:1384-1394 | when the plan does not parse again after an applied split, the loop raises the parse error after the splitter and the applier |
| Orchestrator.NoTaskFinalizes | dvx/src/orchestrator.py:1338-1349 | with no next task the summary has nothing pending or in progress, so finalization runs |
| Orchestrator.UnsafeTaskSkipped | dvx/src/orchestrator.py:1355-1365 | an unsafe task is blocked and the loop continues on the same replies |
| Orchestrator.AlreadyCompleteSkipsReview | dvx/src/orchestrator.py:1415-1426 | `[already_complete]` after a no-split makes exactly two calls, with no reviewer or commit, and leaves the task DONE with counter 0 |
| Orchestrator.UnmarkedFinalAnswerApproves | dvx/src/orchestrator.py:1242-1278 | a successful finalizer answer with neither marker ends the loop as an approval after one call |
| Orchestrator.Start | dvx/src/orchestrator.py:1326-1334 | a missing record is created IDLE with the requested step mode; `--step` only turns step mode on |
| Orchestrator.RunOrchestrator | dvx/src/orchestrator.py:1090-1114 | a run exits 0 or 1 or stops on a plan-parse error; exit 1 only with the record BLOCKED and a blocked context, 0 only with it PAUSED or COMPLETE; a plan that does not parse stops the run before any agent; never more calls than replies, and `Exhausted` only once all were used |
| Cli.Project | dvx/src/cli.py:212-235 | the orchestrator sees the plan with the record, if any, under its key |
| Cli.DispatchRun | dvx/src/cli.py:185-292 | a missing plan, or another plan's record without `--force`, gives 1; a fresh start parses the plan, raising its error, and with no task gives 0; a COMPLETE record re-parses and gives 0, and only it stops without a run; BLOCKED is cleared to IDLE and PAUSED set to IDLE, both with the stored step mode; otherwise `--step` only turns step mode on |
| Cli.CmdRun | dvx/src/cli.py:185-292 | `dvx run` exits 0 or 1 or raises; after any agent call, exit 1 means BLOCKED with a context and 0 means PAUSED or COMPLETE; a refusal calls no agent; a plan that does not parse calls no agent and either is refused or raises its error |
| Cli.BlockedResumeKeepsStepMode | dvx/src/cli.py:237-265 | resuming a blocked plan ignores `--step` |
| Cli.FilenameLine | dvx/src/cli.py:141-151 | the first line starting with `FILENAME:`, none before it |
| Cli.ExtractFilename | dvx/src/cli.py:141-154 | a given name wins; without a marker line the name is `PLAN-new.md` and the text is kept; with one, the text is a stripped prefix of the output and the name is stripped or the default |
| Cli.MarkerName | dvx/src/cli.py:146-148 | the name from a marker line is stripped, or `PLAN-new.md` when nothing is left |
| Cli.ExtractFilenameAtMarker | dvx/src/cli.py:141-154 | at the first `FILENAME:` line the name comes from that line and the text is the stripped join of the lines before it |
| Cli.ExtractFilenameRoundTrip | dvx/src/cli.py:141-154 | a plan followed by a `FILENAME:` line with a clean name gives back that name and the stripped plan |
| Cli.Uncommented | dvx/src/cli.py:47-48 | no kept line starts with `#`, and each kept line is an input line; a single line is kept exactly when it does not start with `#` |
| Cli.UncommentedAppend | dvx/src/cli.py:47-48 | the filter works line by line: filtering a concatenation filters each part, so the kept lines are exactly the uncommented ones in their order |
| Cli.UncommentedKeeps | dvx/src/cli.py:47-48 | every line without a leading `#` is kept |
| Cli.UncommentedIdentity | dvx/src/cli.py:47-48 | a text with no comment line passes unchanged |
| Cli.FilterComments | dvx/src/cli.py:30-50 | the result is the uncommented lines of the text, joined by newlines and stripped; a text with no comment line comes back stripped and otherwise unchanged |

## Left out

- **Agent processes, git and the filesystem.** The subprocess, its streaming read loop, the wall-clock timeout, `launch_interactive`, `get_git_diff`, `get_branch_info` and the git and file work of `cleanup_plan` are left out. A run sees only their results: a `Reply` holds the `SessionResult` and the working tree afterwards. `cleanup_plan`'s success and failure branches both end COMPLETE with exit 0. `Finalize` states that exit 0 comes only with COMPLETE, and `FinalizeApproves` shows the approving path reaching it.
- **I/O, encodings and clocks.** JSON encoding, the md5 plan cache, `.gitignore` creation, logging, `_format_tool_params` and `_parse_stream_event` are left out. Timestamps are an input (`now`).
- **Prompts.** Templates, `load_prompt` and the prompt bodies are text without behaviour and are left out.
- **Regexes.** The regex of `parse_decisions` and the finalizer's issue-text regex are left out. The alternatives post-processing is modelled. Logging the decisions of agent output is left out of the orchestrator, and `StateStore.LogDecision` models the log itself.
- **Floats.** The float deletion ratio is replaced by the equivalent integer comparison (`Interpreter.MassiveMatchesRatio`), and ratio printing is left out.
- **Unicode.** Case folding is ASCII only.
- **Storage model.** The record store follows the newer API that `orchestrator.py` and dvx/tests/test_state.py:198-212 call, not the one `state.py` defines, where every function takes a `project_dir`. Against that `state.py` the orchestrator's calls would fail. It passes the plan file as the directory, so `ensure_dvx_dir(plan_file)` (dvx/src/orchestrator.py:1323) would create `.dvx` under a file path. Its keyword calls `write_blocked_context(..., session_id=...)` (dvx/src/orchestrator.py:1074) and `log_decision(..., plan_file=...)` (dvx/src/orchestrator.py:76-82) would raise `TypeError`. The model keys the record store by plan file and the override store by plan basename, as the orchestrator uses them. `Cli` sees one loaded record.
- **The blocked file's session.** The blocked context here carries the session, and `StateStore.BlockedText` writes it as a `**Session**:` line between the time and the context, as the state tests expect the file to name it. That line's wording is not fixed by any source.
- **`Task` construction.** `Task` is modelled as `plan_parser.py` defines it, with a required `line_number`. Unlike the state API, the definition and the parser's own calls (dvx/src/plan_parser.py:114 and 329) agree on it, and no test constructs a `Task` without it. The finalization calls that omit it are the bug under "## Findings".
- **Phases.** `Phase` in `state.py` lacks PAUSED and FINALIZING, and `State` lacks `step_mode`. All three are used by the orchestrator and the CLI and are included, with step mode off by default.
- **Review policy.** The review classifier follows the code's phrase lists and precedence. Some older review tests expect a policy the code no longer has.
- **Paused exit code.** The `run_orchestrator` docstring says a paused run returns 1; the code returns 0, and so does the model.
- Orchestrator.ReviewStage: the massive-deletion reason and context are reduced to their numbers, without the thousands separators and the one-decimal ratio of the source's messages.
- Orchestrator.Judge: the prompt-overflow context is reduced to the file count.
- Orchestrator.RunTasks: the model stops with `Exhausted` once every reply is used, where a real agent would always answer. Each turn's parse of the plan comes from the reply of the task's last agent call, which stands for the plan file as that agent left it; the parse cache and the file itself are not modelled. The exit-1 branch for a plan with no next task but open tasks is unreachable (`Orchestrator.NoTaskFinalizes`), so it has no model.
- Orchestrator.SplitStage: the re-parse after a split comes from the reply of the split-applying agent, not from the plan file; the next loop turn parses the same reply again, which changes nothing.
- Session.RunClaude: an exception's message `str(e)` may be empty, so only timeouts and a missing executable are promised a non-empty reason.
- Cli.DispatchRun: the status and summary printing of `cmd_run` is left out, as are `cmd_status`, `cmd_decisions` and `cmd_clean`.
- Cli.ExtractFilename: the agent call of `cmd_plan` and writing the file are left out; only the name and text extraction is modelled.
- Orchestrator.RunOrchestrator: the only exception modelled is a plan that does not parse. `KeyboardInterrupt`, `FileNotFoundError` and any other exception from agents, git or the filesystem also reach the handlers at dvx/src/orchestrator.py:1102-1114 and return 1 without a BLOCKED record; they are left out with the I/O that raises them.
- Cli.CmdRun: a parse error raised in the fresh-start or COMPLETE path of `cmd_run` is not caught by `main`, so the process ends with Python's status 1; the model reports it as `Raised`.
- Plans.Basename: pathlib's `Path.name` drops trailing slashes and single `.` segments first, so it gives `d` for `d/` where the model gives the empty key. The plan path reaches the orchestrator as `str(Path(...))` (dvx/src/cli.py:194 and 235), which already has neither, and on such paths the two agree.

## Findings

| source | as written | input that shows it | evidently intended | confidence | as-written member | corrected member |
|---|---|---|---|---|---|---|
| dvx/src/orchestrator.py:1153-1160 (and 1176-1183, 1197-1204, 1230-1237, 1258-1265, 1283-1290) | finalization builds its escalation pseudo-task as `Task(id=..., title=..., description=..., status=...)` without `line_number`, which dvx/src/plan_parser.py:41-48 requires; the raised error reaches the catch-all of `run_orchestrator` (1110-1114), which returns 1 with the record still FINALIZING, no blocked context and no escalater call (`Orchestrator.ExitCode` gives 1 for the `Raised` stop) | during finalization, a polisher reply with `success = false` | escalate through `evaluate_trigger` like every other agent failure, so a stop leaves the record BLOCKED with a blocked context | medium, not executed | Orchestrator.PolisherFailureAsWritten | Orchestrator.PolisherFailureEscalates |

=== FILE: cli.dfy ===
/** The command-line front of dvx/src/cli.py: how `dvx run` resumes from
    the loaded record, the `FILENAME:` line of a generated plan, and the
    comment filter of editor input. */
module Cli {

  import opened Wrappers
  import opened Text
  import P = Plans
  import S = StateStore
  import O = Orchestrator

  /** `dvx run PLAN [--step] [--force]` */
  datatype Command = Command(planFile: string, step: bool, force: bool)

  /** What `cmd_run` decides before any agent runs: return a code at once,
      raise from the plan parse it does itself (outside the catch-all of
      `run_orchestrator`), or hand the orchestrator a world and a step mode. */
  datatype Dispatch =
    | Refuse(code: int, record: Option<S.State>)
    | Raise(error: string, record: Option<S.State>)
    | Launch(w: O.World, step: bool)

  /** The world the orchestrator sees for plan `key` with the project's
      record, if any. */
  function Project(w: O.World, key: string, record: Option<S.State>): (r: O.World)
    ensures r.planFile == key && (r.Valid() <==> record.Some?)
    ensures record.Some? ==> r.Stored() == record.value
    ensures r.(planFile := w.planFile, store := w.store) == w
  {
    w.(planFile := key, store := if record.Some? then map[key := record.value] else map[])
  }

  /** The tasks of `planFile` with their recorded statuses. */
  function TasksOf(w: O.World, planFile: string): seq<P.Task> {
    P.ApplyStatusOverrides(w.plan, P.OverridesFor(w.overrides, P.Basename(planFile)))
  }

  /** The dispatch of `cmd_run` on the loaded `record`. */
  function DispatchRun(w: O.World, planExists: bool, record: Option<S.State>, cmd: Command): (d: Dispatch)
    // a missing plan file, or a record for another plan without --force, stops with 1
    ensures !planExists ==> d == Refuse(1, record)
    ensures planExists && record.Some? && record.value.planFile != cmd.planFile && !cmd.force ==> d == Refuse(1, record)
    // a fresh start (no record, or a forced reset) parses the plan first; with nothing to do it returns 0
    ensures planExists && (record.None? || (record.value.planFile != cmd.planFile && cmd.force)) ==>
      if w.planError.Some? then d == Raise(w.planError.value, None)
      else if P.NextPendingTask(TasksOf(w, cmd.planFile)).None? then d == Refuse(0, None)
      else d.Launch? && !d.w.Valid() && d.w.planFile == cmd.planFile && d.step == cmd.step
    // a record for this plan decides by its phase
    ensures planExists && record.Some? && record.value.planFile == cmd.planFile ==> var s := record.value;
      && (s.InPhase(S.Complete) <==> !d.Launch?)
      && (s.InPhase(S.Complete) ==> d == if w.planError.Some? then Raise(w.planError.value, record) else Refuse(0, record))
      && (s.InPhase(S.Blocked) ==> d.Launch? && d.w.Valid() && d.w.Stored().InPhase(S.Idle) && d.w.blocked.None? && d.step == s.stepMode)
      && (s.InPhase(S.Paused) ==> d.Launch? && d.w.Valid() && d.w.Stored().InPhase(S.Idle) && d.step == s.stepMode)
      && (d.Launch? && !s.InPhase(S.Blocked) && !s.InPhase(S.Paused) ==>
            d.step == (s.stepMode || cmd.step) && d.w.Valid() && d.w.Stored().stepMode == d.step && d.w.Stored().phase == s.phase)
    ensures d.Launch? ==> d.w.planFile == cmd.planFile && d.w.plan == w.plan && d.w.planError == w.planError && d.w.overrides == w.overrides
  {
    if !planExists then Refuse(1, record)
    else if record.Some? && record.value.planFile != cmd.planFile && !cmd.force then Refuse(1, record)
    else
      var current := if record.Some? && record.value.planFile != cmd.planFile then None else record;
      match current
      case None =>
        if w.planError.Some? then Raise(w.planError.value, None)
        else if P.NextPendingTask(TasksOf(w, cmd.planFile)).None? then Refuse(0, None)
        else Launch(Project(w, cmd.planFile, None), cmd.step)
      case Some(s) =>
        var key := s.planFile;
        if s.InPhase(S.Blocked) then
          var (store, artifact) := S.ClearBlocked(map[key := s], key, w.now);
          Launch(Project(w.(blocked := artifact), key, Some(store[key])), s.stepMode)
        else if s.InPhase(S.Paused) then
          Launch(Project(w, key, Some(S.UpdatePhase(map[key := s], key, S.Idle, w.now).value.state)), s.stepMode)
        else if s.InPhase(S.Complete) then
          if w.planError.Some? then Raise(w.planError.value, record) else Refuse(0, record)
        else
          var s' := if cmd.step && !s.stepMode then s.(stepMode := true, updatedAt := Some(w.now)) else s;
          Launch(Project(w, key, Some(s')), s'.stepMode)
  }

  /** The result of `dvx run`: how it stopped, the record left behind, the
      blocked artifact, and the agents invoked. */
  datatype CmdResult = CmdResult(stop: O.Stop, record: Option<S.State>, blocked: Option<S.BlockedContext>, calls: seq<O.Role>)

  /** `cmd_run`: the dispatch, then the orchestrator on the replies. */
  function CmdRun(w: O.World, planExists: bool, record: Option<S.State>, cmd: Command, replies: seq<O.Reply>): (r: CmdResult)
    ensures r.stop.Exit? ==> r.stop.code == 0 || r.stop.code == 1
    ensures r.stop == O.Exit(1) && r.calls != [] ==> r.record.Some? && r.record.value.InPhase(S.Blocked) && r.blocked.Some?
    ensures r.stop == O.Exit(0) && r.calls != [] ==>
      r.record.Some? && (r.record.value.InPhase(S.Paused) || r.record.value.InPhase(S.Complete))
    ensures DispatchRun(w, planExists, record, cmd).Refuse? ==> r.calls == [] && r.record == DispatchRun(w, planExists, record, cmd).record
    // a plan that does not parse raises before any agent, unless the dispatch refuses first
    ensures w.planError.Some? && planExists ==> r.calls == [] && (r.stop.Exit? || r.stop == O.Raised(w.planError.value))
    ensures |r.calls| <= |replies|
  {
    match DispatchRun(w, planExists, record, cmd)
    case Refuse(code, rec) => CmdResult(O.Exit(code), rec, w.blocked, [])
    case Raise(e, rec) => CmdResult(O.Raised(e), rec, w.blocked, [])
    case Launch(start, step) =>
      var o := O.RunOrchestrator(start, step, replies);
      CmdResult(o.stop, Some(o.w.Stored()), o.w.blocked, o.calls)
  }

  /** Resuming a blocked plan ignores `--step`: the stored step mode wins. */
  lemma BlockedResumeKeepsStepMode(w: O.World, record: Option<S.State>, cmd: Command)
    requires record.Some? && record.value.planFile == cmd.planFile && record.value.InPhase(S.Blocked)
    ensures DispatchRun(w, true, record, cmd).step == record.value.stepMode
    ensures DispatchRun(w, true, record, cmd) == DispatchRun(w, true, record, cmd.(step := !cmd.step))
  {
  }

  // ---------------------------------------------------------------------
  // cmd_plan: the FILENAME line

  const FilenameMarker := "FILENAME:"
  const DefaultPlanName := "PLAN-new.md"

  /** The first line at or after `k` that starts with `FILENAME:`. */
  function FilenameLine(lines: seq<string>, k: nat): (r: Option<nat>)
    requires k <= |lines|
    ensures r.Some? ==> k <= r.value < |lines| && FilenameMarker <= lines[r.value]
    ensures r.Some? ==> forall j :: k <= j < r.value ==> !(FilenameMarker <= lines[j])
    ensures r.None? ==> forall j :: k <= j < |lines| ==> !(FilenameMarker <= lines[j])
    decreases |lines| - k
  {
    if k == |lines| then None
    else if FilenameMarker <= lines[k] then Some(k)
    else FilenameLine(lines, k + 1)
  }

  /** The file name and plan text `cmd_plan` writes, from the stripped
      agent output and the name given on the command line (empty when
      none): without a given name, the first `FILENAME:` line supplies it
      and the text is cut to the lines before that one; the fallback name
      is `PLAN-new.md`. */
  function ExtractFilename(output: string, given: string): (r: (string, string))
    ensures r.0 != ""
    ensures given != "" ==> r == (given, output)
    ensures given == "" && FilenameLine(Split(output, '\n'), 0).None? ==> r == (DefaultPlanName, output)
    ensures given == "" && FilenameLine(Split(output, '\n'), 0).Some? ==> exists p :: p <= output && r.1 == Strip(p)
    ensures given == "" ==> r.0 == DefaultPlanName || Trimmed(r.0)
  {
    if given != "" then (given, output)
    else
      var lines := Split(output, '\n');
      match FilenameLine(lines, 0)
      case None => (DefaultPlanName, output)
      case Some(i) =>
        CutIsPrefix(output, i);
        (MarkerName(lines[i]), Strip(Join(lines[..i], '\n')))
  }

  /** The lines before line `i`, joined again, begin the text. */
  lemma CutIsPrefix(output: string, i: nat)
    requires i <= |Split(output, '\n')|
    ensures Join(Split(output, '\n')[..i], '\n') <= output
  {
    JoinSplit(output, '\n');
    JoinPrefix(Split(output, '\n'), '\n', i);
  }

  /** Non-empty, with no whitespace at either end. */
  predicate Trimmed(s: string) {
    s != "" && !IsSpace(s[0]) && !IsSpace(s[|s| - 1])
  }

  /** The name a marker line gives: the line without any `FILENAME:`,
      stripped, or the fallback name when that leaves nothing. */
  function MarkerName(line: string): (r: string)
    ensures r == DefaultPlanName || Trimmed(r)
  {
    var name := Strip(RemoveAll(line, FilenameMarker));
    if name == "" then DefaultPlanName else name
  }

  /** Without a given name, the first marker line names the file and the
      text is cut to the lines before it. */
  lemma ExtractFilenameAtMarker(output: string, k: nat)
    requires FirstMarkerAt(Split(output, '\n'), k)
    ensures var lines := Split(output, '\n');
      ExtractFilename(output, "") == (MarkerName(lines[k]), Strip(Join(lines[..k], '\n')))
  {
    var lines := Split(output, '\n');
    var i := FilenameLine(lines, 0).value;
    MarkerUnique(lines, i, k);
  }

  /** Line `k` is the first that starts with `FILENAME:`. */
  predicate FirstMarkerAt(lines: seq<string>, k: nat) {
    k < |lines| && FilenameMarker <= lines[k] && forall j :: 0 <= j < k ==> !(FilenameMarker <= lines[j])
  }

  lemma MarkerUnique(lines: seq<string>, i: nat, k: nat)
    requires FirstMarkerAt(lines, i) && FirstMarkerAt(lines, k)
    ensures i == k
  {
  }

  /** A plan written as its lines followed by a `FILENAME:` line is read
      back as that name and those lines. */
  lemma {:induction false} ExtractFilenameRoundTrip(parts: seq<string>, name: string)
    requires forall k :: 0 <= k < |parts| ==> '\n' !in parts[k] && !(FilenameMarker <= parts[k])
    requires Trimmed(name) && '\n' !in name && !Contains(name, FilenameMarker)
    ensures var r := ExtractFilename(Join(parts + [FilenameMarker + name], '\n'), "");
      r.0 == name && r.1 == Strip(Join(parts, '\n'))
  {
    var output := Join(parts + [FilenameMarker + name], '\n');
    var k := |parts|;
    MarkerLine(name);
    PlanLines(parts, FilenameMarker + name);
    var lines := Split(output, '\n');
    assert lines[..k] == parts && lines[k] == FilenameMarker + name;
    ExtractFilenameAtMarker(output, k);
    MarkerNameOf(name);
    var r := ExtractFilename(output, "");
    assert r.0 == MarkerName(lines[k]) == name;
    assert r.1 == Strip(Join(lines[..k], '\n')) == Strip(Join(parts, '\n'));
  }

  lemma MarkerNameOf(name: string)
    requires !Contains(name, FilenameMarker) && Trimmed(name)
    ensures MarkerName(FilenameMarker + name) == name
  {
    RemoveMarker(name);
    StripKeeps(name);
  }

  /** The lines of a plan followed by its marker line. */
  lemma PlanLines(parts: seq<string>, line: string)
    requires forall k :: 0 <= k < |parts| ==> '\n' !in parts[k] && !(FilenameMarker <= parts[k])
    requires '\n' !in line && FilenameMarker <= line
    ensures var lines := parts + [line];
      && Split(Join(lines, '\n'), '\n') == lines
      && FirstMarkerAt(lines, |parts|) && lines[..|parts|] == parts && lines[|parts|] == line
  {
    var lines := parts + [line];
    assert forall k :: 0 <= k < |parts| ==> lines[k] == parts[k];
    assert lines[|parts|] == line;
    SplitJoin(lines, '\n');
  }

  lemma MarkerLine(name: string)
    requires '\n' !in name
    ensures FilenameMarker <= FilenameMarker + name && '\n' !in FilenameMarker + name
  {
    assert '\n' !in FilenameMarker;
    assert forall c :: c in FilenameMarker + name ==> c in FilenameMarker || c in name;
  }

  /** Removing the marker from the marker line leaves the name. */
  lemma RemoveMarker(name: string)
    requires !Contains(name, FilenameMarker)
    ensures RemoveAll(FilenameMarker + name, FilenameMarker) == name
  {
    var line := FilenameMarker + name;
    assert line[..|FilenameMarker|] == FilenameMarker;
    assert line[|FilenameMarker|..] == name;
  }

  // ---------------------------------------------------------------------
  // get_user_input_from_editor: the comment filter

  /** The lines that do not start with `#`, in order. */
  function Uncommented(lines: seq<string>): (r: seq<string>)
    ensures |r| <= |lines|
    ensures forall k :: 0 <= k < |r| ==> !("#" <= r[k]) && r[k] in lines
    ensures |lines| == 1 ==> r == (if "#" <= lines[0] then [] else lines)
  {
    if |lines| == 0 then []
    else if "#" <= lines[0] then Uncommented(lines[1..])
    else [lines[0]] + Uncommented(lines[1..])
  }

  /** The filter works line by line: filtering a concatenation filters
      each part, so with the one-line case it keeps exactly the lines
      without a leading `#`, in their order. */
  lemma {:induction false} UncommentedAppend(a: seq<string>, b: seq<string>)
    ensures Uncommented(a + b) == Uncommented(a) + Uncommented(b)
  {
    if |a| > 0 {
      assert (a + b)[1..] == a[1..] + b;
      assert (a + b)[0] == a[0];
      UncommentedAppend(a[1..], b);
    } else {
      assert a + b == b;
    }
  }

  /** Every line without a leading `#` survives the filter. */
  lemma {:induction false} UncommentedKeeps(lines: seq<string>, i: nat)
    requires i < |lines| && !("#" <= lines[i])
    ensures lines[i] in Uncommented(lines)
  {
    if i > 0 {
      UncommentedKeeps(lines[1..], i - 1);
    }
  }

  /** A text with no comment line passes the filter unchanged. */
  lemma {:induction false} UncommentedIdentity(lines: seq<string>)
    requires forall k :: 0 <= k < |lines| ==> !("#" <= lines[k])
    ensures Uncommented(lines) == lines
  {
    if |lines| > 0 {
      UncommentedIdentity(lines[1..]);
    }
  }

  /** The editor text with comment lines dropped, joined and stripped. */
  function FilterComments(content: string): (r: string)
    ensures (forall k :: 0 <= k < |Split(content, '\n')| ==> !("#" <= Split(content, '\n')[k])) ==> r == Strip(content)
    ensures |r| <= |Join(Uncommented(Split(content, '\n')), '\n')|
    ensures r == Strip(Join(Uncommented(Split(content, '\n')), '\n'))
  {
    var lines := Split(content, '\n');
    JoinSplit(content, '\n');
    assert (forall k :: 0 <= k < |lines| ==> !("#" <= lines[k])) ==> Uncommented(lines) == lines by {
      if forall k :: 0 <= k < |lines| ==> !("#" <= lines[k]) {
        UncommentedIdentity(lines);
      }
    }
    Strip(Join(Uncommented(lines), '\n'))
  }
}

=== FILE: interpreter.dfy ===
/** The pure classifiers of dvx/src/orchestrator.py: each lower-cases an
    agent's text and tests it for bracket markers and phrases. Also the task
    safety gate, the trigger-context builder, the change-size guard, and the
    post-processing of a decision's alternatives. */
module Interpreter {

  import opened Wrappers
  import opened Text

  // ---------------------------------------------------------------------
  // Reviewer output

  datatype Review = Review(
    approved: bool,
    hasIssues: bool,
    missingTests: bool,
    critical: bool,
    suggestions: string)  // the full output, handed to the implementer as feedback

  predicate ExplicitApproved(l: string) {
    Contains(l, "[approved]")
  }

  predicate HeuristicApproved(l: string) {
    Contains(l, "lgtm") || Contains(l, "looks good")
  }

  predicate ExplicitIssues(l: string) {
    Contains(l, "[issues]") || Contains(l, "[suggestions]")
  }

  predicate HeuristicIssues(l: string) {
    Contains(l, "should be") || Contains(l, "consider") || Contains(l, "recommend")
  }

  predicate MissingTestsPhrase(l: string) {
    Contains(l, "missing test") || Contains(l, "no test") || Contains(l, "add test") || Contains(l, "needs test")
  }

  /** The phrase list; the bare word "security" is deliberately absent. */
  predicate CriticalPhrase(l: string) {
    || Contains(l, "[critical]")
    || Contains(l, "[blocked]")
    || Contains(l, "critical issue")
    || Contains(l, "security vulnerability")
    || Contains(l, "security risk")
    || Contains(l, "security flaw")
  }

  /** `parse_review_result`. Critical findings dominate approval; approval
      needs an approval signal; a heuristic approval counts only when no
      issue was flagged; heuristic issue phrases count only without an
      explicit `[approved]`. */
  function ParseReview(output: string): (r: Review)
    ensures r.suggestions == output
    ensures r.critical ==> !r.approved
    ensures r.critical <==> CriticalPhrase(Lower(output))
    ensures r.approved ==> ExplicitApproved(Lower(output)) || HeuristicApproved(Lower(output))
    ensures r.approved && !ExplicitApproved(Lower(output)) ==> !r.hasIssues
    ensures r.hasIssues && !ExplicitIssues(Lower(output)) ==> !ExplicitApproved(Lower(output))
    ensures r.missingTests <==> MissingTestsPhrase(Lower(output))
    // an explicit `[approved]` approves unless critical and silences the heuristic issue phrases
    ensures var l := Lower(output);
      ExplicitApproved(l) ==> (r.approved <==> !CriticalPhrase(l)) && (r.hasIssues <==> ExplicitIssues(l))
    // with no explicit marker at all, the heuristic phrases decide
    ensures var l := Lower(output);
      !ExplicitApproved(l) && !ExplicitIssues(l) ==>
        && (r.hasIssues <==> HeuristicIssues(l))
        && (r.approved <==> HeuristicApproved(l) && !HeuristicIssues(l) && !CriticalPhrase(l))
  {
    var l := Lower(output);
    var explicitApproved := ExplicitApproved(l);
    var hasIssues := ExplicitIssues(l) || (HeuristicIssues(l) && !explicitApproved);
    var critical := CriticalPhrase(l);
    var approved := (explicitApproved && !critical) || (HeuristicApproved(l) && !hasIssues && !critical);
    Review(approved, hasIssues, MissingTestsPhrase(l), critical, output)
  }

  /** The review flags alone, without the echoed text. */
  function ReviewFlags(r: Review): (bool, bool, bool, bool) {
    (r.approved, r.hasIssues, r.missingTests, r.critical)
  }

  /** Empty reviewer output approves nothing and flags nothing. */
  lemma ReviewOfEmpty()
    ensures ReviewFlags(ParseReview("")) == (false, false, false, false)
  {
    assert Lower("") == "";
  }

  /** Classification ignores case: `text` and `lower(text)` get the same flags. */
  lemma ReviewIgnoresCase(text: string)
    ensures ReviewFlags(ParseReview(Lower(text))) == ReviewFlags(ParseReview(text))
  {
    LowerIdempotent(text);
  }

  /** An explicit `[approved]` outweighs heuristic issue phrases such as
      "should be": with no explicit issue marker and nothing critical the
      review is approved and raises no issues. */
  lemma ApprovedMarkerBeatsHeuristics(text: string)
    requires ExplicitApproved(Lower(text))
    requires !ExplicitIssues(Lower(text))
    requires !CriticalPhrase(Lower(text))
    ensures ParseReview(text).approved && !ParseReview(text).hasIssues
  {
  }

  /** An explicit issue marker always raises issues, and approval then
      needs the explicit `[approved]` marker. */
  lemma IssuesMarkerNeedsExplicitApproval(text: string)
    requires ExplicitIssues(Lower(text))
    ensures ParseReview(text).hasIssues
    ensures ParseReview(text).approved <==> ExplicitApproved(Lower(text)) && !CriticalPhrase(Lower(text))
  {
  }

  // ---------------------------------------------------------------------
  // Escalater, splitter, polisher, finalizer, implementer outputs

  datatype Escalation = Escalation(proceed: bool, escalate: bool, output: string)

  /** `parse_escalation_result`: `[escalate]` beats `[proceed]`. */
  function ParseEscalation(output: string): (r: Escalation)
    ensures !(r.proceed && r.escalate)
    ensures r.escalate <==> Contains(Lower(output), "[escalate]")
    ensures r.proceed <==> Contains(Lower(output), "[proceed]") && !Contains(Lower(output), "[escalate]")
    ensures r.output == output
  {
    var l := Lower(output);
    var proceed := Contains(l, "[proceed]");
    var escalate := Contains(l, "[escalate]");
    Escalation(proceed && !escalate, escalate, output)
  }

  datatype SplitDecision = SplitDecision(shouldSplit: bool, subtasks: string, output: string)

  /** The `## Subtasks` heading (any case) at `i`, followed by a run of
      whitespace that contains a newline: where `## Subtasks\s*\n` matches. */
  predicate SubtasksHeadingAt(output: string, i: nat) {
    && MatchAt(Lower(output), "## subtasks", i)
    && var rest := output[i + 11..];
       '\n' in rest[..LeadingSpaces(rest)]
  }

  /** `i` is where the heading first matches, as `re.search` finds it. */
  predicate FirstHeadingAt(output: string, i: nat) {
    i + 11 <= |output| && SubtasksHeadingAt(output, i) && forall j: nat :: j < i ==> !SubtasksHeadingAt(output, j)
  }

  lemma FirstHeadingUnique(output: string, i: nat, k: nat)
    requires FirstHeadingAt(output, i) && FirstHeadingAt(output, k)
    ensures i == k
  {
  }

  /** The first position where the subtasks heading matches. */
  function FirstSubtasksHeading(output: string, from: nat): (r: Option<nat>)
    ensures r.Some? ==> from <= r.value && SubtasksHeadingAt(output, r.value)
    ensures r.Some? ==> forall j :: from <= j < r.value ==> !SubtasksHeadingAt(output, j)
    ensures r.None? ==> forall j :: from <= j ==> !SubtasksHeadingAt(output, j)
    decreases |output| - from
  {
    if from + 11 > |output| then None
    else if SubtasksHeadingAt(output, from) then Some(from)
    else FirstSubtasksHeading(output, from + 1)
  }

  /** The text after the first subtasks heading, stripped. The source's
      group is what follows the heading's last newline; the whitespace
      between heading and that newline is removed by the strip anyway. */
  function SubtasksSection(output: string): (r: string)
    ensures r == [] || (!IsSpace(r[0]) && !IsSpace(r[|r| - 1]))
    ensures r != [] ==> Contains(Lower(output), "## subtasks")
    ensures (forall i: nat :: !SubtasksHeadingAt(output, i)) ==> r == ""
    ensures forall i: nat :: FirstHeadingAt(output, i) ==> r == Strip(output[i + 11..])
  {
    match FirstSubtasksHeading(output, 0)
    case None => ""
    case Some(i) =>
      ContainsAt(Lower(output), "## subtasks", i);
      assert FirstHeadingAt(output, i);
      forall k: nat | FirstHeadingAt(output, k) ensures k == i {
        FirstHeadingUnique(output, i, k);
      }
      Strip(output[i + 11..])
  }

  /** `parse_split_result`: `[no_split]` beats `[split]`; subtasks are
      extracted only when `[split]` is present. */
  function ParseSplit(output: string): (r: SplitDecision)
    ensures r.shouldSplit <==> Contains(Lower(output), "[split]") && !Contains(Lower(output), "[no_split]")
    ensures r.subtasks != [] ==> Contains(Lower(output), "[split]") && Contains(Lower(output), "## subtasks")
    ensures Contains(Lower(output), "[split]") && Contains(Lower(output), "## subtasks") ==> r.subtasks == SubtasksSection(output)
    ensures !(Contains(Lower(output), "[split]") && Contains(Lower(output), "## subtasks")) ==> r.subtasks == ""
    ensures r.subtasks == [] || !IsSpace(r.subtasks[0])
    ensures r.output == output
  {
    var l := Lower(output);
    var split := Contains(l, "[split]");
    var noSplit := Contains(l, "[no_split]");
    var subtasks := if split && Contains(l, "## subtasks") then SubtasksSection(output) else "";
    SplitDecision(split && !noSplit, subtasks, output)
  }

  datatype Polish = Polish(polished: bool, hasSuggestions: bool, suggestions: string, output: string)

  /** `parse_polisher_result`: `[suggestions]` beats `[polished]`, and the
      suggestions text is empty unless there are suggestions. */
  function ParsePolisher(output: string): (r: Polish)
    ensures !(r.polished && r.hasSuggestions)
    ensures r.hasSuggestions <==> Contains(Lower(output), "[suggestions]")
    ensures r.polished <==> Contains(Lower(output), "[polished]") && !r.hasSuggestions
    ensures r.suggestions == (if r.hasSuggestions then output else "")
  {
    var l := Lower(output);
    var polished := Contains(l, "[polished]");
    var hasSuggestions := Contains(l, "[suggestions]");
    Polish(polished && !hasSuggestions, hasSuggestions, if hasSuggestions then output else "", output)
  }

  datatype Final = Final(approved: bool, hasIssues: bool, output: string)

  /** `parse_finalizer_result` (markers only): `[issues]` beats `[approved]`. */
  function ParseFinalizer(output: string): (r: Final)
    ensures !(r.approved && r.hasIssues)
    ensures r.hasIssues <==> Contains(Lower(output), "[issues]")
    ensures r.approved <==> Contains(Lower(output), "[approved]") && !r.hasIssues
    ensures r.output == output
  {
    var l := Lower(output);
    var approved := Contains(l, "[approved]");
    var hasIssues := Contains(l, "[issues]");
    Final(approved && !hasIssues, hasIssues, output)
  }

  /** `is_already_complete` */
  predicate IsAlreadyComplete(output: string) {
    Contains(Lower(output), "[already_complete]")
  }

  /** Every marker test ignores case. */
  lemma MarkersIgnoreCase(text: string)
    ensures ParseEscalation(Lower(text)).(output := "") == ParseEscalation(text).(output := "")
    ensures ParseSplit(Lower(text)).shouldSplit == ParseSplit(text).shouldSplit
    ensures ParsePolisher(Lower(text)).hasSuggestions == ParsePolisher(text).hasSuggestions
    ensures ParsePolisher(Lower(text)).polished == ParsePolisher(text).polished
    ensures ParseFinalizer(Lower(text)).(output := "") == ParseFinalizer(text).(output := "")
    ensures IsAlreadyComplete(Lower(text)) == IsAlreadyComplete(text)
  {
    LowerIdempotent(text);
  }

  // ---------------------------------------------------------------------
  // Task safety gate

  /** The denylist, in the order it is scanned: (pattern, description). */
  const ForbiddenPatterns: seq<(string, string)> := [
    ("merge to main", "merging to main branch"),
    ("merge to master", "merging to master branch"),
    ("push to main", "pushing to main branch"),
    ("push to master", "pushing to master branch"),
    ("deploy to", "deployment operations"),
    ("deploy the", "deployment operations"),
    ("production deploy", "production deployment"),
    ("release to", "release operations"),
    ("merge branch", "branch merging"),
    ("git merge main", "merging main"),
    ("git merge master", "merging master")
  ]

  /** The index of the first pattern at or after `k` that occurs in `text`. */
  function FirstForbidden(text: string, k: nat): (r: Option<nat>)
    requires k <= |ForbiddenPatterns|
    ensures r.Some? ==> k <= r.value < |ForbiddenPatterns| && Contains(text, ForbiddenPatterns[r.value].0)
    ensures r.Some? ==> forall j :: k <= j < r.value ==> !Contains(text, ForbiddenPatterns[j].0)
    ensures r.None? ==> forall j :: k <= j < |ForbiddenPatterns| ==> !Contains(text, ForbiddenPatterns[j].0)
    decreases |ForbiddenPatterns| - k
  {
    if k == |ForbiddenPatterns| then None
    else if Contains(text, ForbiddenPatterns[k].0) then Some(k)
    else FirstForbidden(text, k + 1)
  }

  /** `validate_task_safety`: unsafe exactly when some forbidden pattern
      occurs in the lower-cased "title description"; the message names the
      first such pattern in list order; the safe answer is `(true, "")`. */
  function ValidateTaskSafety(title: string, description: string): (r: (bool, string))
    ensures var text := Lower(title + " " + description);
      && (!r.0 <==> exists j :: 0 <= j < |ForbiddenPatterns| && Contains(text, ForbiddenPatterns[j].0))
      && (r.0 ==> r.1 == "")
      && (!r.0 ==> exists j :: 0 <= j < |ForbiddenPatterns| && Contains(text, ForbiddenPatterns[j].0)
                     && (forall i :: 0 <= i < j ==> !Contains(text, ForbiddenPatterns[i].0))
                     && r.1 == "Task contains forbidden operation: " + ForbiddenPatterns[j].1)
  {
    var text := Lower(title + " " + description);
    match FirstForbidden(text, 0)
    case Some(j) => (false, "Task contains forbidden operation: " + ForbiddenPatterns[j].1)
    case None => (true, "")
  }

  // ---------------------------------------------------------------------
  // Trigger context

  const NoContext := "(No output or error captured)"

  /** The error line appended after the output. */
  function ErrorLine(reason: string): (r: string)
    ensures Contains(r, reason)
  {
    ContainsMiddle("\n**Error**: ", reason, "");
    assert "\n**Error**: " + reason + "" == "\n**Error**: " + reason;
    "\n**Error**: " + reason
  }

  /** `build_trigger_context`: the parts present among the stripped output
      (when not blank) and the error line (when a block reason is set),
      newline-joined; with neither, the fallback, or a fixed notice when the
      fallback is empty too. */
  function BuildTriggerContext(output: string, blockReason: Option<string>, fallback: string): (r: string)
    ensures |r| > 0
    ensures !AllSpace(output) ==> Contains(r, Strip(output))
    ensures Truthy(blockReason) ==> Contains(r, blockReason.value)
    ensures AllSpace(output) && !Truthy(blockReason) ==> r == (if fallback != "" then fallback else NoContext)
  {
    var hasOutput := !AllSpace(output);
    var hasError := Truthy(blockReason);
    if hasOutput && hasError then
      var s := Strip(output);
      JoinedPair(s, blockReason.value);
      s + "\n" + ErrorLine(blockReason.value)
    else if hasOutput then
      var s := Strip(output);
      StripEmptyIff(output);
      ContainsSelf(s);
      s
    else if hasError then
      ErrorLine(blockReason.value)
    else if fallback != "" then fallback
    else NoContext
  }

  /** Both pieces survive the newline join of output and error line. */
  lemma JoinedPair(s: string, reason: string)
    ensures Contains(s + "\n" + ErrorLine(reason), s)
    ensures Contains(s + "\n" + ErrorLine(reason), reason)
  {
    var e := ErrorLine(reason);
    var joined := s + "\n" + e;
    assert joined[..|s|] == s;
    ContainsAt(joined, s, 0);
    assert joined == (s + "\n") + e;
    ContainsExtendLeft(s + "\n", e, reason);
  }

  // ---------------------------------------------------------------------
  // Change-size guard

  datatype PorcelainCounts = PorcelainCounts(changed: nat, deleted: nat, added: nat)

  /** The status column of a porcelain line: `line[:2].strip()`. */
  function StatusCode(line: string): string {
    Strip(if |line| < 2 then line else line[..2])
  }

  /** The positions of non-empty porcelain lines. */
  function NonEmptyLines(lines: seq<string>): set<nat> {
    set i: nat | i < |lines| && lines[i] != ""
  }

  /** The positions of non-empty porcelain lines whose status is `code`. */
  function LinesWithCode(lines: seq<string>, code: string): set<nat> {
    set i: nat | i < |lines| && lines[i] != "" && StatusCode(lines[i]) == code
  }

  function Plus(a: PorcelainCounts, b: PorcelainCounts): PorcelainCounts {
    PorcelainCounts(a.changed + b.changed, a.deleted + b.deleted, a.added + b.added)
  }

  /** What one porcelain line contributes: an empty line nothing, any other
      line one changed file, which is a deletion for status `D` and an
      untracked addition for `??`. */
  function LineCounts(line: string): (r: PorcelainCounts)
    ensures r.deleted + r.added <= r.changed == (if line == "" then 0 else 1)
  {
    if line == "" then PorcelainCounts(0, 0, 0)
    else
      var code := StatusCode(line);
      PorcelainCounts(1, if code == "D" then 1 else 0, if code == "??" then 1 else 0)
  }

  /** Tallies porcelain lines, one line at a time (the sum does not
      depend on the order, so it is taken from the last line back). */
  function CountPorcelain(lines: seq<string>): (r: PorcelainCounts)
    ensures r.deleted + r.added <= r.changed <= |lines|
  {
    if |lines| == 0 then PorcelainCounts(0, 0, 0)
    else Plus(CountPorcelain(lines[..|lines| - 1]), LineCounts(lines[|lines| - 1]))
  }

  /** The tallies are the sizes of the line sets they stand for: every
      non-empty line, the `D` lines and the `??` lines. */
  lemma {:induction false} CountPorcelainCounts(lines: seq<string>)
    ensures CountPorcelain(lines).changed == |NonEmptyLines(lines)|
    ensures CountPorcelain(lines).deleted == |LinesWithCode(lines, "D")|
    ensures CountPorcelain(lines).added == |LinesWithCode(lines, "??")|
    decreases |lines|
  {
    if |lines| == 0 {
      assert NonEmptyLines(lines) == {};
      assert LinesWithCode(lines, "D") == {};
      assert LinesWithCode(lines, "??") == {};
    } else {
      var n := |lines| - 1;
      CountPorcelainCounts(lines[..n]);
      LinesSnoc(lines, "D");
      LinesSnoc(lines, "??");
      NonEmptySnoc(lines);
    }
  }

  /** Appending one line adds its position to the set it belongs to. */
  lemma LinesSnoc(lines: seq<string>, code: string)
    requires |lines| > 0
    ensures var n := |lines| - 1;
      LinesWithCode(lines, code) ==
        LinesWithCode(lines[..n], code) + (if lines[n] != "" && StatusCode(lines[n]) == code then {n} else {})
  {
    var n := |lines| - 1;
    var pre := lines[..n];
    forall i: nat | i < n ensures pre[i] == lines[i] {
    }
  }

  lemma NonEmptySnoc(lines: seq<string>)
    requires |lines| > 0
    ensures var n := |lines| - 1;
      NonEmptyLines(lines) == NonEmptyLines(lines[..n]) + (if lines[n] != "" then {n} else {})
  {
    var n := |lines| - 1;
    var pre := lines[..n];
    forall i: nat | i < n ensures pre[i] == lines[i] {
    }
  }

  datatype ChangeStats = ChangeStats(
    filesChanged: nat,
    filesDeleted: nat,
    filesAdded: nat,
    insertions: nat,
    deletions: nat,
    isMassive: bool)

  /** The massive-change rule with integers: a mass deletion (more than
      2000 lines, and more than ten times the insertions, counting zero
      insertions as one) or more than 20 deleted files. */
  predicate IsMassive(insertions: nat, deletions: nat, filesDeleted: nat) {
    var ins := if insertions == 0 then 1 else insertions;
    (deletions > 2000 && deletions > 10 * ins) || filesDeleted > 20
  }

  /** The rule as the source writes it, with the ratio `deletions / insertions`
      computed by real division. */
  predicate IsMassiveByRatio(insertions: nat, deletions: nat, filesDeleted: nat) {
    var ins := if insertions == 0 then 1 else insertions;
    (deletions > 2000 && (deletions as real) / (ins as real) > 10.0) || filesDeleted > 20
  }

  /** The integer comparison decides exactly what the ratio comparison decides. */
  lemma MassiveMatchesRatio(insertions: nat, deletions: nat, filesDeleted: nat)
    ensures IsMassive(insertions, deletions, filesDeleted) <==> IsMassiveByRatio(insertions, deletions, filesDeleted)
  {
    var ins := if insertions == 0 then 1 else insertions;
    RatioAbove(deletions as real, ins as real, 10.0);
  }

  /** For a positive denominator, `x / y > c` exactly when `x > c * y`. */
  lemma RatioAbove(x: real, y: real, c: real)
    requires y > 0.0
    ensures x / y > c <==> x > c * y
  {
    var q := x / y;
    assert q * y == x;
    assert (q - c) * y == x - c * y;
  }

  /** Balanced or addition-heavy changes with few deleted files are never massive. */
  lemma BalancedNotMassive(insertions: nat, deletions: nat, filesDeleted: nat)
    requires deletions <= 10 * insertions
    requires filesDeleted <= 20
    ensures !IsMassive(insertions, deletions, filesDeleted)
  {
  }

  /** `get_change_stats` over the working-tree snapshot: the porcelain
      status text and the insertion and deletion totals of the diff stat. */
  function GetChangeStats(porcelain: string, insertions: nat, deletions: nat): (r: ChangeStats)
    ensures r.filesDeleted + r.filesAdded <= r.filesChanged
    ensures r.filesChanged <= |Split(Strip(porcelain), '\n')|
    ensures r.isMassive <==> IsMassiveByRatio(insertions, deletions, r.filesDeleted)
    ensures r.insertions == insertions && r.deletions == deletions
    ensures var lines := Split(Strip(porcelain), '\n');
      && r.filesChanged == |NonEmptyLines(lines)|
      && r.filesDeleted == |LinesWithCode(lines, "D")|
      && r.filesAdded == |LinesWithCode(lines, "??")|
  {
    CountPorcelainCounts(Split(Strip(porcelain), '\n'));
    var c := CountPorcelain(Split(Strip(porcelain), '\n'));
    MassiveMatchesRatio(insertions, deletions, c.deleted);
    ChangeStats(c.changed, c.deleted, c.added, insertions, deletions, IsMassive(insertions, deletions, c.deleted))
  }

  // ---------------------------------------------------------------------
  // Decision alternatives

  /** An alternative as `parse_decisions` keeps it: no leading dash or
      space, no trailing whitespace. */
  predicate CleanEntry(a: string) {
    a == [] || (a[0] != '-' && a[0] != ' ' && !IsSpace(a[|a| - 1]))
  }

  /** The alternatives of a decision block: one entry per non-blank line,
      stripped, with leading dashes and spaces removed. */
  function AlternativesList(text: string): (r: seq<string>)
    ensures forall k :: 0 <= k < |r| ==> CleanEntry(r[k])
  {
    CleanAlternatives(Split(Strip(text), '\n'))
  }

  /** `lstrip('- ')` of a stripped line. */
  function CleanLine(s: string): (a: string)
    requires s == [] || !IsSpace(s[|s| - 1])
    ensures CleanEntry(a)
  {
    var a := LStripChars(s, {'-', ' '});
    assert a != [] ==> a[|a| - 1] == s[|s| - 1];
    a
  }

  function CleanAlternatives(lines: seq<string>): (r: seq<string>)
    ensures |r| <= |lines|
    ensures forall k :: 0 <= k < |r| ==> CleanEntry(r[k])
  {
    if |lines| == 0 then []
    else
      var rest := CleanAlternatives(lines[1..]);
      var s := Strip(lines[0]);
      if s == "" then rest
      else
        var a := CleanLine(s);
        CleanCons(a, rest);
        [a] + rest
  }

  /** Cleaning distributes over concatenation: each line is kept or
      dropped on its own. */
  lemma {:induction false} CleanAlternativesAppend(a: seq<string>, b: seq<string>)
    ensures CleanAlternatives(a + b) == CleanAlternatives(a) + CleanAlternatives(b)
  {
    if |a| == 0 {
      assert a + b == b;
    } else {
      assert (a + b)[0] == a[0];
      assert (a + b)[1..] == a[1..] + b;
      CleanAlternativesAppend(a[1..], b);
    }
  }

  /** A single line: a blank one is dropped, any other becomes its
      stripped text without leading dashes and spaces. */
  lemma CleanAlternativesOne(line: string)
    ensures CleanAlternatives([line]) ==
      if Strip(line) == "" then [] else [LStripChars(Strip(line), {'-', ' '})]
  {
    assert [line][1..] == [];
  }

  /** An entry as the list holds it, which also survives a round trip:
      non-empty, single-line, clean at both ends. */
  predicate Alternative(a: string) {
    a != [] && '\n' !in a && !IsSpace(a[0]) && CleanEntry(a)
  }

  lemma {:induction false} CleanAlternativesKeeps(items: seq<string>)
    requires forall k :: 0 <= k < |items| ==> Alternative(items[k])
    ensures CleanAlternatives(items) == items
  {
    if |items| > 0 {
      var a, tail := items[0], items[1..];
      StripKeeps(a);
      assert LStripChars(a, {'-', ' '}) == a;
      CleanAlternativesCons(items);
      CleanAlternativesKeeps(tail);
      ConsTail(items);
    }
  }

  lemma CleanAlternativesCons(lines: seq<string>)
    requires |lines| > 0
    ensures var s := Strip(lines[0]);
      CleanAlternatives(lines) == if s == "" then CleanAlternatives(lines[1..]) else [LStripChars(s, {'-', ' '})] + CleanAlternatives(lines[1..])
  {
  }

  /** Writing clean alternatives one per line and reading the list back
      gives the same alternatives. */
  lemma AlternativesRoundTrip(items: seq<string>)
    requires forall k :: 0 <= k < |items| ==> Alternative(items[k])
    ensures AlternativesList(Join(items, '\n')) == items
  {
    if |items| == 0 {
      assert Join(items, '\n') == "";
      AlternativesOfEmpty();
    } else {
      AlternativesRoundTripSome(items);
    }
  }

  lemma AlternativesRoundTripSome(items: seq<string>)
    requires |items| > 0
    requires forall k :: 0 <= k < |items| ==> Alternative(items[k])
    ensures AlternativesList(Join(items, '\n')) == items
  {
    JoinStripped(items);
    SplitJoin(items, '\n');
    CleanAlternativesKeeps(items);
    AlternativesOf(Join(items, '\n'), items);
  }

  lemma AlternativesOf(text: string, lines: seq<string>)
    requires Strip(text) == text && Split(text, '\n') == lines
    ensures AlternativesList(text) == CleanAlternatives(lines)
  {
  }

  /** Alternatives joined by newlines have no whitespace at either end. */
  lemma JoinStripped(items: seq<string>)
    requires |items| > 0
    requires forall k :: 0 <= k < |items| ==> Alternative(items[k])
    ensures Strip(Join(items, '\n')) == Join(items, '\n')
  {
    JoinFirst(items, '\n');
    JoinLast(items, '\n');
    StripKeeps(Join(items, '\n'));
  }

  /** A blank block lists no alternatives. */
  lemma AlternativesOfEmpty()
    ensures AlternativesList("") == []
  {
    StripKeeps("");
    assert Split("", '\n') == [""];
    CleanAlternativesOne("");
  }

  lemma CleanCons(a: string, rest: seq<string>)
    requires CleanEntry(a) && forall k :: 0 <= k < |rest| ==> CleanEntry(rest[k])
    ensures forall k :: 0 <= k < |[a] + rest| ==> CleanEntry(([a] + rest)[k])
  {
  }
}

=== FILE: orchestrator.dfy ===
/** The control flow of dvx/src/orchestrator.py: escalation, the per-task
    loop and finalization. Agents are an oracle: each invocation consumes
    the next `Reply` (its session result and the working tree it leaves),
    so the reply sequence is both the input and the fuel of a run. */
module Orchestrator {

  import opened Wrappers
  import opened Text
  import I = Interpreter
  import P = Plans
  import S = StateStore
  import Session

  // ---------------------------------------------------------------------
  // The world a run acts on

  /** The working tree as `get_change_stats` sees it. */
  datatype Tree = Tree(porcelain: string, insertions: nat, deletions: nat)

  /** One agent invocation: its result, the working tree afterwards, and
      what parsing the plan file gives once the agent is done (agents edit
      the plan: the split applier rewrites it, the committer marks tasks):
      its tasks, or the error `parse_plan` raises. */
  datatype Reply = Reply(result: Session.SessionResult, tree: Tree, replan: Result<seq<P.Task>, string>)

  datatype TriggerSource = FromImplementer | FromReviewer | FromFinalizer | FromPolisher | FromOrchestrator

  function SourceName(s: TriggerSource): (v: string)
    ensures |v| > 0
  {
    match s
    case FromImplementer => "implementer"
    case FromReviewer => "reviewer"
    case FromFinalizer => "finalizer"
    case FromPolisher => "polisher"
    case FromOrchestrator => "orchestrator"
  }

  /** The agents, in the order a run invokes them. */
  datatype Role = Splitter | SplitApplier | Implementer | Reviewer | Escalater(source: TriggerSource)
                | TestWriter | Committer | Polisher | PolishFixer | PolishCommitter | Finalizer | FinalizerFixer

  /** Everything a run reads and writes. The plan's state record lives in
      `store` under the plan path; task statuses live in `overrides` under
      the plan's basename. `planError` is the error the next parse of the
      plan raises (the parser agent failed or answered with invalid JSON);
      while it is absent the parse gives `plan`. */
  datatype World = World(
    planFile: string,
    plan: seq<P.Task>,
    planError: Option<string>,
    overrides: P.OverrideStore,
    store: S.Store,
    blocked: Option<S.BlockedContext>,
    tree: Tree,
    now: string)
  {
    function PlanKey(): string {
      P.Basename(planFile)
    }

    function Overrides(): P.Overrides {
      P.OverridesFor(overrides, PlanKey())
    }

    /** `parse_plan`: the parsed tasks with the recorded statuses. */
    function Tasks(): seq<P.Task> {
      P.ApplyStatusOverrides(plan, Overrides())
    }

    predicate Valid() {
      planFile in store
    }

    function Stored(): S.State
      requires Valid()
    {
      store[planFile]
    }
  }

  /** How a run stops: an orderly return code, the replies running out, or
      an exception escaping the loop. */
  datatype Stop = Exit(code: int) | Exhausted | Raised(error: string)

  /** The process status of a stop: an escaped exception is caught by the
      catch-all of `run_orchestrator` (or, outside it, ends the
      interpreter), which gives 1. */
  function ExitCode(s: Stop): (c: int)
    requires !s.Exhausted?
    ensures s.Exit? ==> c == s.code
    ensures s.Raised? ==> c == 1
  {
    match s
    case Exit(code) => code
    case Raised(_) => 1
  }

  /** How a stage ends: go on to the next stage, go back for the next
      task, or stop the run. */
  datatype Flow = Proceed | NextTask | Halt(stop: Stop)

  /** A stage's result: the world, the in-memory copy of the state record,
      the replies left, the agents invoked, and how to go on. */
  datatype Run = Run(w: World, mem: S.State, rest: seq<Reply>, calls: seq<Role>, flow: Flow)

  /** Stage `b` run after stage `a`. */
  function Then(a: Run, b: Run): (r: Run)
    ensures r.calls == a.calls + b.calls
    ensures r.w == b.w && r.rest == b.rest && r.flow == b.flow
  {
    b.(calls := a.calls + b.calls)
  }

  /** Each agent call took the next reply: what is left of `replies` is
      what follows the replies the calls used. */
  predicate Consumes(r: Run, replies: seq<Reply>) {
    |r.calls| <= |replies| && r.rest == replies[|r.calls|..]
  }

  /** Two stages that each take their replies from the front take them
      from the front together. */
  lemma ThenConsumes(a: Run, b: Run, replies: seq<Reply>)
    requires Consumes(a, replies) && Consumes(b, a.rest)
    ensures Consumes(Then(a, b), replies)
  {
    assert replies[|a.calls|..][|b.calls|..] == replies[|a.calls| + |b.calls|..];
  }

  /** An agent absent from both stages is absent from the two in turn. */
  lemma ThenAvoids(a: Run, b: Run, x: Role)
    requires x !in a.calls && x !in b.calls
    ensures x !in Then(a, b).calls
  {
  }

  /** What every stopped run leaves behind: an orderly exit 1 only with the
      record BLOCKED and a blocked context written; exit 0 only when paused
      or complete; an exception only the plan parse's; and running out of
      replies only when every reply was used. */
  predicate Settled(r: Run) {
    r.w.Valid() &&
    match r.flow
    case Halt(Exit(code)) =>
      || (code == 1 && r.w.Stored().InPhase(S.Blocked) && r.w.blocked.Some?)
      || (code == 0 && (r.w.Stored().InPhase(S.Paused) || r.w.Stored().InPhase(S.Complete)))
    case Halt(Raised(e)) => r.w.planError == Some(e)
    case Halt(Exhausted) => r.rest == []
    case _ => true
  }

  /** An agent call's effect: the world with the tree it leaves, its
      result, and the replies left. */
  datatype Called = Called(w: World, res: Session.SessionResult, rest: seq<Reply>)

  /** A saved record: the world and the in-memory copy. */
  datatype Saved = Saved(w: World, mem: S.State)

  /** An agent call: the next reply, with the tree it leaves. */
  function Call(w: World, replies: seq<Reply>): (r: Called)
    requires |replies| > 0
    ensures r.w == w.(tree := replies[0].tree) && r.res == replies[0].result && r.rest == replies[1..]
  {
    Called(w.(tree := replies[0].tree), replies[0].result, replies[1..])
  }

  predicate Failed(res: Session.SessionResult) {
    !res.success || res.blocked
  }

  // ---------------------------------------------------------------------
  // Store updates as the orchestrator makes them

  function SetPhase(w: World, p: S.Phase): (r: World)
    requires w.Valid()
    ensures r.Valid() && r.Stored().InPhase(p)
    ensures r.Stored().(phase := w.Stored().phase, updatedAt := w.Stored().updatedAt) == w.Stored()
    ensures r.Stored().stepMode == w.Stored().stepMode
    ensures r.(store := w.store) == w
  {
    w.(store := S.UpdatePhase(w.store, w.planFile, p, w.now).value.store)
  }

  function SetStatus(w: World, id: string, s: P.TaskStatus): (r: World)
    ensures r.Valid() == w.Valid() && (w.Valid() ==> r.Stored() == w.Stored())
    ensures id in r.Overrides() && P.StatusOrPending(r.Overrides()[id]) == s
    ensures forall t :: t != id ==> P.OverriddenStatus(r.Overrides(), t) == P.OverriddenStatus(w.Overrides(), t)
    ensures r.(overrides := w.overrides) == w
  {
    P.ParseStatusValue(s);
    w.(overrides := P.SaveStatusOverride(w.overrides, w.PlanKey(), id, s))
  }

  /** `save_state(state)` of the in-memory copy; the copy gets the same
      `updated_at`. */
  function SaveMem(w: World, mem: S.State): (r: Saved)
    ensures r.w.Valid() && r.w.Stored() == r.mem
    ensures r.mem.(updatedAt := mem.updatedAt) == mem
    ensures r.w.(store := w.store) == w
  {
    Saved(w.(store := S.Save(w.store, w.planFile, mem, w.now)), mem.(updatedAt := Some(w.now)))
  }

  // ---------------------------------------------------------------------
  // Escalation

  /** `handle_blocked`: the record goes BLOCKED and the blocked context is
      written with the given session, or else the in-memory record's
      overseer session. The caller returns 1. */
  function HandleBlocked(w: World, mem: S.State, reason: string, context: string, sid: Option<string>): (r: World)
    requires w.Valid()
    ensures r.Valid() && r.Stored().InPhase(S.Blocked)
    ensures r.blocked.Some? && r.blocked.value.reason == reason && r.blocked.value.context == context
    ensures r.blocked.value.sessionId == (if Truthy(sid) then sid else mem.overseerSessionId)
    ensures r.plan == w.plan && r.overrides == w.overrides && r.tree == w.tree
  {
    var session := if Truthy(sid) then sid else mem.overseerSessionId;
    SetPhase(w, S.Blocked).(blocked := Some(S.BlockedContext(reason, context, session, w.now)))
  }

  /** The blocked context `evaluate_trigger` writes: the task, the trigger,
      the original context, and a closing section. */
  function EscalationContext(task: P.Task, source: TriggerSource, reason: string, context: string,
                             heading: string, body: string): (r: string)
    ensures Contains(r, context)
  {
    var head := "## Task\n\n**" + task.id + "**: " + task.title + "\n\n" + task.description
      + "\n\n## Trigger\n\n**Source**: " + SourceName(source) + "\n**Reason**: " + reason
      + "\n\n## Original Context\n\n";
    var tail := "\n\n## " + heading + "\n\n" + body + "\n";
    ContainsMiddle(head, context, tail);
    head + context + tail
  }

  /** `evaluate_trigger`: one escalater call. The run goes on exactly when
      the call succeeded and its output says `[proceed]` without
      `[escalate]`; otherwise the plan is blocked and the run exits 1. */
  function EvaluateTrigger(w: World, mem: S.State, replies: seq<Reply>, task: P.Task, source: TriggerSource,
                           reason: string, context: string, sid: Option<string>): (r: Run)
    requires w.Valid()
    ensures Settled(r) && r.mem == mem && |r.rest| + |r.calls| == |replies|
    ensures |replies| == 0 ==> r.flow == Halt(Exhausted)
    ensures |replies| > 0 ==> r.calls == [Escalater(source)]
    ensures Consumes(r, replies)
    ensures |replies| > 0 ==>
      (r.flow.Proceed? <==> replies[0].result.success && I.ParseEscalation(replies[0].result.output).proceed)
    ensures |replies| > 0 && !r.flow.Proceed? ==>
      r.flow == Halt(Exit(1)) && r.w.Stored().InPhase(S.Blocked) && r.w.blocked.Some?
    ensures r.flow.Proceed? ==> r.w == w.(tree := r.w.tree)
    ensures !r.flow.NextTask? && Finalizer !in r.calls
  {
    if |replies| == 0 then Run(w, mem, replies, [], Halt(Exhausted))
    else
      var cw0 := Call(w, replies);
      var w0, res, rest := cw0.w, cw0.res, cw0.rest;
      if !res.success then
        var why := OrDefault(res.blockReason, "unknown error");
        var ctx := EscalationContext(task, source, reason, context, "Escalater Failure", why);
        Run(HandleBlocked(w0, mem, "Escalater failed: " + why, ctx, sid), mem, rest, [Escalater(source)], Halt(Exit(1)))
      else if I.ParseEscalation(res.output).proceed then
        Run(w0, mem, rest, [Escalater(source)], Proceed)
      else
        var analysis := if res.output != "" then res.output else "(No analysis output captured)";
        var ctx := EscalationContext(task, source, reason, context, "Escalater Analysis", analysis);
        Run(HandleBlocked(w0, mem, "Escalated by escalater: " + reason, ctx, sid), mem, rest, [Escalater(source)], Halt(Exit(1)))
  }

  /** The context handed to the escalater for a failed agent call. */
  function TriggerContext(res: Session.SessionResult): string {
    I.BuildTriggerContext(res.output, res.blockReason, "")
  }

  /** One agent call that escalates when it fails or reports itself
      blocked (source implementer), with `failure` as the reason when the
      call gives none; the shape of every fixing, test-writing and
      committing step. */
  function Attempt(w: World, mem: S.State, replies: seq<Reply>, role: Role, task: P.Task, failure: string): (r: Run)
    requires w.Valid()
    ensures Settled(r) && r.mem == mem && |r.rest| + |r.calls| == |replies| && !r.flow.NextTask?
    ensures |replies| == 0 ==> r == Run(w, mem, replies, [], Halt(Exhausted))
    ensures |replies| > 0 ==> 1 <= |r.calls| && r.calls[0] == role
    ensures Consumes(r, replies)
    ensures role != Finalizer ==> Finalizer !in r.calls
    ensures r.flow != Halt(Exit(0))
    ensures r.flow.Proceed? ==> r.w.Stored() == w.Stored()
    // a failed call goes to the escalater; a good one proceeds
    ensures |replies| > 1 && Failed(replies[0].result) ==> r.calls == [role, Escalater(FromImplementer)]
    ensures |replies| > 0 && !Failed(replies[0].result) ==> r.calls == [role] && r.flow.Proceed? && r.rest == replies[1..]
  {
    if |replies| == 0 then Run(w, mem, replies, [], Halt(Exhausted))
    else
      var c := Call(w, replies);
      var called := Run(c.w, mem, c.rest, [role], Proceed);
      if Failed(c.res) then
        Then(called, EvaluateTrigger(c.w, mem, c.rest, task, FromImplementer, OrDefault(c.res.blockReason, failure),
                                     TriggerContext(c.res), c.res.sessionId))
      else called
  }

  // ---------------------------------------------------------------------
  // The per-task stages

  /** Task splitting: when the splitter asks for a split with subtasks and
      the plan update succeeds, the plan is re-parsed and the loop starts
      over; otherwise the task proceeds as it is. */
  function SplitStage(w: World, mem: S.State, replies: seq<Reply>, task: P.Task): (r: Run)
    requires w.Valid()
    ensures Settled(r) && r.mem == mem && |r.rest| + |r.calls| == |replies|
    ensures r.flow.NextTask? ==> r.calls == [Splitter, SplitApplier]
    ensures r.flow.Proceed? ==> r.w.store == w.store && r.w.plan == w.plan && r.w.overrides == w.overrides
    ensures r.flow.Halt? ==> r.flow.stop == Exhausted
    ensures |replies| > 0 ==> var split := I.ParseSplit(replies[0].result.output);
      (replies[0].result.success && split.shouldSplit && split.subtasks != "") || (r.flow.Proceed? && r.calls == [Splitter] && r.rest == replies[1..])
  {
    if |replies| == 0 then Run(w, mem, replies, [], Halt(Exhausted))
    else
      var cw0 := Call(w, replies);
      var w0, res, rest := cw0.w, cw0.res, cw0.rest;
      var split := I.ParseSplit(res.output);
      if res.success && split.shouldSplit && split.subtasks != "" then
        if |rest| == 0 then Run(w0, mem, rest, [Splitter], Halt(Exhausted))
        else
          var cw1 := Call(w0, rest);
          var w1, applied, rest1 := cw1.w, cw1.res, cw1.rest;
          if applied.success then
            Run(Replanned(w1, rest[0].replan), mem, rest1, [Splitter, SplitApplier], NextTask)
          else Run(w1, mem, rest1, [Splitter, SplitApplier], Proceed)
      else Run(w0, mem, rest, [Splitter], Proceed)
  }

  /** The plan after `clear_cache()`: the re-parsed tasks, or the error the
      next parse raises. */
  function Replanned(w: World, replan: Result<seq<P.Task>, string>): (r: World)
    ensures replan.Success? ==> r == w.(plan := replan.value)
    ensures replan.Failure? ==> r == w.(planError := Some(replan.error))
  {
    match replan
    case Success(tasks) => w.(plan := tasks)
    case Failure(e) => w.(planError := Some(e))
  }

  /** The already-complete exit: the task is DONE and the stored counter
      restarts; the in-memory record is the reloaded one. */
  function SkipCompleted(w: World, task: P.Task): (r: Saved)
    requires w.Valid()
    ensures r.w.Valid() && r.w.Stored() == r.mem && r.mem.iterationCount == 0
    ensures P.OverriddenStatus(r.w.Overrides(), task.id) == P.Done
  {
    var w1 := SetStatus(w, task.id, P.Done);
    SaveMem(w1, w1.Stored().(iterationCount := 0))
  }

  /** Implementation: the task becomes current and IN_PROGRESS, the phase
      IMPLEMENTING, and the implementer runs. Output marked
      `[already_complete]` finishes the task at once; a failed or blocked
      call escalates. */
  function ImplementStage(w: World, mem: S.State, replies: seq<Reply>, task: P.Task): (r: Run)
    requires w.Valid()
    ensures Settled(r) && |r.rest| + |r.calls| == |replies|
    ensures |replies| > 0 ==> 1 <= |r.calls| && r.calls[0] == Implementer
    ensures |replies| > 0 && I.IsAlreadyComplete(replies[0].result.output) ==>
      && r.flow.NextTask? && r.calls == [Implementer] && r.rest == replies[1..]
      && P.OverriddenStatus(r.w.Overrides(), task.id) == P.Done
      && r.w.Stored().iterationCount == 0 && r.mem == r.w.Stored()
    ensures r.flow.NextTask? ==> |replies| > 0 && I.IsAlreadyComplete(replies[0].result.output)
    ensures r.flow.Proceed? ==> r.mem == mem
    // a failed or blocked call goes to the escalater (source implementer); a good one proceeds
    ensures |replies| > 1 && !I.IsAlreadyComplete(replies[0].result.output) && Failed(replies[0].result) ==>
      r.calls == [Implementer, Escalater(FromImplementer)]
    ensures |replies| > 0 && !I.IsAlreadyComplete(replies[0].result.output) && !Failed(replies[0].result) ==>
      r.calls == [Implementer] && r.flow.Proceed? && r.rest == replies[1..]
  {
    var w1 := w.(store := S.SetCurrentTask(w.store, w.planFile, task.id, task.title, w.now).value.store);
    var w2 := SetPhase(SetStatus(w1, task.id, P.InProgress), S.Implementing);
    if |replies| == 0 then Run(w2, mem, replies, [], Halt(Exhausted))
    else Implement(w2, mem, replies, task)
  }

  /** The implementer call itself and the judgement of its answer. */
  function Implement(w: World, mem: S.State, replies: seq<Reply>, task: P.Task): (r: Run)
    requires w.Valid() && |replies| > 0
    ensures Settled(r) && |r.rest| + |r.calls| == |replies|
    ensures 1 <= |r.calls| && r.calls[0] == Implementer
    ensures I.IsAlreadyComplete(replies[0].result.output) ==>
      && r.flow.NextTask? && r.calls == [Implementer] && r.rest == replies[1..]
      && P.OverriddenStatus(r.w.Overrides(), task.id) == P.Done
      && r.w.Stored().iterationCount == 0 && r.mem == r.w.Stored()
    ensures r.flow.NextTask? <==> I.IsAlreadyComplete(replies[0].result.output)
    ensures r.flow.Proceed? ==> r.mem == mem
    // a failed or blocked call goes to the escalater (source implementer); a good one proceeds
    ensures |replies| > 1 && !I.IsAlreadyComplete(replies[0].result.output) && Failed(replies[0].result) ==>
      r.calls == [Implementer, Escalater(FromImplementer)]
    ensures !I.IsAlreadyComplete(replies[0].result.output) && !Failed(replies[0].result) ==>
      r.calls == [Implementer] && r.flow.Proceed? && r.rest == replies[1..]
  {
    var res := replies[0].result;
    if I.IsAlreadyComplete(res.output) then
      var c := Call(w, replies);
      var s := SkipCompleted(c.w, task);
      Run(s.w, s.mem, c.rest, [Implementer], NextTask)
    else
      Attempt(w, mem, replies, Implementer, task, if !res.success then "Implementation failed" else "Implementer is blocked")
  }

  /** The change statistics of the current tree. */
  function Stats(w: World): I.ChangeStats {
    I.GetChangeStats(w.tree.porcelain, w.tree.insertions, w.tree.deletions)
  }

  /** A review's outcome: the run, the parsed review and the reviewer's
      session id. */
  datatype Reviewed = Reviewed(run: Run, review: I.Review, sid: Option<string>)

  /** The reviewer call shared by the first review and every re-review:
      phase REVIEWING, the reviewer resumes the in-memory overseer session,
      and a returned session id becomes the stored overseer session. */
  function CallReviewer(w: World, mem: S.State, replies: seq<Reply>): (r: Called)
    requires w.Valid() && |replies| > 0
    ensures r.w.Valid() && r.w.Stored().InPhase(S.Reviewing) && r.rest == replies[1..] && r.res == replies[0].result
    ensures Truthy(r.res.sessionId) ==> r.w.Stored().overseerSessionId == r.res.sessionId
    ensures r.w.Stored().iterationCount == w.Stored().iterationCount
    ensures r.w.Stored().maxIterations == w.Stored().maxIterations
    ensures r.w.Stored().stepMode == w.Stored().stepMode
  {
    var cw1 := Call(SetPhase(w, S.Reviewing), replies);
    var w1, res, rest := cw1.w, cw1.res, cw1.rest;
    var w2 := if Truthy(res.sessionId)
              then w1.(store := S.SetOverseerSession(w1.store, w1.planFile, res.sessionId.value, w1.now).value.store)
              else w1;
    Called(w2, res, rest)
  }

  /** Review: the size guard blocks massive changes before the reviewer
      runs; then the reviewer is called and its answer judged. */
  function ReviewStage(w: World, mem: S.State, replies: seq<Reply>, task: P.Task): (r: Reviewed)
    requires w.Valid()
    ensures Settled(r.run) && r.run.mem == mem && |r.run.rest| + |r.run.calls| == |replies|
    ensures !r.run.flow.NextTask?
    ensures Stats(SetPhase(w, S.Reviewing)).isMassive ==> r.run.flow == Halt(Exit(1)) && r.run.calls == []
    ensures r.run.flow.Proceed? ==> |replies| > 0 && r.review == I.ParseReview(replies[0].result.output) && 1 <= |r.run.calls|
    ensures r.run.flow.Proceed? ==> r.run.w.Stored().iterationCount == w.Stored().iterationCount
    ensures r.run.flow.Proceed? ==> r.run.w.Stored().maxIterations == w.Stored().maxIterations
    ensures r.run.flow.Proceed? ==> r.run.w.Stored().stepMode == w.Stored().stepMode
  {
    var w1 := SetPhase(w, S.Reviewing);
    if Stats(w1).isMassive then
      Reviewed(Run(HandleBlocked(w1, mem, "Large deletion requires human review", MassiveContext(Stats(w1)), None),
                   mem, replies, [], Halt(Exit(1))), I.ParseReview(""), None)
    else if |replies| == 0 then Reviewed(Run(w1, mem, replies, [], Halt(Exhausted)), I.ParseReview(""), None)
    else
      var cw2 := CallReviewer(w1, mem, replies);
      var w2, res, rest := cw2.w, cw2.res, cw2.rest;
      var r := Judge(w2, mem, res, rest, task);
      Reviewed(Then(Run(w2, mem, rest, [Reviewer], Proceed), r.run), r.review, r.sid)
  }

  /** The first review's answer: a failed review escalates; a reviewer
      that hit its prompt limit blocks the plan. */
  function Judge(w: World, mem: S.State, res: Session.SessionResult, rest: seq<Reply>, task: P.Task): (r: Reviewed)
    requires w.Valid()
    ensures Settled(r.run) && r.run.mem == mem && |r.run.rest| + |r.run.calls| == |rest|
    ensures !r.run.flow.NextTask?
    ensures r.run.flow.Proceed? ==> r.review == I.ParseReview(res.output) && r.sid == res.sessionId
    ensures r.run.flow.Proceed? ==> r.run.w.Stored() == w.Stored()
    // a failed review goes to the escalater (source reviewer), which decides
    ensures |rest| > 0 && !res.success ==>
      && r.run.calls == [Escalater(FromReviewer)]
      && (r.run.flow.Proceed? ==> rest[0].result.success && I.ParseEscalation(rest[0].result.output).proceed)
    // a reviewer that ran out of prompt blocks the plan without another call
    ensures res.success && Contains(Lower(res.output), "prompt is too long") ==>
      r.run.flow == Halt(Exit(1)) && r.run.w.Stored().InPhase(S.Blocked) && r.run.calls == []
    ensures res.success && !Contains(Lower(res.output), "prompt is too long") ==> r.run.calls == [] && r.run.flow.Proceed?
  {
    if !res.success then
      var e := EvaluateTrigger(w, mem, rest, task, FromReviewer, "Review failed", TriggerContext(res), res.sessionId);
      if !e.flow.Proceed? then Reviewed(e, I.ParseReview(""), None)
      else Overflow(e, res)
    else Overflow(Run(w, mem, rest, [], Proceed), res)
  }

  /** The prompt-limit check on a review that may proceed: a reviewer that
      hit its prompt limit blocks the plan with exit 1; otherwise the
      review is the parsed answer. */
  function Overflow(e: Run, res: Session.SessionResult): (r: Reviewed)
    requires e.w.Valid() && e.flow.Proceed?
    ensures r.run.mem == e.mem && r.run.rest == e.rest && r.run.calls == e.calls && r.run.w.Valid()
    ensures Contains(Lower(res.output), "prompt is too long") ==>
      r.run.flow == Halt(Exit(1)) && r.run.w.Stored().InPhase(S.Blocked) && r.run.w.blocked.Some?
    ensures !Contains(Lower(res.output), "prompt is too long") ==>
      r.run == e && r.review == I.ParseReview(res.output) && r.sid == res.sessionId
  {
    if Contains(Lower(res.output), "prompt is too long") then
      var stats := Stats(e.w);
      var reason := "Changes too large for automated review (" + NatToString(stats.filesChanged) + " files)";
      Reviewed(e.(w := HandleBlocked(e.w, e.mem, reason, OverflowContext(stats), None), flow := Halt(Exit(1))), I.ParseReview(""), None)
    else Reviewed(e, I.ParseReview(res.output), res.sessionId)
  }

  /** The massive-change context, reduced to its numbers. */
  function MassiveContext(stats: I.ChangeStats): string {
    "## Large Deletion Detected\n\nFiles deleted: " + NatToString(stats.filesDeleted)
      + "\nLines added: " + NatToString(stats.insertions)
      + "\nLines deleted: " + NatToString(stats.deletions) + "\n"
  }

  /** The prompt-overflow context, reduced to its numbers. */
  function OverflowContext(stats: I.ChangeStats): string {
    "## Review Failed: Prompt Too Long\n\nFiles changed: " + NatToString(stats.filesChanged)
      + "\nFiles deleted: " + NatToString(stats.filesDeleted)
      + "\nLines changed: " + NatToString(stats.insertions + stats.deletions) + "\n"
  }

  /** The bound message of the review loop. */
  function MaxIterationsReason(max: int): string {
    "Max iterations (" + IntToString(max) + ") exceeded - review loop not converging"
  }

  /** The escalations at the top of a fix round: past the bound (source
      orchestrator; on proceed the counter is reset and saved), then a
      critical review (source reviewer). */
  function RoundGate(w: World, mem: S.State, replies: seq<Reply>, review: I.Review, sid: Option<string>, task: P.Task): (r: Run)
    requires w.Valid()
    ensures Settled(r) && |r.rest| + |r.calls| == |replies| && !r.flow.NextTask?
    ensures var count := w.Stored().iterationCount + 1;
      && (|replies| > 0 && count > w.Stored().maxIterations ==> 1 <= |r.calls| && r.calls[0] == Escalater(FromOrchestrator))
      && (count <= w.Stored().maxIterations ==> Escalater(FromOrchestrator) !in r.calls)
      && (r.flow.Proceed? ==> r.w.Stored().iterationCount == (if count > w.Stored().maxIterations then 0 else count))
    ensures r.flow.Proceed? ==> r.w.Stored().maxIterations == w.Stored().maxIterations && r.w.Stored().stepMode == w.Stored().stepMode
    ensures Consumes(r, replies)
  {
    var b := BoundGate(w, mem, replies, review, sid, task);
    if !b.flow.Proceed? then b
    else
      var c := CriticalGate(b.w, b.mem, b.rest, review, sid, task);
      ThenConsumes(b, c, replies);
      if b.calls == [] then ThenAvoids(b, c, Escalater(FromOrchestrator)); Then(b, c)
      else Then(b, c)
  }

  /** The iteration bound: the stored counter goes up by one; past the
      maximum the escalater decides, and on proceed the counter restarts
      at zero. */
  function BoundGate(w: World, mem: S.State, replies: seq<Reply>, review: I.Review, sid: Option<string>, task: P.Task): (r: Run)
    requires w.Valid()
    ensures Settled(r) && |r.rest| + |r.calls| == |replies| && !r.flow.NextTask?
    ensures var count := w.Stored().iterationCount + 1;
      && (|replies| > 0 && count > w.Stored().maxIterations ==> r.calls == [Escalater(FromOrchestrator)])
      && (count <= w.Stored().maxIterations ==> r.calls == [] && r.flow.Proceed?)
      && (r.flow.Proceed? ==> r.w.Stored().iterationCount == (if count > w.Stored().maxIterations then 0 else count))
    ensures r.flow.Proceed? ==> r.w.Stored().maxIterations == w.Stored().maxIterations && r.w.Stored().stepMode == w.Stored().stepMode
    ensures Consumes(r, replies)
  {
    var inc := S.IncrementIteration(w.store, w.planFile, w.now).value;
    var u, exceeded := inc.0, inc.1;
    var w1 := w.(store := u.store);
    var mem1 := u.state;
    if !exceeded then Run(w1, mem1, replies, [], Proceed)
    else
      var e1 := EvaluateTrigger(w1, mem1, replies, task, FromOrchestrator, MaxIterationsReason(mem1.maxIterations),
                                "Last review feedback:\n" + review.suggestions, sid);
      if !e1.flow.Proceed? then e1
      else
        var sw := SaveMem(e1.w, mem1.(iterationCount := 0));
        e1.(w := sw.w, mem := sw.mem)
  }

  /** A critical review goes to the escalater (source reviewer). */
  function CriticalGate(w: World, mem: S.State, replies: seq<Reply>, review: I.Review, sid: Option<string>, task: P.Task): (r: Run)
    requires w.Valid()
    ensures Settled(r) && |r.rest| + |r.calls| == |replies| && !r.flow.NextTask?
    ensures Escalater(FromOrchestrator) !in r.calls
    ensures !review.critical ==> r == Run(w, mem, replies, [], Proceed)
    ensures r.flow.Proceed? ==> r.w.Stored() == w.Stored()
    ensures review.critical && |replies| > 0 ==>
      && r.calls == [Escalater(FromReviewer)]
      && (r.flow.Proceed? <==> replies[0].result.success && I.ParseEscalation(replies[0].result.output).proceed)
    ensures Consumes(r, replies)
  {
    if review.critical
    then EvaluateTrigger(w, mem, replies, task, FromReviewer, "Critical issue found in review", review.suggestions, sid)
    else Run(w, mem, replies, [], Proceed)
  }

  /** One round of the review loop: the gate, then a fix and a re-review. */
  function FixRound(w: World, mem: S.State, replies: seq<Reply>, review: I.Review, sid: Option<string>, task: P.Task): (r: Reviewed)
    requires w.Valid()
    ensures Settled(r.run) && |r.run.rest| + |r.run.calls| == |replies| && !r.run.flow.NextTask?
    ensures var count := w.Stored().iterationCount + 1;
      && (|replies| > 0 && count > w.Stored().maxIterations ==> 1 <= |r.run.calls| && r.run.calls[0] == Escalater(FromOrchestrator))
      && (count <= w.Stored().maxIterations && |r.run.calls| > 0 ==> r.run.calls[0] != Escalater(FromOrchestrator))
    ensures r.run.flow.Proceed? ==> 2 <= |r.run.calls| && r.run.w.Stored().stepMode == w.Stored().stepMode
    ensures Consumes(r.run, replies)
    // a round that goes on ends with the re-review, and its review is that reviewer's answer
    ensures r.run.flow.Proceed? ==> ReviewedLast(r, replies)
  {
    var g := RoundGate(w, mem, replies, review, sid, task);
    if !g.flow.Proceed? then Reviewed(g, review, sid)
    else
      var f := FixAndReview(g.w, g.mem, g.rest, review, sid, task);
      ThenConsumes(g, f.run, replies);
      var r := Reviewed(Then(g, f.run), f.review, f.sid);
      if f.run.flow.Proceed? then ReviewedLastThen(g, f, replies); r
      else r
  }

  /** The run's last call was the reviewer, and the review and its session
      are that reviewer's reply. */
  predicate ReviewedLast(r: Reviewed, replies: seq<Reply>) {
    var n := |r.run.calls|;
    && 0 < n <= |replies| && r.run.calls[n - 1] == Reviewer
    && r.review == I.ParseReview(replies[n - 1].result.output) && r.sid == replies[n - 1].result.sessionId
  }

  /** A review at the end of a later stage is still the last review after
      an earlier stage that took its replies from the front. */
  lemma ReviewedLastThen(a: Run, b: Reviewed, replies: seq<Reply>)
    requires Consumes(a, replies) && ReviewedLast(b, a.rest)
    ensures ReviewedLast(Reviewed(Then(a, b.run), b.review, b.sid), replies)
  {
    var n := |a.calls| + |b.run.calls|;
    assert Then(a, b.run).calls[n - 1] == b.run.calls[|b.run.calls| - 1];
    assert a.rest[|b.run.calls| - 1] == replies[n - 1];
  }

  /** A fix by the implementer, then a re-review. */
  function FixAndReview(w: World, mem: S.State, replies: seq<Reply>, review: I.Review, sid: Option<string>, task: P.Task): (r: Reviewed)
    requires w.Valid()
    ensures Settled(r.run) && |r.run.rest| + |r.run.calls| == |replies| && !r.run.flow.NextTask?
    ensures |replies| > 0 ==> 1 <= |r.run.calls| && r.run.calls[0] == Implementer
    ensures r.run.flow.Proceed? ==> 2 <= |r.run.calls| && r.run.w.Stored().stepMode == w.Stored().stepMode
    ensures Consumes(r.run, replies)
    // to go on, the re-review is the last call and the review is its answer
    ensures r.run.flow.Proceed? ==> ReviewedLast(r, replies)
  {
    var fixed := Fix(w, mem, replies, task);
    if !fixed.flow.Proceed? then Reviewed(fixed, review, sid)
    else if |fixed.rest| == 0 then Reviewed(fixed.(flow := Halt(Exhausted)), review, sid)
    else
      var again := ReReview(fixed.w, fixed.mem, fixed.rest);
      ThenConsumes(fixed, again.run, replies);
      ReviewedLastThen(fixed, again, replies);
      Reviewed(Then(fixed, again.run), again.review, again.sid)
  }

  /** A good fix is followed by exactly one re-review, whose answer is the
      new review. */
  lemma GoodFixIsReviewed(w: World, mem: S.State, replies: seq<Reply>, review: I.Review, sid: Option<string>, task: P.Task)
    requires w.Valid() && |replies| > 1 && !Failed(replies[0].result)
    ensures var r := FixAndReview(w, mem, replies, review, sid, task);
      r.run.calls == [Implementer, Reviewer] && r.run.flow.Proceed? && r.review == I.ParseReview(replies[1].result.output)
  {
    var fixed := Fix(w, mem, replies, task);
    assert fixed.rest[0] == replies[1];
  }

  /** A re-review: one reviewer call, whose answer is the new review. */
  function ReReview(w: World, mem: S.State, replies: seq<Reply>): (r: Reviewed)
    requires w.Valid() && |replies| > 0
    ensures Settled(r.run) && r.run.flow.Proceed? && r.run.calls == [Reviewer] && Consumes(r.run, replies)
    ensures ReviewedLast(r, replies) && r.review == I.ParseReview(replies[0].result.output)
    ensures r.run.w.Stored().stepMode == w.Stored().stepMode
  {
    var cw := CallReviewer(w, mem, replies);
    Reviewed(Run(cw.w, mem, cw.rest, [Reviewer], Proceed), I.ParseReview(cw.res.output), cw.res.sessionId)
  }

  /** The fix itself: phase FIXING, the implementer, and an escalation
      (source implementer) when it fails. */
  function Fix(w: World, mem: S.State, replies: seq<Reply>, task: P.Task): (r: Run)
    requires w.Valid()
    ensures Settled(r) && r.mem == mem && |r.rest| + |r.calls| == |replies| && !r.flow.NextTask?
    ensures |replies| > 0 ==> 1 <= |r.calls| && r.calls[0] == Implementer
    ensures Consumes(r, replies)
    ensures r.flow.Proceed? ==> 1 <= |r.calls| && r.w.Stored().stepMode == w.Stored().stepMode
    // a failed call goes to the escalater (source implementer); a good one proceeds
    ensures |replies| > 1 && Failed(replies[0].result) ==> r.calls == [Implementer, Escalater(FromImplementer)]
    ensures |replies| > 0 && !Failed(replies[0].result) ==> r.calls == [Implementer] && r.flow.Proceed? && r.rest == replies[1..]
  {
    Attempt(SetPhase(w, S.Fixing), mem, replies, Implementer, task, "Fix implementation failed")
  }

  /** `while has_issues and not approved`: rounds until the review
      approves or raises nothing, or a round stops the run. */
  function FixLoop(w: World, mem: S.State, replies: seq<Reply>, review: I.Review, sid: Option<string>, task: P.Task): (r: Reviewed)
    requires w.Valid()
    ensures Settled(r.run) && |r.run.rest| + |r.run.calls| == |replies| && !r.run.flow.NextTask?
    ensures r.run.flow.Proceed? ==> !(r.review.hasIssues && !r.review.approved)
    ensures !(review.hasIssues && !review.approved) ==> r.run.calls == [] && r.review == review && r.run.flow.Proceed?
    ensures r.run.flow.Proceed? ==> r.run.w.Stored().stepMode == w.Stored().stepMode
    ensures Consumes(r.run, replies)
    // a review that needs fixing ends only with a re-review, whose answer is the review returned
    ensures review.hasIssues && !review.approved && r.run.flow.Proceed? ==> ReviewedLast(r, replies)
    decreases |replies|
  {
    if !(review.hasIssues && !review.approved) then Reviewed(Run(w, mem, replies, [], Proceed), review, sid)
    else
      var round := FixRound(w, mem, replies, review, sid, task);
      if !round.run.flow.Proceed? then round
      else
        var next := FixLoop(round.run.w, round.run.mem, round.run.rest, round.review, round.sid, task);
        ThenConsumes(round.run, next.run, replies);
        var r := Reviewed(Then(round.run, next.run), next.review, next.sid);
        if !next.run.flow.Proceed? then r
        else if round.review.hasIssues && !round.review.approved then ReviewedLastThen(round.run, next, replies); r
        else
          assert next.run.calls == [] && next.review == round.review && next.sid == round.sid;
          assert r.run.calls == round.run.calls;
          r
  }

  /** Missing tests: phase TESTING and one test-writing call, escalating
      on failure. */
  function TestStage(w: World, mem: S.State, replies: seq<Reply>, review: I.Review, task: P.Task): (r: Run)
    requires w.Valid()
    ensures Settled(r) && r.mem == mem && |r.rest| + |r.calls| == |replies| && !r.flow.NextTask?
    ensures !review.missingTests ==> r == Run(w, mem, replies, [], Proceed)
    ensures r.flow.Proceed? ==> r.w.Stored().stepMode == w.Stored().stepMode
    // a failed call goes to the escalater (source implementer); a good one proceeds
    ensures review.missingTests && |replies| > 1 && Failed(replies[0].result) ==> r.calls == [TestWriter, Escalater(FromImplementer)]
    ensures review.missingTests && |replies| > 0 && !Failed(replies[0].result) ==> r.calls == [TestWriter] && r.flow.Proceed? && r.rest == replies[1..]
  {
    if !review.missingTests then Run(w, mem, replies, [], Proceed)
    else
      Attempt(SetPhase(w, S.Testing), mem, replies, TestWriter, task, "Test writing failed")
  }

  /** Commit: phase COMMITTING and the implementer's commit, escalating on
      failure. */
  function CommitStage(w: World, mem: S.State, replies: seq<Reply>, task: P.Task): (r: Run)
    requires w.Valid()
    ensures Settled(r) && r.mem == mem && |r.rest| + |r.calls| == |replies| && !r.flow.NextTask?
    ensures |replies| > 0 ==> 1 <= |r.calls| && r.calls[0] == Committer
    ensures r.flow.Proceed? ==> r.w.Stored().stepMode == w.Stored().stepMode
    // a failed call goes to the escalater (source implementer); a good one proceeds
    ensures |replies| > 1 && Failed(replies[0].result) ==> r.calls == [Committer, Escalater(FromImplementer)]
    ensures |replies| > 0 && !Failed(replies[0].result) ==> r.calls == [Committer] && r.flow.Proceed? && r.rest == replies[1..]
  {
    Attempt(SetPhase(w, S.Committing), mem, replies, Committer, task, "Commit failed")
  }

  /** The end of a task: DONE, the counter restarts, and in step mode the
      run pauses with exit 0. */
  function FinishTask(w: World, replies: seq<Reply>, task: P.Task): (r: Run)
    requires w.Valid()
    ensures Settled(r) && r.rest == replies && r.calls == []
    ensures P.OverriddenStatus(r.w.Overrides(), task.id) == P.Done
    ensures r.w.Stored().iterationCount == 0
    ensures w.Stored().stepMode ==> r.flow == Halt(Exit(0)) && r.w.Stored().InPhase(S.Paused)
    ensures !w.Stored().stepMode ==> r.flow.NextTask?
  {
    var sw1 := SkipCompleted(w, task);
    var w1, mem1 := sw1.w, sw1.mem;
    if mem1.stepMode then Run(SetPhase(w1, S.Paused), mem1, replies, [], Halt(Exit(0)))
    else Run(w1, mem1, replies, [], NextTask)
  }

  /** One task after the safety gate, from the split check to its end. */
  function TaskBody(w: World, mem: S.State, replies: seq<Reply>, task: P.Task): (r: Run)
    requires w.Valid()
    ensures Settled(r) && |r.rest| + |r.calls| == |replies|
    ensures r.flow.NextTask? ==> |r.calls| >= 1
    ensures !r.flow.Proceed?
  {
    var s := SplitStage(w, mem, replies, task);
    if !s.flow.Proceed? then s
    else Then(s, Develop(s.w, s.mem, s.rest, task))
  }

  /** A task from the implementer on. */
  function Develop(w: World, mem: S.State, replies: seq<Reply>, task: P.Task): (r: Run)
    requires w.Valid()
    ensures Settled(r) && |r.rest| + |r.calls| == |replies|
    ensures r.flow.NextTask? ==> |r.calls| >= 1
    ensures !r.flow.Proceed?
    ensures |replies| > 0 && I.IsAlreadyComplete(replies[0].result.output) ==> r == ImplementStage(w, mem, replies, task)
  {
    var im := ImplementStage(w, mem, replies, task);
    if !im.flow.Proceed? then im
    else Then(im, Verify(im.w, im.mem, im.rest, task))
  }

  /** A task from the review on: the review, the fix rounds, the tests,
      the commit. */
  function Verify(w: World, mem: S.State, replies: seq<Reply>, task: P.Task): (r: Run)
    requires w.Valid()
    ensures Settled(r) && |r.rest| + |r.calls| == |replies|
    ensures r.flow.NextTask? ==> |r.calls| >= 1
    ensures !r.flow.Proceed?
  {
    var rv := ReviewStage(w, mem, replies, task);
    if !rv.run.flow.Proceed? then rv.run
    else
      var fx := FixLoop(rv.run.w, rv.run.mem, rv.run.rest, rv.review, rv.sid, task);
      if !fx.run.flow.Proceed? then Then(rv.run, fx.run)
      else Then(Then(rv.run, fx.run), Land(fx.run.w, fx.run.mem, fx.run.rest, fx.review, task))
  }

  /** A reviewed task: the test pass, the commit, and the bookkeeping. */
  function Land(w: World, mem: S.State, replies: seq<Reply>, review: I.Review, task: P.Task): (r: Run)
    requires w.Valid()
    ensures Settled(r) && |r.rest| + |r.calls| == |replies|
    ensures !r.flow.Proceed?
  {
    var t := TestStage(w, mem, replies, review, task);
    if !t.flow.Proceed? then t
    else
      var c := CommitStage(t.w, t.mem, t.rest, task);
      if !c.flow.Proceed? then Then(t, c)
      else Then(Then(t, c), FinishTask(c.w, c.rest, task))
  }

  // ---------------------------------------------------------------------
  // Finalization

  /** The pseudo-task finalization escalates about. */
  function PseudoTask(id: string, title: string, status: P.TaskStatus): P.Task {
    P.Task(id, title, "", status, 0)
  }

  /** Polishing: a failed polisher escalates (source polisher); with
      suggestions, a fix and a commit follow, each escalating on failure
      (source implementer). */
  function PolishStage(w: World, mem: S.State, replies: seq<Reply>): (r: Run)
    requires w.Valid()
    ensures Settled(r) && |r.rest| + |r.calls| == |replies| && !r.flow.NextTask?
    ensures |replies| > 0 ==> 1 <= |r.calls| && r.calls[0] == Polisher
    ensures Finalizer !in r.calls
    ensures r.flow != Halt(Exit(0))
    // a failed polisher goes to the escalater (source polisher)
    ensures |replies| > 1 && !replies[0].result.success ==> r.calls == [Polisher, Escalater(FromPolisher)]
    // nothing to polish: one call, and finalization goes on
    ensures |replies| > 0 && replies[0].result.success && !I.ParsePolisher(replies[0].result.output).hasSuggestions ==>
      r.calls == [Polisher] && r.flow.Proceed? && r.rest == replies[1..]
  {
    if |replies| == 0 then Run(w, mem, replies, [], Halt(Exhausted))
    else
      var cw0 := Call(w, replies);
      var w0, res, rest := cw0.w, cw0.res, cw0.rest;
      var polished := Run(w0, mem, rest, [Polisher], Proceed);
      if !res.success then
        Then(polished, EvaluateTrigger(w0, mem, rest, PseudoTask("polisher", "Polish review", P.InProgress), FromPolisher,
                                       "Polisher failed: " + OrDefault(res.blockReason, "unknown error"),
                                       TriggerContext(res), res.sessionId))
      else
        var p := I.ParsePolisher(res.output);
        if !p.hasSuggestions then polished
        else Then(polished, PolishFix(w0, mem, rest, p.suggestions))
  }

  /** The fix of the polish suggestions, escalating on failure, then the
      polish commit. */
  function PolishFix(w: World, mem: S.State, replies: seq<Reply>, suggestions: string): (r: Run)
    requires w.Valid()
    ensures Settled(r) && |r.rest| + |r.calls| == |replies| && !r.flow.NextTask?
    ensures |replies| > 0 ==> 1 <= |r.calls| && r.calls[0] == PolishFixer
    ensures Finalizer !in r.calls
    ensures r.flow != Halt(Exit(0))
    // a failed fix goes to the escalater (source implementer)
    ensures |replies| > 1 && Failed(replies[0].result) ==> 2 <= |r.calls| && r.calls[1] == Escalater(FromImplementer)
    // a good fix is followed by the commit
    ensures |replies| > 1 && !Failed(replies[0].result) && !Failed(replies[1].result) ==>
      r.calls == [PolishFixer, PolishCommitter] && r.flow.Proceed? && r.rest == replies[2..]
  {
    var fixed := PolishFixCall(w, mem, replies);
    if !fixed.flow.Proceed? then fixed
    else
      var commit := PolishCommit(fixed.w, mem, fixed.rest);
      ThenAvoids(fixed, commit, Finalizer);
      Then(fixed, commit)
  }

  /** The polish fixer's call, escalating on failure. */
  function PolishFixCall(w: World, mem: S.State, replies: seq<Reply>): (r: Run)
    requires w.Valid()
    ensures Settled(r) && |r.rest| + |r.calls| == |replies| && !r.flow.NextTask?
    ensures |replies| > 0 ==> 1 <= |r.calls| && r.calls[0] == PolishFixer
    ensures Finalizer !in r.calls
    ensures r.flow != Halt(Exit(0))
    // a failed call goes to the escalater (source implementer); a good one proceeds
    ensures |replies| > 1 && Failed(replies[0].result) ==> r.calls == [PolishFixer, Escalater(FromImplementer)]
    ensures |replies| > 0 && !Failed(replies[0].result) ==> r.calls == [PolishFixer] && r.flow.Proceed? && r.rest == replies[1..]
  {
    Attempt(w, mem, replies, PolishFixer, PseudoTask("polisher-fix", "Address polish suggestions", P.InProgress),
            "Polish fix implementation failed")
  }

  /** The polish commit, escalating on failure. */
  function PolishCommit(w: World, mem: S.State, replies: seq<Reply>): (r: Run)
    requires w.Valid()
    ensures Settled(r) && |r.rest| + |r.calls| == |replies| && !r.flow.NextTask?
    ensures |replies| > 0 ==> 1 <= |r.calls| && r.calls[0] == PolishCommitter
    ensures Finalizer !in r.calls
    ensures r.flow != Halt(Exit(0))
    // a failed call goes to the escalater (source implementer); a good one proceeds
    ensures |replies| > 1 && Failed(replies[0].result) ==> r.calls == [PolishCommitter, Escalater(FromImplementer)]
    ensures |replies| > 0 && !Failed(replies[0].result) ==> r.calls == [PolishCommitter] && r.flow.Proceed? && r.rest == replies[1..]
  {
    Attempt(w, mem, replies, PolishCommitter, PseudoTask("polisher-commit", "Commit polish improvements", P.InProgress),
            "Polish commit failed")
  }

  const MaxFinalizerIterations: nat := 5

  /** One finalizer round and whether the loop goes round again. */
  datatype Round = Round(run: Run, again: bool)

  /** The finalizer loop from round `iteration`: approval, an unmarked
      answer, or an escalater's proceed after a failed finalizer ends it;
      issues are fixed and the finalizer runs again; after five rounds
      the escalater decides (source orchestrator). */
  function FinalizerLoop(w: World, mem: S.State, replies: seq<Reply>, iteration: nat): (r: Run)
    requires w.Valid() && iteration <= MaxFinalizerIterations
    ensures Settled(r) && |r.rest| + |r.calls| == |replies| && !r.flow.NextTask?
    ensures multiset(r.calls)[Finalizer] <= MaxFinalizerIterations - iteration
    ensures r.flow != Halt(Exit(0))
    // after the last round the escalater (source orchestrator) decides
    ensures iteration == MaxFinalizerIterations && |replies| > 0 ==> r.calls == [Escalater(FromOrchestrator)]
    // before it, every round starts with the finalizer
    ensures iteration < MaxFinalizerIterations && |replies| > 0 ==> 1 <= |r.calls| && r.calls[0] == Finalizer
    decreases MaxFinalizerIterations - iteration
  {
    if iteration == MaxFinalizerIterations then
      EvaluateTrigger(w, mem, replies, PseudoTask("finalizer", "Final review", P.Done), FromOrchestrator,
                      "Finalizer fix loop exceeded 5 iterations",
                      "The finalizer and implementer could not converge on an approved state.", None)
    else if |replies| == 0 then Run(w, mem, replies, [], Halt(Exhausted))
    else
      var round := FinalizerRound(w, mem, replies);
      if !round.again then round.run
      else Then(round.run, FinalizerLoop(round.run.w, mem, round.run.rest, iteration + 1))
  }

  /** One round: the finalizer reviews; a failed finalizer escalates
      (source finalizer) and a proceed ends the loop; approval or an
      unmarked answer ends it; issues are fixed and the loop goes on. */
  function FinalizerRound(w: World, mem: S.State, replies: seq<Reply>): (r: Round)
    requires w.Valid() && |replies| > 0
    ensures Settled(r.run) && |r.run.rest| + |r.run.calls| == |replies| && !r.run.flow.NextTask?
    ensures 1 <= |r.run.calls| && r.run.calls[0] == Finalizer && multiset(r.run.calls)[Finalizer] == 1
    ensures r.again ==> r.run.flow.Proceed?
    ensures r.run.flow != Halt(Exit(0))
    // a failed finalizer goes to the escalater (source finalizer)
    ensures |replies| > 1 && !replies[0].result.success ==> r.run.calls == [Finalizer, Escalater(FromFinalizer)]
    // issues go to the fixer, and a good fix sends the loop round again
    ensures replies[0].result.success && I.ParseFinalizer(replies[0].result.output).hasIssues && |replies| > 1 ==>
      && 2 <= |r.run.calls| && r.run.calls[1] == FinalizerFixer
      && (!Failed(replies[1].result) ==> r.again && r.run.calls == [Finalizer, FinalizerFixer])
    ensures !replies[0].result.success ==> !r.again
    ensures var f := I.ParseFinalizer(replies[0].result.output);
      replies[0].result.success && (f.approved || !f.hasIssues) ==>
        r.run.calls == [Finalizer] && r.run.flow.Proceed? && !r.again && r.run.rest == replies[1..]
  {
    var c := Call(w, replies);
    var reviewed := Run(c.w, mem, c.rest, [Finalizer], Proceed);
    if !c.res.success then Round(FinalizerFailed(c.w, mem, c.rest, c.res), false)
    else
      var f := I.ParseFinalizer(c.res.output);
      if f.approved || !f.hasIssues then Round(reviewed, false)
      else FinalizerIssues(c.w, mem, c.rest)
  }

  /** Issues found by the finalizer: the fix, and another round when it
      proceeds. */
  function FinalizerIssues(w: World, mem: S.State, rest: seq<Reply>): (r: Round)
    requires w.Valid()
    ensures Settled(r.run) && |r.run.rest| + |r.run.calls| == |rest| + 1 && !r.run.flow.NextTask? && r.run.flow != Halt(Exit(0))
    ensures 1 <= |r.run.calls| && r.run.calls[0] == Finalizer && multiset(r.run.calls)[Finalizer] == 1
    ensures r.again == r.run.flow.Proceed?
    ensures |rest| > 0 ==> 2 <= |r.run.calls| && r.run.calls[1] == FinalizerFixer
    ensures |rest| > 0 && !Failed(rest[0].result) ==> r.again && r.run.calls == [Finalizer, FinalizerFixer]
  {
    var fixed := FinalizerFix(w, mem, rest);
    assert multiset(fixed.calls)[Finalizer] == 0;
    Round(Then(Run(w, mem, rest, [Finalizer], Proceed), fixed), fixed.flow.Proceed?)
  }

  /** A failed finalizer call and the escalation (source finalizer) that
      follows it. */
  function FinalizerFailed(w: World, mem: S.State, rest: seq<Reply>, res: Session.SessionResult): (r: Run)
    requires w.Valid()
    ensures Settled(r) && |r.rest| + |r.calls| == |rest| + 1 && !r.flow.NextTask? && r.flow != Halt(Exit(0))
    ensures 1 <= |r.calls| && r.calls[0] == Finalizer && multiset(r.calls)[Finalizer] == 1
    ensures |rest| > 0 ==> r.calls == [Finalizer, Escalater(FromFinalizer)]
  {
    var e := EvaluateTrigger(w, mem, rest, PseudoTask("finalizer", "Final review", P.Done), FromFinalizer,
                             "Finalizer failed: " + OrDefault(res.blockReason, "unknown error"),
                             TriggerContext(res), res.sessionId);
    assert multiset(e.calls)[Finalizer] == 0;
    Then(Run(w, mem, rest, [Finalizer], Proceed), e)
  }

  /** The fix of the finalizer's issues, escalating on failure. */
  function FinalizerFix(w: World, mem: S.State, replies: seq<Reply>): (r: Run)
    requires w.Valid()
    ensures Settled(r) && |r.rest| + |r.calls| == |replies| && !r.flow.NextTask?
    ensures |replies| > 0 ==> 1 <= |r.calls| && r.calls[0] == FinalizerFixer
    ensures Finalizer !in r.calls
    ensures r.flow != Halt(Exit(0))
    // a failed call goes to the escalater (source implementer); a good one proceeds
    ensures |replies| > 1 && Failed(replies[0].result) ==> r.calls == [FinalizerFixer, Escalater(FromImplementer)]
    ensures |replies| > 0 && !Failed(replies[0].result) ==> r.calls == [FinalizerFixer] && r.flow.Proceed? && r.rest == replies[1..]
  {
    Attempt(w, mem, replies, FinalizerFixer, PseudoTask("finalizer-fix", "Fix finalizer issues", P.InProgress),
            "Fix implementation failed")
  }

  /** `_run_finalization`: FINALIZING, polish, the finalizer loop, then
      COMPLETE with exit 0. */
  function Finalize(w: World, mem: S.State, replies: seq<Reply>): (r: Run)
    requires w.Valid()
    ensures Settled(r) && |r.rest| + |r.calls| == |replies| && r.flow.Halt?
    ensures multiset(r.calls)[Finalizer] <= MaxFinalizerIterations
    // exit 0 only once the finalizer loop is through, and then COMPLETE
    ensures r.flow == Halt(Exit(0)) ==> r.w.Stored().InPhase(S.Complete)
  {
    var p := PolishStage(SetPhase(w, S.Finalizing), mem, replies);
    if !p.flow.Proceed? then p
    else
      var f := FinalizerLoop(p.w, mem, p.rest, 0);
      if !f.flow.Proceed? then Then(p, f)
      else Then(p, f.(w := SetPhase(f.w, S.Complete), flow := Halt(Exit(0))))
  }

  /** Nothing to polish and an approving finalizer: two calls, then
      COMPLETE with exit 0. */
  lemma FinalizeApproves(w: World, mem: S.State, replies: seq<Reply>)
    requires w.Valid() && |replies| >= 2
    requires replies[0].result.success && !I.ParsePolisher(replies[0].result.output).hasSuggestions
    requires replies[1].result.success && I.ParseFinalizer(replies[1].result.output).approved
    ensures var r := Finalize(w, mem, replies);
      && r.calls == [Polisher, Finalizer] && r.flow == Halt(Exit(0))
      && r.w.Stored().InPhase(S.Complete) && r.rest == replies[2..]
  {
    var p := PolishStage(SetPhase(w, S.Finalizing), mem, replies);
    assert p.calls == [Polisher] && p.flow.Proceed? && p.rest == replies[1..];
    assert p.rest[0] == replies[1];
    var round := FinalizerRound(p.w, mem, p.rest);
    assert round.run.calls == [Finalizer] && !round.again && round.run.flow.Proceed?;
  }

  // ---------------------------------------------------------------------
  // Finalization escalation as written

  const MissingLineNumber := "TypeError: missing required argument 'line_number'"

  /** The `Task` constructor: `line_number` is a required field, so a call
      without it raises instead of building a task. */
  function NewTaskAsWritten(id: string, title: string, description: string, status: P.TaskStatus,
                            lineNumber: Option<int>): (r: Result<P.Task, string>)
    ensures r.Failure? <==> lineNumber.None?
    ensures r.Success? ==> r.value.id == id && r.value.lineNumber == lineNumber.value
  {
    match lineNumber
    case None => Failure(MissingLineNumber)
    case Some(n) => Success(P.Task(id, title, description, status, n))
  }

  /** A finalization escalation as the source writes it: the pseudo-task is
      built with whatever line number the call site gives, and a raising
      constructor reaches the catch-all of `run_orchestrator`, which
      returns 1 before the escalater runs. */
  function EscalateInFinalizationAsWritten(w: World, mem: S.State, replies: seq<Reply>, id: string, title: string,
                                           status: P.TaskStatus, lineNumber: Option<int>, source: TriggerSource,
                                           reason: string, context: string, sid: Option<string>): (r: Run)
    requires w.Valid()
    ensures lineNumber.None? ==> r.flow == Halt(Raised(MissingLineNumber)) && r.calls == [] && r.w == w && r.rest == replies
    ensures lineNumber.Some? && |replies| > 0 ==> r.calls == [Escalater(source)] && Settled(r)
  {
    match NewTaskAsWritten(id, title, "", status, lineNumber)
    case Failure(e) => Run(w, mem, replies, [], Halt(Raised(e)))
    case Success(t) => EvaluateTrigger(w, mem, replies, t, source, reason, context, sid)
  }

  /** The polish step as written, where a failed polisher escalates
      through the raising constructor. */
  function PolishStageAsWritten(w: World, mem: S.State, replies: seq<Reply>): (r: Run)
    requires w.Valid()
    ensures |replies| > 0 && !replies[0].result.success ==> r.calls == [Polisher] && r.flow == Halt(Raised(MissingLineNumber))
    ensures |replies| == 0 || replies[0].result.success ==> r == PolishStage(w, mem, replies)
  {
    if |replies| > 0 && !replies[0].result.success then
      var cw0 := Call(w, replies);
      var w0, res, rest := cw0.w, cw0.res, cw0.rest;
      Then(Run(w0, mem, rest, [Polisher], Proceed),
           EscalateInFinalizationAsWritten(w0, mem, rest, "polisher", "Polish review", P.InProgress, None, FromPolisher,
                                           "Polisher failed: " + OrDefault(res.blockReason, "unknown error"),
                                           TriggerContext(res), res.sessionId))
    else PolishStage(w, mem, replies)
  }

  /** The discrepancy: after a failed polisher the run raises, so it exits
      1 with the record still FINALIZING, no blocked context, and no
      escalater call. */
  lemma PolisherFailureAsWritten(w: World, mem: S.State, replies: seq<Reply>)
    requires w.Valid() && w.planError.None? && w.Stored().InPhase(S.Finalizing) && w.blocked.None?
    requires |replies| > 0 && !replies[0].result.success
    ensures var r := PolishStageAsWritten(w, mem, replies);
      && r.flow == Halt(Raised(MissingLineNumber)) && ExitCode(r.flow.stop) == 1 && Escalater(FromPolisher) !in r.calls
      && r.w.Stored().InPhase(S.Finalizing) && r.w.blocked.None? && !Settled(r)
  {
    var r := PolishStageAsWritten(w, mem, replies);
    assert r.w == w.(tree := replies[0].tree);
    assert r.w.Stored() == w.Stored();
  }

  /** With the pseudo-task given a line number, a failed polisher reaches
      the escalater, and a stop leaves the record blocked. */
  lemma PolisherFailureEscalates(w: World, mem: S.State, replies: seq<Reply>)
    requires w.Valid() && |replies| >= 2 && !replies[0].result.success
    ensures var r := PolishStage(w, mem, replies);
      && r.calls == [Polisher, Escalater(FromPolisher)] && Settled(r)
      && (r.flow.Proceed? || (r.flow == Halt(Exit(1)) && r.w.Stored().InPhase(S.Blocked) && r.w.blocked.Some?))
  {
  }

  // ---------------------------------------------------------------------
  // The task loop

  predicate IsOpen(s: P.TaskStatus) {
    s == P.Pending || s == P.InProgress
  }

  /** The number of tasks still to do: the termination measure of the
      loop besides the replies left. */
  function OpenCount(plan: seq<P.Task>, ov: P.Overrides): nat {
    if |plan| == 0 then 0
    else (if IsOpen(P.OverriddenStatus(ov, plan[0].id)) then 1 else 0) + OpenCount(plan[1..], ov)
  }

  /** Blocking one id never opens a task. */
  lemma {:induction false} OpenCountMonotone(plan: seq<P.Task>, ov: P.Overrides, ov': P.Overrides, id: string)
    requires P.OverriddenStatus(ov', id) == P.Blocked
    requires forall t :: t != id ==> P.OverriddenStatus(ov', t) == P.OverriddenStatus(ov, t)
    ensures OpenCount(plan, ov') <= OpenCount(plan, ov)
  {
    if |plan| > 0 {
      OpenCountMonotone(plan[1..], ov, ov', id);
    }
  }

  /** Blocking the id of an open task closes it. */
  lemma {:induction false} OpenCountShrinks(plan: seq<P.Task>, ov: P.Overrides, ov': P.Overrides, id: string, i: nat)
    requires i < |plan| && plan[i].id == id && IsOpen(P.OverriddenStatus(ov, id))
    requires P.OverriddenStatus(ov', id) == P.Blocked
    requires forall t :: t != id ==> P.OverriddenStatus(ov', t) == P.OverriddenStatus(ov, t)
    ensures OpenCount(plan, ov') < OpenCount(plan, ov)
  {
    if i == 0 {
      OpenCountMonotone(plan[1..], ov, ov', id);
    } else {
      OpenCountShrinks(plan[1..], ov, ov', id, i - 1);
    }
  }

  function Open(w: World): nat {
    OpenCount(w.plan, w.Overrides())
  }

  /** The safety skip blocks the task and consumes no reply. */
  function SkipUnsafe(w: World, task: P.Task): (r: World)
    requires task in w.Tasks() && IsOpen(task.status)
    ensures Open(r) < Open(w)
    ensures r.Valid() == w.Valid() && (w.Valid() ==> r.Stored() == w.Stored())
    ensures P.OverriddenStatus(r.Overrides(), task.id) == P.Blocked
  {
    var r := SetStatus(w, task.id, P.Blocked);
    var i :| 0 <= i < |w.Tasks()| && w.Tasks()[i] == task;
    assert P.OverriddenStatus(r.Overrides(), task.id) == P.Blocked;
    OpenCountShrinks(w.plan, w.Overrides(), r.Overrides(), task.id, i);
    r
  }

  /** The world the next loop turn starts from: the plan as parsed after
      the task's last agent call. */
  function NextTurn(b: Run, replies: seq<Reply>): (r: World)
    requires b.w.Valid() && 0 < |b.calls| <= |replies|
    ensures r.Valid() && r.Stored() == b.w.Stored()
  {
    Replanned(b.w, replies[|b.calls| - 1].replan)
  }

  /** The `while True` loop of `_run_orchestrator_inner`: each turn parses
      the plan (raising if that fails), then the next task (in progress
      first, then pending) goes through the safety gate and the task
      stages; with no task left, finalization runs. A task that ends with
      the next task leaves the plan as its last agent call left it, which
      the next turn parses. */
  function RunTasks(w: World, mem: S.State, replies: seq<Reply>): (r: Run)
    requires w.Valid()
    ensures Settled(r) && |r.rest| + |r.calls| == |replies| && r.flow.Halt?
    ensures w.planError.Some? ==> r == Run(w, mem, replies, [], Halt(Raised(w.planError.value)))
    decreases |replies|, Open(w)
  {
    if w.planError.Some? then Run(w, mem, replies, [], Halt(Raised(w.planError.value)))
    else
    match P.NextPendingTask(w.Tasks())
    case None => Finalize(w, mem, replies)
    case Some(task) =>
      if !I.ValidateTaskSafety(task.title, task.description).0 then
        RunTasks(SkipUnsafe(w, task), mem, replies)
      else
        var b := TaskBody(w, mem, replies, task);
        if b.flow.NextTask? then
          Then(b, RunTasks(NextTurn(b, replies), b.mem, b.rest))
        else b
  }

  /** With no task in progress or pending, the loop finalizes; the
      summary check that guards finalization always passes, so the
      source's exit-1 branch for a stuck plan is never taken. */
  lemma NoTaskFinalizes(w: World, mem: S.State, replies: seq<Reply>)
    requires w.Valid() && w.planError.None? && P.NextPendingTask(w.Tasks()).None?
    ensures var summary := P.PlanSummary(w.Tasks()); summary.pending == 0 && summary.inProgress == 0
    ensures RunTasks(w, mem, replies) == Finalize(w, mem, replies)
  {
  }

  /** A split whose re-parse raises ends the run with that error right
      after the two split calls. */
  lemma ReplanFailureRaises(w: World, mem: S.State, replies: seq<Reply>, task: P.Task)
    requires w.Valid() && w.planError.None? && P.NextPendingTask(w.Tasks()) == Some(task)
    requires I.ValidateTaskSafety(task.title, task.description).0
    requires |replies| >= 2 && replies[0].result.success && replies[1].result.success
    requires var split := I.ParseSplit(replies[0].result.output); split.shouldSplit && split.subtasks != ""
    requires replies[1].replan.Failure?
    ensures var r := RunTasks(w, mem, replies);
      && r.flow == Halt(Raised(replies[1].replan.error)) && r.calls == [Splitter, SplitApplier] && r.rest == replies[2..]
  {
    var b := TaskBody(w, mem, replies, task);
    var s := SplitStage(w, mem, replies, task);
    assert s.flow.NextTask? && s.w.planError == Some(replies[1].replan.error);
    assert b == s;
    var w' := NextTurn(b, replies);
    assert w' == Replanned(b.w, replies[1].replan);
    assert w'.planError == Some(replies[1].replan.error);
    assert RunTasks(w, mem, replies) == Then(b, RunTasks(w', b.mem, b.rest));
  }

  /** An unsafe task is blocked without any agent call, and the loop goes
      on with the same replies. */
  lemma UnsafeTaskSkipped(w: World, mem: S.State, replies: seq<Reply>, task: P.Task)
    requires w.Valid() && w.planError.None? && P.NextPendingTask(w.Tasks()) == Some(task)
    requires !I.ValidateTaskSafety(task.title, task.description).0
    ensures RunTasks(w, mem, replies) == RunTasks(SkipUnsafe(w, task), mem, replies)
    ensures P.OverriddenStatus(SkipUnsafe(w, task).Overrides(), task.id) == P.Blocked
  {
  }

  /** An implementer answering `[already_complete]` (after a splitter that
      does not split) finishes the task with two calls and no review. */
  lemma AlreadyCompleteSkipsReview(w: World, mem: S.State, replies: seq<Reply>, task: P.Task)
    requires w.Valid() && |replies| >= 2
    requires var split := I.ParseSplit(replies[0].result.output);
      !(replies[0].result.success && split.shouldSplit && split.subtasks != "")
    requires I.IsAlreadyComplete(replies[1].result.output)
    ensures var r := TaskBody(w, mem, replies, task);
      && r.flow.NextTask? && r.calls == [Splitter, Implementer] && r.rest == replies[2..]
      && P.OverriddenStatus(r.w.Overrides(), task.id) == P.Done && r.w.Stored().iterationCount == 0
  {
    var s := SplitStage(w, mem, replies, task);
    assert s.flow.Proceed? && s.calls == [Splitter] && s.rest == replies[1..];
    assert s.rest[0] == replies[1];
    var im := ImplementStage(s.w, s.mem, s.rest, task);
    assert Develop(s.w, s.mem, s.rest, task) == im;
    assert im.rest == replies[1..][1..] == replies[2..];
    assert TaskBody(w, mem, replies, task) == Then(s, im);
    CallPair(s.calls, im.calls, Splitter, Implementer);
  }

  lemma CallPair(a: seq<Role>, b: seq<Role>, x: Role, y: Role)
    requires a == [x] && b == [y]
    ensures a + b == [x, y]
  {
  }

  /** A finalizer answer with neither marker ends the loop as an approval. */
  lemma UnmarkedFinalAnswerApproves(w: World, mem: S.State, replies: seq<Reply>, iteration: nat)
    requires w.Valid() && iteration < MaxFinalizerIterations && |replies| > 0 && replies[0].result.success
    requires var f := I.ParseFinalizer(replies[0].result.output); !f.approved && !f.hasIssues
    ensures var r := FinalizerLoop(w, mem, replies, iteration);
      r.flow.Proceed? && r.calls == [Finalizer] && r.rest == replies[1..]
  {
  }

  /** The start of `_run_orchestrator_inner`: load the record, or create it
      with the requested step mode; `--step` on an existing record only
      ever turns step mode on. */
  function Start(w: World, stepMode: bool): (r: Saved)
    ensures r.w.Valid() && r.w.Stored() == r.mem
    ensures !w.Valid() ==> r.mem.InPhase(S.Idle) && r.mem.stepMode == stepMode && r.mem.iterationCount == 0
    ensures w.Valid() ==> r.mem.stepMode == (w.Stored().stepMode || stepMode)
    ensures w.Valid() ==> r.mem.(stepMode := w.Stored().stepMode, updatedAt := w.Stored().updatedAt) == w.Stored()
    ensures r.w.(store := w.store) == w
  {
    if !w.Valid() then
      var created := S.CreateInitialState(w.store, w.planFile, w.planFile, w.now);
      SaveMem(w.(store := created.0), created.1.(stepMode := stepMode))
    else if stepMode && !w.Stored().stepMode then
      SaveMem(w, w.Stored().(stepMode := true))
    else Saved(w, w.Stored())
  }

  datatype Outcome = Outcome(w: World, calls: seq<Role>, stop: Stop)

  /** `run_orchestrator`: the whole run on the given replies. */
  function RunOrchestrator(w: World, stepMode: bool, replies: seq<Reply>): (r: Outcome)
    ensures r.w.Valid()
    ensures r.stop.Exit? ==> r.stop.code == 0 || r.stop.code == 1
    ensures r.stop == Exit(1) ==> r.w.Stored().InPhase(S.Blocked) && r.w.blocked.Some?
    ensures r.stop == Exit(0) ==> r.w.Stored().InPhase(S.Paused) || r.w.Stored().InPhase(S.Complete)
    // the only exception that escapes is the plan parse's; one at the start stops the run before any agent
    ensures r.stop.Raised? ==> r.w.planError == Some(r.stop.error)
    ensures w.planError.Some? ==> r.stop == Raised(w.planError.value) && r.calls == []
    ensures |r.calls| <= |replies|
    // the replies run out only when every one of them was used
    ensures r.stop == Exhausted ==> |r.calls| == |replies|
  {
    var sw1 := Start(w, stepMode);
    var w1, mem := sw1.w, sw1.mem;
    var run := RunTasks(w1, mem, replies);
    Outcome(run.w, run.calls, run.flow.stop)
  }
}

=== FILE: plans.dfy ===
/** The task list of a plan and the status-override store of
    dvx/src/plan_parser.py. The agent that reads the plan is replaced by its
    parsed records; the JSON status file is a map from plan basename to a
    map from task id to status value. */
module Plans {

  import opened Wrappers
  import opened Text

  // ---------------------------------------------------------------------
  // Tasks

  datatype TaskStatus = Pending | InProgress | Done | Blocked

  /** The enum's value string. */
  function StatusValue(s: TaskStatus): (v: string)
    ensures |v| > 0 && IsLower(v)
  {
    match s
    case Pending => "pending"
    case InProgress => "in_progress"
    case Done => "done"
    case Blocked => "blocked"
  }

  /** `TaskStatus(v)`: the status whose value is `v`, if any. */
  function ParseStatus(v: string): (r: Option<TaskStatus>)
    ensures r.Some? ==> StatusValue(r.value) == v
    ensures r.None? ==> forall s: TaskStatus :: StatusValue(s) != v
  {
    if v == "pending" then Some(Pending)
    else if v == "in_progress" then Some(InProgress)
    else if v == "done" then Some(Done)
    else if v == "blocked" then Some(Blocked)
    else None
  }

  lemma ParseStatusValue(s: TaskStatus)
    ensures ParseStatus(StatusValue(s)) == Some(s)
  {
  }

  /** An unrecognised status string counts as pending. */
  function StatusOrPending(v: string): (s: TaskStatus)
    ensures s == Pending || StatusValue(s) == v
  {
    ParseStatus(v).GetOr(Pending)
  }

  datatype Task = Task(id: string, title: string, description: string, status: TaskStatus, lineNumber: int)

  // ---------------------------------------------------------------------
  // Override store

  /** Status values of one plan's tasks, by task id. */
  type Overrides = map<string, string>

  /** The whole status file: one override map per plan basename. */
  type OverrideStore = map<string, Overrides>

  /** `Path(p).name`: what follows the last '/'. */
  function Basename(path: string): (r: string)
    ensures '/' !in r
    ensures |r| <= |path| && r == path[|path| - |r|..]
    // the whole last segment: either the path itself or preceded by '/'
    ensures |r| == |path| || path[|path| - |r| - 1] == '/'
  {
    match LastIndexOf(path, '/')
    case None => path
    case Some(i) => path[i + 1..]
  }

  /** `_load_status_overrides`: this plan's map, empty when absent. */
  function OverridesFor(store: OverrideStore, planKey: string): (r: Overrides)
    ensures planKey !in store ==> r == map[]
  {
    if planKey in store then store[planKey] else map[]
  }

  /** `_save_status_override`: writes the one entry `[planKey][taskId]`,
      creating the plan's map when needed. */
  function SaveStatusOverride(store: OverrideStore, planKey: string, taskId: string, status: TaskStatus): (r: OverrideStore)
    ensures planKey in r && taskId in r[planKey] && r[planKey][taskId] == StatusValue(status)
    ensures r.Keys == store.Keys + {planKey}
    ensures forall k :: k in store && k != planKey ==> r[k] == store[k]
    ensures forall t :: t in OverridesFor(store, planKey) && t != taskId ==>
              t in r[planKey] && r[planKey][t] == OverridesFor(store, planKey)[t]
    ensures r[planKey].Keys == OverridesFor(store, planKey).Keys + {taskId}
  {
    store[planKey := OverridesFor(store, planKey)[taskId := StatusValue(status)]]
  }

  /** `update_task_status`: the override is keyed by the plan's basename. */
  function UpdateTaskStatus(store: OverrideStore, planPath: string, taskId: string, status: TaskStatus): (r: OverrideStore)
    ensures Basename(planPath) in r && taskId in r[Basename(planPath)]
    ensures StatusOrPending(r[Basename(planPath)][taskId]) == status
    ensures forall k :: k in store && k != Basename(planPath) ==> k in r && r[k] == store[k]
  {
    ParseStatusValue(status);
    SaveStatusOverride(store, Basename(planPath), taskId, status)
  }

  /** `clear_status_for_plan`: drops this plan's entry and nothing else. */
  function ClearStatusForPlan(store: OverrideStore, planKey: string): (r: OverrideStore)
    ensures planKey !in r
    ensures r.Keys == store.Keys - {planKey}
    ensures forall k :: k in r ==> r[k] == store[k]
  {
    store - {planKey}
  }

  // ---------------------------------------------------------------------
  // Applying overrides

  /** The status a task gets from the override store: the recorded one if
      it is a valid value, otherwise pending. */
  function OverriddenStatus(overrides: Overrides, id: string): (s: TaskStatus)
    ensures s != Pending ==> id in overrides && overrides[id] == StatusValue(s)
  {
    if id in overrides then StatusOrPending(overrides[id]) else Pending
  }

  /** `_apply_status_overrides`: the store decides every status; what the
      parse said is discarded. */
  function ApplyStatusOverrides(tasks: seq<Task>, overrides: Overrides): (r: seq<Task>)
    ensures |r| == |tasks|
    ensures forall i :: 0 <= i < |r| ==>
      && r[i].id == tasks[i].id && r[i].title == tasks[i].title
      && r[i].description == tasks[i].description && r[i].lineNumber == tasks[i].lineNumber
    ensures forall i :: 0 <= i < |r| && r[i].status != Pending ==>
      tasks[i].id in overrides && overrides[tasks[i].id] == StatusValue(r[i].status)
    ensures forall i :: 0 <= i < |r| && tasks[i].id in overrides && ParseStatus(overrides[tasks[i].id]).Some? ==>
      r[i].status == ParseStatus(overrides[tasks[i].id]).value
  {
    seq(|tasks|, i requires 0 <= i < |tasks| => tasks[i].(status := OverriddenStatus(overrides, tasks[i].id)))
  }

  /** Two parses that agree on ids get the same statuses, whatever each
      parse claimed. */
  lemma OverridesIgnoreParsedStatus(a: seq<Task>, b: seq<Task>, overrides: Overrides)
    requires |a| == |b|
    requires forall i :: 0 <= i < |a| ==> a[i].id == b[i].id
    ensures forall i :: 0 <= i < |a| ==>
      ApplyStatusOverrides(a, overrides)[i].status == ApplyStatusOverrides(b, overrides)[i].status
  {
  }

  // ---------------------------------------------------------------------
  // Selection and summary

  /** The index of the first task at or after `k` with status `s`. */
  function FirstWithStatus(tasks: seq<Task>, s: TaskStatus, k: nat): (r: Option<nat>)
    requires k <= |tasks|
    ensures r.Some? ==> k <= r.value < |tasks| && tasks[r.value].status == s
    ensures r.Some? ==> forall j :: k <= j < r.value ==> tasks[j].status != s
    ensures r.None? ==> forall j :: k <= j < |tasks| ==> tasks[j].status != s
    decreases |tasks| - k
  {
    if k == |tasks| then None
    else if tasks[k].status == s then Some(k)
    else FirstWithStatus(tasks, s, k + 1)
  }

  /** `get_next_pending_task` on the override-applied list: the first task
      in progress, else the first pending one. */
  function NextPendingTask(tasks: seq<Task>): (r: Option<Task>)
    ensures r.Some? ==> r.value in tasks && (r.value.status == InProgress || r.value.status == Pending)
    ensures r.Some? && r.value.status == Pending ==> forall j :: 0 <= j < |tasks| ==> tasks[j].status != InProgress
    ensures r.None? ==> forall j :: 0 <= j < |tasks| ==> tasks[j].status != InProgress && tasks[j].status != Pending
    ensures (exists j :: 0 <= j < |tasks| && tasks[j].status == InProgress) ==>
      exists j :: 0 <= j < |tasks| && r == Some(tasks[j]) && tasks[j].status == InProgress
        && forall i :: 0 <= i < j ==> tasks[i].status != InProgress
    ensures (forall j :: 0 <= j < |tasks| ==> tasks[j].status != InProgress) && (exists j :: 0 <= j < |tasks| && tasks[j].status == Pending) ==>
      exists j :: 0 <= j < |tasks| && r == Some(tasks[j]) && tasks[j].status == Pending
        && forall i :: 0 <= i < j ==> tasks[i].status != Pending
  {
    match FirstWithStatus(tasks, InProgress, 0)
    case Some(i) => Some(tasks[i])
    case None =>
      match FirstWithStatus(tasks, Pending, 0)
      case Some(i) => Some(tasks[i])
      case None => None
  }

  /** The number of tasks with status `s`. */
  /** The positions of the tasks with status `s`. */
  function TasksWithStatus(tasks: seq<Task>, s: TaskStatus): set<nat> {
    set j: nat | j < |tasks| && tasks[j].status == s
  }

  /** Counts the tasks with status `s`, from the last task back. */
  function CountStatus(tasks: seq<Task>, s: TaskStatus): (n: nat)
    ensures n <= |tasks|
    ensures n == 0 <==> forall j :: 0 <= j < |tasks| ==> tasks[j].status != s
    ensures n == |TasksWithStatus(tasks, s)|
  {
    if |tasks| == 0 then
      assert TasksWithStatus(tasks, s) == {};
      0
    else
      var k := |tasks| - 1;
      WithStatusSnoc(tasks, s);
      CountStatus(tasks[..k], s) + (if tasks[k].status == s then 1 else 0)
  }

  /** Appending one task adds its position to the set of its status. */
  lemma WithStatusSnoc(tasks: seq<Task>, s: TaskStatus)
    requires |tasks| > 0
    ensures var k := |tasks| - 1;
      TasksWithStatus(tasks, s) == TasksWithStatus(tasks[..k], s) + (if tasks[k].status == s then {k} else {})
  {
    var k := |tasks| - 1;
    var pre := tasks[..k];
    forall j: nat | j < k ensures pre[j] == tasks[j] {
    }
  }

  datatype Summary = Summary(total: nat, done: nat, inProgress: nat, pending: nat, blocked: nat)

  /** `get_plan_summary` (the counts; the task list itself is the input). */
  function PlanSummary(tasks: seq<Task>): (r: Summary)
    ensures r.done + r.inProgress + r.pending + r.blocked == r.total == |tasks|
    // each field counts the tasks with its own status
    ensures r.done == |TasksWithStatus(tasks, Done)| && r.inProgress == |TasksWithStatus(tasks, InProgress)|
    ensures r.pending == |TasksWithStatus(tasks, Pending)| && r.blocked == |TasksWithStatus(tasks, Blocked)|
    ensures r.pending == 0 && r.inProgress == 0 <==> NextPendingTask(tasks).None?
  {
    CountsPartition(tasks);
    Summary(|tasks|, CountStatus(tasks, Done), CountStatus(tasks, InProgress),
            CountStatus(tasks, Pending), CountStatus(tasks, Blocked))
  }

  lemma {:induction false} CountsPartition(tasks: seq<Task>)
    ensures CountStatus(tasks, Done) + CountStatus(tasks, InProgress)
          + CountStatus(tasks, Pending) + CountStatus(tasks, Blocked) == |tasks|
  {
    if |tasks| > 0 {
      CountsPartition(tasks[..|tasks| - 1]);
    }
  }

  // ---------------------------------------------------------------------
  // Reconciliation with the plan's own markers

  datatype SyncReport = SyncReport(synced: nat, added: nat, removed: nat, tasks: nat)

  predicate DistinctIds(tasks: seq<Task>) {
    forall i, j :: 0 <= i < j < |tasks| ==> tasks[i].id != tasks[j].id
  }

  function TaskIds(tasks: seq<Task>): (r: set<string>)
    ensures forall i :: 0 <= i < |tasks| ==> tasks[i].id in r
    ensures forall id :: id in r ==> exists i :: 0 <= i < |tasks| && tasks[i].id == id
  {
    set i | 0 <= i < |tasks| :: tasks[i].id
  }

  /** The per-task rule against the snapshot `current`: a task the plan
      marks done is recorded done unless it already is; a task the plan
      marks pending that is recorded done goes back to pending; other
      tasks are left alone. */
  function SyncTask(store: OverrideStore, planKey: string, current: Overrides, t: Task): (r: (OverrideStore, nat, nat))
    ensures r.1 + r.2 <= 1
  {
    var cur := if t.id in current then Some(current[t.id]) else None;
    if t.status == Done && cur != Some("done") then
      (SaveStatusOverride(store, planKey, t.id, Done), if cur.None? then 0 else 1, if cur.None? then 1 else 0)
    else if t.status == Pending && cur == Some("done") then
      (SaveStatusOverride(store, planKey, t.id, Pending), 1, 0)
    else (store, 0, 0)
  }

  /** The first loop of `sync_plan_state` over `tasks[k..]`, returning the
      store and the synced and added counters. */
  function SyncFrom(store: OverrideStore, planKey: string, current: Overrides, tasks: seq<Task>, k: nat): (r: (OverrideStore, nat, nat))
    requires k <= |tasks|
    ensures r.1 + r.2 <= |tasks| - k
    decreases |tasks| - k
  {
    if k == |tasks| then (store, 0, 0)
    else
      var step := SyncTask(store, planKey, current, tasks[k]);
      var rest := SyncFrom(step.0, planKey, current, tasks, k + 1);
      (rest.0, rest.1 + step.1, rest.2 + step.2)
  }

  /** Drops override entries `ids` of one plan, as the second loop does. */
  function RemoveIds(store: OverrideStore, planKey: string, ids: set<string>): (r: OverrideStore)
    ensures r.Keys == store.Keys
    ensures forall k :: k in store && k != planKey ==> r[k] == store[k]
    ensures planKey in store ==> r[planKey] == store[planKey] - ids
  {
    if planKey in store then store[planKey := store[planKey] - ids] else store
  }

  /** `sync_plan_state` given the fresh parse of the plan. Ids recorded for
      this plan but absent from the parse are removed afterwards. */
  function SyncPlanState(store: OverrideStore, planKey: string, tasks: seq<Task>): (r: (OverrideStore, SyncReport))
    ensures r.1.tasks == |tasks|
    ensures r.1.synced + r.1.added <= |tasks|
    ensures r.1.removed == |OverridesFor(store, planKey).Keys - TaskIds(tasks)|
  {
    var current := OverridesFor(store, planKey);
    var pass := SyncFrom(store, planKey, current, tasks, 0);
    var stale := current.Keys - TaskIds(tasks);
    (RemoveIds(pass.0, planKey, stale), SyncReport(pass.1, pass.2, |stale|, |tasks|))
  }

  /** The entry for `id` after the first loop, when no task at or after
      `k` carries that id. */
  lemma {:induction false} SyncFromUntouched(store: OverrideStore, planKey: string, current: Overrides, tasks: seq<Task>, k: nat, id: string)
    requires k <= |tasks|
    requires forall j :: k <= j < |tasks| ==> tasks[j].id != id
    ensures var m := OverridesFor(SyncFrom(store, planKey, current, tasks, k).0, planKey);
      var m0 := OverridesFor(store, planKey);
      (id in m <==> id in m0) && (id in m ==> m[id] == m0[id])
    ensures forall p :: p != planKey ==>
      (p in SyncFrom(store, planKey, current, tasks, k).0 <==> p in store)
      && (p in store ==> SyncFrom(store, planKey, current, tasks, k).0[p] == store[p])
    decreases |tasks| - k
  {
    if k < |tasks| {
      var step := SyncTask(store, planKey, current, tasks[k]);
      SyncFromUntouched(step.0, planKey, current, tasks, k + 1, id);
    }
  }

  /** What the first loop leaves for the task at index `i`. */
  lemma {:induction false} SyncFromEntry(store: OverrideStore, planKey: string, current: Overrides, tasks: seq<Task>, k: nat, i: nat)
    requires k <= i < |tasks|
    requires DistinctIds(tasks)
    requires OverridesFor(store, planKey) == current || (forall j :: k <= j < |tasks| ==> var id := tasks[j].id;
               (id in OverridesFor(store, planKey) <==> id in current)
               && (id in current ==> OverridesFor(store, planKey)[id] == current[id]))
    ensures var m := OverridesFor(SyncFrom(store, planKey, current, tasks, k).0, planKey);
      var t := tasks[i];
      && (t.status == Done ==> t.id in m && m[t.id] == "done")
      && (t.status == Pending && t.id in current && current[t.id] == "done" ==> t.id in m && m[t.id] == "pending")
      && (!(t.status == Done) && !(t.status == Pending && t.id in current && current[t.id] == "done") ==>
            (t.id in m <==> t.id in current) && (t.id in current ==> m[t.id] == current[t.id]))
    decreases |tasks| - k
  {
    var step := SyncTask(store, planKey, current, tasks[k]);
    if k == i {
      SyncFromUntouched(step.0, planKey, current, tasks, k + 1, tasks[i].id);
    } else {
      assert tasks[k].id != tasks[i].id;
      SyncFromEntry(step.0, planKey, current, tasks, k + 1, i);
    }
  }

  /** The reconciliation rules of `sync_plan_state`, between the entries
      `current` recorded for a plan and the entries `m` left after the
      sync: plan-done tasks end recorded done; recorded-done tasks the plan
      shows pending go back to pending; tasks in progress or blocked keep
      their entry; entries for vanished ids are removed. */
  predicate Reconciled(current: Overrides, m: Overrides, tasks: seq<Task>) {
    && (forall i :: 0 <= i < |tasks| && tasks[i].status == Done ==> tasks[i].id in m && m[tasks[i].id] == "done")
    && (forall i :: 0 <= i < |tasks| && tasks[i].status == Pending && tasks[i].id in current && current[tasks[i].id] == "done" ==>
          tasks[i].id in m && m[tasks[i].id] == "pending")
    && (forall i :: 0 <= i < |tasks| && (tasks[i].status == InProgress || tasks[i].status == Blocked) ==>
          (tasks[i].id in m <==> tasks[i].id in current) && (tasks[i].id in current ==> m[tasks[i].id] == current[tasks[i].id]))
    && (forall id :: id in current && id !in TaskIds(tasks) ==> id !in m)
  }

  /** `sync_plan_state` reconciles the plan's entries when the parse's ids
      are distinct. With a repeated id the first loop visits that id once
      per task, and the entry left behind is decided by the last of them,
      so the rules above can fail for the earlier ones. */
  lemma SyncReconciles(store: OverrideStore, planKey: string, tasks: seq<Task>)
    requires DistinctIds(tasks)
    ensures Reconciled(OverridesFor(store, planKey), OverridesFor(SyncPlanState(store, planKey, tasks).0, planKey), tasks)
  {
    var current := OverridesFor(store, planKey);
    var pass := SyncFrom(store, planKey, current, tasks, 0);
    var stale := current.Keys - TaskIds(tasks);
    var m := OverridesFor(SyncPlanState(store, planKey, tasks).0, planKey);
    forall i | 0 <= i < |tasks|
      ensures var t := tasks[i];
        && (t.status == Done ==> t.id in m && m[t.id] == "done")
        && (t.status == Pending && t.id in current && current[t.id] == "done" ==> t.id in m && m[t.id] == "pending")
        && (t.status == InProgress || t.status == Blocked ==>
              (t.id in m <==> t.id in current) && (t.id in current ==> m[t.id] == current[t.id]))
    {
      SyncFromEntry(store, planKey, current, tasks, 0, i);
      assert tasks[i].id !in stale;
    }
    forall id | id in current && id !in TaskIds(tasks)
      ensures id !in m
    {
      assert id in stale;
      assert forall j :: 0 <= j < |tasks| ==> tasks[j].id != id;
      SyncFromUntouched(store, planKey, current, tasks, 0, id);
    }
  }

  /** The counters: `added` counts plan-done tasks with no recorded entry,
      `synced` counts the entries that changed value. */
  function AddedCount(tasks: seq<Task>, current: Overrides): nat {
    if |tasks| == 0 then 0
    else (if tasks[0].status == Done && tasks[0].id !in current then 1 else 0) + AddedCount(tasks[1..], current)
  }

  function SyncedCount(tasks: seq<Task>, current: Overrides): nat {
    if |tasks| == 0 then 0
    else
      var t := tasks[0];
      var changed := (t.status == Done && t.id in current && current[t.id] != "done")
                  || (t.status == Pending && t.id in current && current[t.id] == "done");
      (if changed then 1 else 0) + SyncedCount(tasks[1..], current)
  }

  lemma {:induction false} SyncFromCounts(store: OverrideStore, planKey: string, current: Overrides, tasks: seq<Task>, k: nat)
    requires k <= |tasks|
    ensures SyncFrom(store, planKey, current, tasks, k).2 == AddedCount(tasks[k..], current)
    ensures SyncFrom(store, planKey, current, tasks, k).1 == SyncedCount(tasks[k..], current)
    decreases |tasks| - k
  {
    if k < |tasks| {
      var step := SyncTask(store, planKey, current, tasks[k]);
      SyncFromCounts(step.0, planKey, current, tasks, k + 1);
      assert tasks[k..][1..] == tasks[k + 1..];
    }
  }

  lemma SyncCounters(store: OverrideStore, planKey: string, tasks: seq<Task>)
    ensures SyncPlanState(store, planKey, tasks).1.added == AddedCount(tasks, OverridesFor(store, planKey))
    ensures SyncPlanState(store, planKey, tasks).1.synced == SyncedCount(tasks, OverridesFor(store, planKey))
  {
    SyncFromCounts(store, planKey, OverridesFor(store, planKey), tasks, 0);
    assert tasks[0..] == tasks;
  }

  // ---------------------------------------------------------------------
  // Normalisation of the parser's records

  /** One record of the parser's JSON, each field possibly missing. */
  datatype RawTask = RawTask(
    id: Option<string>,
    title: Option<string>,
    description: Option<string>,
    status: Option<string>,
    lineNumber: Option<int>)

  /** The record at position `index` as a task: a missing id becomes the
      1-based position, a missing title "Untitled", a missing description
      empty, and a missing or unknown status (after lower-casing) pending. */
  function NormalizeRecord(raw: RawTask, index: nat): (t: Task)
    ensures raw.id.Some? ==> t.id == raw.id.value
    ensures raw.id.None? ==> t.id == NatToString(index + 1) && ParseDigits(t.id) == index + 1
    ensures raw.title.Some? ==> t.title == raw.title.value
    ensures raw.title.None? ==> t.title == "Untitled"
    ensures raw.description.Some? ==> t.description == raw.description.value
    ensures raw.description.None? ==> t.description == ""
    ensures raw.lineNumber.Some? ==> t.lineNumber == raw.lineNumber.value
    ensures raw.lineNumber.None? ==> t.lineNumber == 0
    ensures t.status == Pending || (raw.status.Some? && StatusValue(t.status) == Lower(raw.status.value))
    ensures raw.status.Some? && ParseStatus(Lower(raw.status.value)).Some? ==> StatusValue(t.status) == Lower(raw.status.value)
  {
    ParseNatToString(index + 1);
    Task(
      raw.id.GetOr(NatToString(index + 1)),
      raw.title.GetOr("Untitled"),
      raw.description.GetOr(""),
      StatusOrPending(Lower(raw.status.GetOr("pending"))),
      raw.lineNumber.GetOr(0))
  }

  /** Every record normalised in order; a record without an id is numbered
      by its 1-based position, so two such records never share an id. */
  function NormalizeRecords(raws: seq<RawTask>): (r: seq<Task>)
    ensures |r| == |raws|
    ensures forall i :: 0 <= i < |r| ==> r[i] == NormalizeRecord(raws[i], i)
    ensures forall i :: 0 <= i < |r| && raws[i].id.Some? ==> r[i].id == raws[i].id.value
    ensures forall i :: 0 <= i < |r| && raws[i].id.None? ==> r[i].id == NatToString(i + 1)
    ensures forall i, j :: 0 <= i < j < |r| && raws[i].id.None? && raws[j].id.None? ==> r[i].id != r[j].id
  {
    var r := seq(|raws|, i requires 0 <= i < |raws| => NormalizeRecord(raws[i], i));
    forall i, j | 0 <= i < j < |r| && raws[i].id.None? && raws[j].id.None?
      ensures r[i].id != r[j].id
    {
      assert ParseDigits(r[i].id) == i + 1 && ParseDigits(r[j].id) == j + 1;
    }
    r
  }

  /** Some `{` comes before some `}` in `o`. */
  predicate BracePair(o: string) {
    exists a, b :: 0 <= a < b < |o| && o[a] == '{' && o[b] == '}'
  }

  lemma CharMatch(s: string, c: char, j: nat)
    requires j < |s|
    ensures MatchAt(s, [c], j) <==> s[j] == c
  {
    assert s[j..j + 1] == [s[j]];
  }

  /** The JSON object in the parser's reply: from the first `{` to the
      last `}` of the stripped text, when both exist in that order. */
  function JsonPayload(output: string): (r: string)
    ensures var o := Strip(output);
      BracePair(o) ==> exists i, j :: 0 <= i < j <= |o| && r == o[i..j] && o[i] == '{' && o[j - 1] == '}' && '{' !in o[..i] && '}' !in o[j..]
    ensures var o := Strip(output);
      !BracePair(o) ==> r == o
  {
    var o := Strip(output);
    match Find(o, "{", 0)
    case None =>
      forall a | 0 <= a < |o| ensures o[a] != '{' {
        CharMatch(o, '{', a);
      }
      o
    case Some(i) =>
      CharMatch(o, '{', i);
      forall m | 0 <= m < i ensures o[m] != '{' {
        CharMatch(o, '{', m);
      }
      match LastIndexOf(o, '}')
      case None => o
      case Some(e) =>
        if e + 1 > i then
          o[i..e + 1]
        else
          assert !BracePair(o) by {
            forall a, b | 0 <= a < b < |o| && o[a] == '{' ensures o[b] != '}' {
            }
          }
          o
  }

  // ---------------------------------------------------------------------
  // Size guard

  const MaxPlanTokens: nat := 20000
  const CharsPerToken: nat := 4

  /** `_estimate_tokens`: floor of length over four. */
  function EstimateTokens(text: string): (n: nat)
    ensures n * CharsPerToken <= |text| < (n + 1) * CharsPerToken
  {
    |text| / CharsPerToken
  }

  /** Compression is attempted for plans whose estimate exceeds the limit,
      that is, from 80004 characters on. */
  predicate NeedsCompression(content: string) {
    EstimateTokens(content) > MaxPlanTokens
  }

  lemma NeedsCompressionLength(content: string)
    ensures NeedsCompression(content) <==> |content| >= 80004
  {
  }

  datatype Compression =
    | Compressed(content: string)   // the agent's shorter version is kept
    | KeptOriginal                  // not smaller: the original is written back
    | Failed(message: string)       // the original is written back and the parse raises

  /** Python's rendering of an optional reason inside an f-string. */
  function ShowReason(reason: Option<string>): string {
    reason.GetOr("None")
  }

  /** `_compress_plan_file` after the agent ran: `written` is what the plan
      file holds afterwards. */
  function CompressPlan(original: string, agentSucceeded: bool, blockReason: Option<string>, written: string): (r: Compression)
    ensures r.Compressed? ==> agentSucceeded && r.content == written && 100 <= |written| < |original|
    ensures agentSucceeded && 100 <= |written| < |original| ==> r.Compressed?
    ensures r.KeptOriginal? <==> agentSucceeded && |written| >= 100 && |written| >= |original|
  {
    if !agentSucceeded then Failed("Plan compression failed: " + ShowReason(blockReason))
    else if |written| < 100 then Failed("Compressed plan is too small - something went wrong")
    else if |written| >= |original| then KeptOriginal
    else Compressed(written)
  }

  /** The plan file's content after the compression attempt. */
  function PlanAfterCompression(original: string, c: Compression): string {
    if c.Compressed? then c.content else original
  }

  /** Whatever the agent did, the plan file ends as the original or as a
      strictly shorter text of at least 100 characters. */
  lemma CompressionNeverGrows(original: string, ok: bool, reason: Option<string>, written: string)
    ensures var after := PlanAfterCompression(original, CompressPlan(original, ok, reason, written));
      after == original || (100 <= |after| < |original|)
  {
  }
}

=== FILE: session.dfy ===
/** Reduction of an agent run to a `SessionResult`, after
    dvx/src/claude_session.py. The subprocess is replaced by how it ended:
    the exit code and the decoded stream events, a timeout, a missing
    executable, or another exception. */
module Session {

  import opened Wrappers
  import opened Text

  /** A decoded stream line. A dict carries an optional `type`, an optional
      `session_id` key (whose value may be null), and an optional `result`. */
  datatype Event =
    | NotDict
    | Dict(eventType: Option<string>, sessionId: Option<Option<string>>, result: Option<string>)

  predicate CarriesSession(e: Event) {
    e.Dict? && e.sessionId.Some?
  }

  predicate IsResultEvent(e: Event) {
    e.Dict? && e.eventType == Some("result")
  }

  /** What the fold keeps: the text so far and the session id so far. */
  datatype Scan = Scan(text: string, sessionId: Option<string>)

  /** The index of the last event carrying a `session_id` key. */
  function LastCarrier(events: seq<Event>): (r: Option<nat>)
    ensures r.Some? ==> r.value < |events| && CarriesSession(events[r.value])
    ensures r.Some? ==> forall j :: r.value < j < |events| ==> !CarriesSession(events[j])
    ensures r.None? ==> forall j :: 0 <= j < |events| ==> !CarriesSession(events[j])
  {
    if |events| == 0 then None
    else if CarriesSession(events[|events| - 1]) then Some(|events| - 1)
    else
      var r := LastCarrier(events[..|events| - 1]);
      assert forall j :: 0 <= j < |events| - 1 ==> events[..|events| - 1][j] == events[j];
      r
  }

  /** The index of the last `result` event. */
  function LastResult(events: seq<Event>): (r: Option<nat>)
    ensures r.Some? ==> r.value < |events| && IsResultEvent(events[r.value])
    ensures r.Some? ==> forall j :: r.value < j < |events| ==> !IsResultEvent(events[j])
    ensures r.None? ==> forall j :: 0 <= j < |events| ==> !IsResultEvent(events[j])
  {
    if |events| == 0 then None
    else if IsResultEvent(events[|events| - 1]) then Some(|events| - 1)
    else
      var r := LastResult(events[..|events| - 1]);
      assert forall j :: 0 <= j < |events| - 1 ==> events[..|events| - 1][j] == events[j];
      r
  }

  /** One iteration of the loop of `_parse_stream_output`. */
  function Step(prev: Scan, e: Event): Scan {
    if e.NotDict? then prev
    else
      var sid := if e.sessionId.Some? then e.sessionId.value else prev.sessionId;
      var text := if e.eventType == Some("result") then e.result.GetOr("") else prev.text;
      Scan(text, sid)
  }

  /** The loop of `_parse_stream_output`, over all events: the session id
      is that of the last event carrying the key (possibly null), the text
      that of the last result event (empty when it has none). */
  function ScanEvents(events: seq<Event>): (r: Scan)
    ensures r.sessionId == (match LastCarrier(events) case None => None case Some(i) => events[i].sessionId.value)
    ensures r.text == (match LastResult(events) case None => "" case Some(i) => events[i].result.GetOr(""))
  {
    if |events| == 0 then Scan("", None)
    else Step(ScanEvents(events[..|events| - 1]), events[|events| - 1])
  }

  lemma ScanSnoc(s: seq<Event>, e: Event)
    ensures ScanEvents(s + [e]) == Step(ScanEvents(s), e)
  {
    assert (s + [e])[..|s|] == s;
  }

  /** Events that are not dicts change nothing. */
  lemma {:induction false} NonDictsIgnored(a: seq<Event>, b: seq<Event>)
    ensures ScanEvents(a + [NotDict] + b) == ScanEvents(a + b)
    decreases |b|
  {
    if |b| == 0 {
      assert a + [NotDict] + b == a + [NotDict];
      assert a + b == a;
      ScanSnoc(a, NotDict);
    } else {
      var b' := b[..|b| - 1];
      var x := b[|b| - 1];
      NonDictsIgnored(a, b');
      assert a + [NotDict] + b == (a + [NotDict] + b') + [x];
      assert a + b == (a + b') + [x];
      ScanSnoc(a + [NotDict] + b', x);
      ScanSnoc(a + b', x);
    }
  }

  const BlockedMarker := "[BLOCKED:"

  /** `is_blocked`: one of three case-sensitive signals in the text. */
  predicate SignalsBlocked(text: string) {
    Contains(text, BlockedMarker) || Contains(text, ".dvx/BLOCKED") || Contains(text, "BLOCKED.md")
  }

  /** `text.find(']', from)` */
  function CloseBracket(text: string, from: nat): (r: Option<nat>)
    ensures r.Some? ==> from <= r.value < |text| && text[r.value] == ']'
    ensures r.Some? ==> forall j :: from <= j < r.value ==> text[j] != ']'
    ensures r.None? ==> forall j :: from <= j < |text| ==> text[j] != ']'
    decreases |text| - from
  {
    if from >= |text| then None
    else if text[from] == ']' then Some(from)
    else CloseBracket(text, from + 1)
  }

  /** Where the reason lies: after the first `[BLOCKED:` and before the
      next `]`. */
  function ReasonSpan(text: string): (r: Option<(nat, nat)>)
    ensures r.Some? ==> var (s, e) := r.value;
      && s + 9 <= e < |text| && text[e] == ']'
      && MatchAt(text, BlockedMarker, s) && (forall j :: 0 <= j < s ==> !MatchAt(text, BlockedMarker, j))
      && (forall j :: s + 9 <= j < e ==> text[j] != ']')
    ensures r.None? && Contains(text, BlockedMarker) ==>
      var s := Find(text, BlockedMarker, 0).value;
      forall j :: s <= j < |text| ==> text[j] != ']'
  {
    match Find(text, BlockedMarker, 0)
    case None => None
    case Some(s) =>
      match CloseBracket(text, s)
      case None => None
      case Some(e) =>
        assert forall j :: s <= j < s + 9 ==> text[j] == BlockedMarker[j - s];
        Some((s, e))
  }

  /** The block reason: the stripped text between the first `[BLOCKED:` and
      the next `]`; none without the marker or without a closing bracket. */
  function BlockReason(text: string): (r: Option<string>)
    ensures r.Some? ==> Contains(text, BlockedMarker)
    ensures r.Some? <==> ReasonSpan(text).Some?
    ensures r.Some? ==> r.value == Strip(text[ReasonSpan(text).value.0 + 9..ReasonSpan(text).value.1])
  {
    var span := ReasonSpan(text);
    if span.None? then None
    else
      ContainsAt(text, BlockedMarker, span.value.0);
      Some(Strip(text[span.value.0 + 9..span.value.1]))
  }

  datatype StreamSummary = StreamSummary(text: string, sessionId: Option<string>, blocked: bool, blockReason: Option<string>)

  /** `_parse_stream_output` */
  function ParseStreamOutput(events: seq<Event>): (r: StreamSummary)
    ensures r.blocked <==> SignalsBlocked(r.text)
    ensures r.blockReason.Some? ==> r.blocked
    ensures r.blockReason == BlockReason(r.text)
    ensures r.text == ScanEvents(events).text && r.sessionId == ScanEvents(events).sessionId
  {
    var scan := ScanEvents(events);
    StreamSummary(scan.text, scan.sessionId, SignalsBlocked(scan.text), BlockReason(scan.text))
  }

  // ---------------------------------------------------------------------
  // run_claude

  /** How the agent process ended. */
  datatype ProcessOutcome =
    | Exited(code: int, events: seq<Event>)
    | TimedOut
    | NotFound
    | Crashed(message: string)   // any other exception, with `str(e)`

  datatype SessionResult = SessionResult(
    output: string,
    sessionId: Option<string>,
    success: bool,
    blocked: bool,
    blockReason: Option<string>)

  /** The result construction of `run_claude`: a finished process reports
      its parsed stream, keeping the caller's session id when the stream
      named none; every other ending is an unsuccessful, blocked result
      with no output. */
  function RunClaude(outcome: ProcessOutcome, sessionIn: Option<string>): (r: SessionResult)
    ensures r.success <==> outcome.Exited? && outcome.code == 0
    ensures outcome.Exited? ==> var p := ParseStreamOutput(outcome.events);
      && r.output == p.text && r.blocked == p.blocked && r.blockReason == p.blockReason
      && r.sessionId == (if Truthy(p.sessionId) then p.sessionId else sessionIn)
    ensures !outcome.Exited? ==> r.output == "" && r.blocked && r.blockReason.Some?
    ensures outcome.TimedOut? || outcome.NotFound? ==> r.blockReason.value != ""
    ensures outcome.Crashed? ==> r.blockReason == Some(outcome.message)
    ensures outcome.NotFound? ==> r.sessionId.None?
    ensures outcome.TimedOut? || outcome.Crashed? ==> r.sessionId == sessionIn
  {
    match outcome
    case Exited(code, events) =>
      var p := ParseStreamOutput(events);
      SessionResult(p.text, if Truthy(p.sessionId) then p.sessionId else sessionIn, code == 0, p.blocked, p.blockReason)
    case TimedOut => SessionResult("", sessionIn, false, true, Some("Timeout - session took too long"))
    case NotFound => SessionResult("", None, false, true, Some("claude command not found"))
    case Crashed(message) => SessionResult("", sessionIn, false, true, Some(message))
  }

  /** A successful result always comes from a finished process, and a
      failed one either exited non-zero or is blocked. */
  lemma FailureIsExplained(outcome: ProcessOutcome, sessionIn: Option<string>)
    ensures var r := RunClaude(outcome, sessionIn);
      !r.success ==> (outcome.Exited? && outcome.code != 0) || (r.blocked && r.output == "")
  {
  }
}

=== FILE: state.dfy ===
/** The durable orchestration record of dvx/src/state.py. The `.dvx`
    directory becomes values: a map from namespace key to `State` for
    `state.json`, an optional blocked context, and a map from topic to the
    text of each decision log. Timestamps are parameters. */
module StateStore {

  import opened Wrappers
  import opened Text

  // ---------------------------------------------------------------------
  // Phase

  /** The phases, including `Paused` and `Finalizing`, which the
      orchestrator and the CLI use. */
  datatype Phase = Idle | Implementing | Reviewing | Fixing | Testing | Committing
                 | Blocked | Paused | Finalizing | Complete

  function PhaseValue(p: Phase): (v: string)
    ensures |v| > 0 && IsLower(v)
  {
    match p
    case Idle => "idle"
    case Implementing => "implementing"
    case Reviewing => "reviewing"
    case Fixing => "fixing"
    case Testing => "testing"
    case Committing => "committing"
    case Blocked => "blocked"
    case Paused => "paused"
    case Finalizing => "finalizing"
    case Complete => "complete"
  }

  /** `Phase(v)`: the phase whose value is `v`, if any. */
  function ParsePhase(v: string): (r: Option<Phase>)
    ensures r.Some? ==> PhaseValue(r.value) == v
  {
    if v == "idle" then Some(Idle)
    else if v == "implementing" then Some(Implementing)
    else if v == "reviewing" then Some(Reviewing)
    else if v == "fixing" then Some(Fixing)
    else if v == "testing" then Some(Testing)
    else if v == "committing" then Some(Committing)
    else if v == "blocked" then Some(Blocked)
    else if v == "paused" then Some(Paused)
    else if v == "finalizing" then Some(Finalizing)
    else if v == "complete" then Some(Complete)
    else None
  }

  /** Every phase value parses back to its phase, so values are distinct. */
  lemma ParsePhaseValue(p: Phase)
    ensures ParsePhase(PhaseValue(p)) == Some(p)
  {
  }

  lemma PhaseValueInjective(p: Phase, q: Phase)
    requires PhaseValue(p) == PhaseValue(q)
    ensures p == q
  {
    ParsePhaseValue(p);
    ParsePhaseValue(q);
  }

  // ---------------------------------------------------------------------
  // The record

  /** The stored record. `phase` is kept as the stored string. */
  datatype State = State(
    planFile: string,
    currentTaskId: Option<string>,
    currentTaskTitle: Option<string>,
    phase: string,
    overseerSessionId: Option<string>,
    iterationCount: int,
    maxIterations: int,
    startedAt: Option<string>,
    updatedAt: Option<string>,
    stepMode: bool)
  {
    predicate InPhase(p: Phase) {
      phase == PhaseValue(p)
    }
  }

  const DefaultMaxIterations: int := 3

  /** `State(plan_file=...)` with every other field at its default. */
  function DefaultState(planFile: string): (s: State)
    ensures s.planFile == planFile && s.InPhase(Idle)
    ensures s.currentTaskId.None? && s.currentTaskTitle.None? && s.overseerSessionId.None?
    ensures s.iterationCount == 0 && s.maxIterations == 3 && !s.stepMode
  {
    State(planFile, None, None, "idle", None, 0, DefaultMaxIterations, None, None, false)
  }

  /** The state records, by namespace key. */
  type Store = map<string, State>

  const NoActiveState := "No active state - run 'dvx start' first"

  /** `load_state` */
  function Load(store: Store, key: string): (r: Option<State>)
    ensures r.Some? <==> key in store
  {
    if key in store then Some(store[key]) else None
  }

  /** `save_state`: stores the record with `updated_at` refreshed. */
  function Save(store: Store, key: string, s: State, now: string): (r: Store)
    ensures r.Keys == store.Keys + {key}
    ensures forall k :: k in store && k != key ==> r[k] == store[k]
  {
    store[key := s.(updatedAt := Some(now))]
  }

  /** `reset_state` */
  function Reset(store: Store, key: string): (r: Store)
    ensures r.Keys == store.Keys - {key}
    ensures forall k :: k in r ==> r[k] == store[k]
  {
    store - {key}
  }

  /** A save followed by a load returns the saved record, up to `updated_at`. */
  lemma SaveThenLoad(store: Store, key: string, s: State, now: string)
    ensures Load(Save(store, key, s, now), key).Some?
    ensures Load(Save(store, key, s, now), key).value.(updatedAt := s.updatedAt) == s
    ensures Load(Save(store, key, s, now), key).value.updatedAt == Some(now)
  {
  }

  /** A reset followed by a load finds nothing; other keys keep their record. */
  lemma ResetThenLoad(store: Store, key: string, other: string)
    requires other != key
    ensures Load(Reset(store, key), key).None?
    ensures Load(Reset(store, key), other) == Load(store, other)
  {
  }

  /** `create_initial_state`: a fresh idle record, saved. */
  function CreateInitialState(store: Store, key: string, planFile: string, now: string): (r: (Store, State))
    ensures r.1.planFile == planFile && r.1.InPhase(Idle) && r.1.startedAt == Some(now)
    ensures r.1.iterationCount == 0 && r.1.maxIterations == 3 && r.1.currentTaskId.None? && !r.1.stepMode
    ensures Load(r.0, key) == Some(r.1)
  {
    var s := DefaultState(planFile).(startedAt := Some(now), updatedAt := Some(now));
    (Save(store, key, s, now), s)
  }

  // ---------------------------------------------------------------------
  // Mutators: each loads, changes, saves, and fails without a record

  datatype Updated = Updated(store: Store, state: State)

  /** `update_phase` */
  function UpdatePhase(store: Store, key: string, p: Phase, now: string): (r: Result<Updated, string>)
    ensures r.Failure? <==> key !in store
    ensures r.Failure? ==> r.error == NoActiveState
    ensures r.Success? ==> Load(r.value.store, key) == Some(r.value.state) && r.value.state.InPhase(p)
    ensures r.Success? ==> r.value.state.(phase := store[key].phase, updatedAt := store[key].updatedAt) == store[key]
    ensures r.Success? ==> forall k :: k in store && k != key ==> k in r.value.store && r.value.store[k] == store[k]
  {
    match Load(store, key)
    case None => Failure(NoActiveState)
    case Some(s) =>
      var s' := s.(phase := PhaseValue(p), updatedAt := Some(now));
      Success(Updated(Save(store, key, s', now), s'))
  }

  /** `set_current_task`: the task id and title are set and the iteration
      counter restarts. */
  function SetCurrentTask(store: Store, key: string, taskId: string, title: string, now: string): (r: Result<Updated, string>)
    ensures r.Failure? <==> key !in store
    ensures r.Failure? ==> r.error == NoActiveState
    ensures r.Success? ==> Load(r.value.store, key) == Some(r.value.state)
    ensures r.Success? ==> var s := r.value.state;
      s.currentTaskId == Some(taskId) && s.currentTaskTitle == Some(title) && s.iterationCount == 0
    ensures r.Success? ==> r.value.state.(currentTaskId := store[key].currentTaskId,
                                          currentTaskTitle := store[key].currentTaskTitle,
                                          iterationCount := store[key].iterationCount,
                                          updatedAt := store[key].updatedAt) == store[key]
  {
    match Load(store, key)
    case None => Failure(NoActiveState)
    case Some(s) =>
      var s' := s.(currentTaskId := Some(taskId), currentTaskTitle := Some(title), iterationCount := 0, updatedAt := Some(now));
      Success(Updated(Save(store, key, s', now), s'))
  }

  /** `increment_iteration`: one more round, and whether the bound is now
      exceeded. */
  function IncrementIteration(store: Store, key: string, now: string): (r: Result<(Updated, bool), string>)
    ensures r.Failure? <==> key !in store
    ensures r.Failure? ==> r.error == NoActiveState
    ensures r.Success? ==> var (u, exceeded) := r.value;
      && Load(u.store, key) == Some(u.state)
      && u.state.iterationCount == store[key].iterationCount + 1
      && (exceeded <==> u.state.iterationCount > u.state.maxIterations)
      && u.state.(iterationCount := store[key].iterationCount, updatedAt := store[key].updatedAt) == store[key]
  {
    match Load(store, key)
    case None => Failure(NoActiveState)
    case Some(s) =>
      var s' := s.(iterationCount := s.iterationCount + 1, updatedAt := Some(now));
      Success((Updated(Save(store, key, s', now), s'), s'.iterationCount > s'.maxIterations))
  }

  /** With the default bound of three, the first three rounds after a task
      starts are within bounds and the fourth exceeds it. */
  lemma FourthRoundExceeds(store: Store, key: string, taskId: string, title: string, now: string)
    requires key in store && store[key].maxIterations == DefaultMaxIterations
    ensures var u0 := SetCurrentTask(store, key, taskId, title, now).value.store;
      var r1 := IncrementIteration(u0, key, now).value;
      var r2 := IncrementIteration(r1.0.store, key, now).value;
      var r3 := IncrementIteration(r2.0.store, key, now).value;
      var r4 := IncrementIteration(r3.0.store, key, now).value;
      !r1.1 && !r2.1 && !r3.1 && r4.1
  {
    var u0 := SetCurrentTask(store, key, taskId, title, now).value.store;
    var r1 := IncrementIteration(u0, key, now).value;
    var r2 := IncrementIteration(r1.0.store, key, now).value;
    var r3 := IncrementIteration(r2.0.store, key, now).value;
    assert r3.0.state.iterationCount == 3;
  }

  /** `set_overseer_session` */
  function SetOverseerSession(store: Store, key: string, sessionId: string, now: string): (r: Result<Updated, string>)
    ensures r.Failure? <==> key !in store
    ensures r.Failure? ==> r.error == NoActiveState
    ensures r.Success? ==> Load(r.value.store, key) == Some(r.value.state)
    ensures r.Success? ==> r.value.state.overseerSessionId == Some(sessionId)
    ensures r.Success? ==> r.value.state.(overseerSessionId := store[key].overseerSessionId,
                                          updatedAt := store[key].updatedAt) == store[key]
  {
    match Load(store, key)
    case None => Failure(NoActiveState)
    case Some(s) =>
      var s' := s.(overseerSessionId := Some(sessionId), updatedAt := Some(now));
      Success(Updated(Save(store, key, s', now), s'))
  }

  // ---------------------------------------------------------------------
  // Blocked context

  /** The blocked-context artifact: what a human reads before resuming. */
  datatype BlockedContext = BlockedContext(reason: string, context: string, sessionId: Option<string>, time: string)

  /** The artifact's markdown text: reason, time, the session to resume
      when there is one, and the context. `write_blocked_context` in
      `state.py` takes no session, but `handle_blocked` passes one and the
      state tests expect it in the file; the session line is placed here. */
  function BlockedText(b: BlockedContext): (r: string)
    ensures "# Blocked: " + b.reason <= r
    ensures Contains(r, b.context)
    ensures b.sessionId.Some? ==> Contains(r, b.sessionId.value)
  {
    var title := "# Blocked: " + b.reason;
    var pre := title + "\n\n**Time**: " + b.time + "\n\n";
    var session := if b.sessionId.Some? then "**Session**: " + b.sessionId.value + "\n\n" else "";
    var head := pre + session + "## Context\n\n";
    var tail := "\n\n## Instructions\n\n"
      + "1. Review the context above\n"
      + "2. Run `claude --continue` to interact with the session\n"
      + "3. Resolve the issue\n"
      + "4. Type `/exit` in the Claude session\n"
      + "5. Run `dvx continue` to resume orchestration\n\n";
    ContainsMiddle(head, b.context, tail);
    PrefixExtend(title, title, "\n\n**Time**: ");
    PrefixExtend(title, title + "\n\n**Time**: ", b.time);
    PrefixExtend(title, title + "\n\n**Time**: " + b.time, "\n\n");
    PrefixExtend(title, pre, session);
    PrefixExtend(title, pre + session, "## Context\n\n");
    PrefixExtend(title, head, b.context);
    PrefixExtend(title, head + b.context, tail);
    if b.sessionId.Some? then
      var sid := b.sessionId.value;
      ContainsMiddle("**Session**: ", sid, "\n\n");
      ContainsExtendLeft(pre, session, sid);
      ContainsExtendRight(pre + session, sid, "## Context\n\n");
      ContainsExtendRight(head, sid, b.context);
      ContainsExtendRight(head + b.context, sid, tail);
      head + b.context + tail
    else
      head + b.context + tail
  }

  /** `clear_blocked`: the artifact is removed and a blocked record goes
      back to idle; a record in any other phase is left as it is. */
  function ClearBlocked(store: Store, key: string, now: string): (r: (Store, Option<BlockedContext>))
    ensures r.1.None?
    ensures r.0.Keys == store.Keys
    ensures key in store && store[key].InPhase(Blocked) ==>
      r.0[key].InPhase(Idle) && r.0[key].(phase := store[key].phase, updatedAt := store[key].updatedAt) == store[key]
    ensures !(key in store && store[key].InPhase(Blocked)) ==> r.0 == store
    ensures forall k :: k in store && k != key ==> r.0[k] == store[k]
  {
    match Load(store, key)
    case Some(s) =>
      if s.InPhase(Blocked) then (Save(store, key, s.(phase := PhaseValue(Idle)), now), None)
      else (store, None)
    case None => (store, None)
  }

  // ---------------------------------------------------------------------
  // Decision log

  /** The text of each `DECISIONS-{topic}.md`, by topic. */
  type DecisionLogs = map<string, string>

  function DecisionHeader(topic: string): string {
    "# Decisions: " + topic + "\n\nDecisions made during automated development.\n\n---\n"
  }

  function AlternativeLines(alternatives: seq<string>): (r: string)
    ensures forall k :: 0 <= k < |alternatives| ==> Contains(r, alternatives[k])
  {
    if |alternatives| == 0 then ""
    else
      var rest := AlternativeLines(alternatives[1..]);
      ContainsMiddle("- ", alternatives[0], "\n" + rest);
      assert "- " + alternatives[0] + ("\n" + rest) == "- " + alternatives[0] + "\n" + rest;
      forall k | 1 <= k < |alternatives| ensures Contains("- " + alternatives[0] + "\n" + rest, alternatives[k]) {
        assert alternatives[k] == alternatives[1..][k - 1];
        ContainsExtendLeft("- " + alternatives[0] + "\n", rest, alternatives[k]);
      }
      "- " + alternatives[0] + "\n" + rest
  }

  /** The alternatives section, closed by a rule. */
  function AlternativesSection(alternatives: seq<string>): (r: string)
    ensures forall k :: 0 <= k < |alternatives| ==> Contains(r, alternatives[k])
    ensures |r| >= 5 && r[|r| - 5..] == "\n---\n"
  {
    var head := "\n\n**Alternatives considered**:\n";
    var alts := AlternativeLines(alternatives);
    forall k | 0 <= k < |alternatives| ensures Contains(head + alts + "\n---\n", alternatives[k]) {
      ContainsExtendLeft(head, alts, alternatives[k]);
      ContainsExtendRight(head + alts, alternatives[k], "\n---\n");
    }
    head + alts + "\n---\n"
  }

  function ReasoningSection(reasoning: string, alternatives: seq<string>): (r: string)
    ensures Contains(r, reasoning)
    ensures forall k :: 0 <= k < |alternatives| ==> Contains(r, alternatives[k])
    ensures |r| >= 5 && r[|r| - 5..] == "\n---\n"
  {
    var head := "\n\n**Reasoning**: ";
    var tail := AlternativesSection(alternatives);
    ContainsMiddle(head, reasoning, tail);
    forall k | 0 <= k < |alternatives| ensures Contains(head + reasoning + tail, alternatives[k]) {
      ContainsExtendLeft(head + reasoning, tail, alternatives[k]);
    }
    head + reasoning + tail
  }

  /** One decision entry: the decision, its reasoning and the alternatives,
      closed by a rule. */
  function DecisionEntry(time: string, decision: string, reasoning: string, alternatives: seq<string>): (r: string)
    ensures Contains(r, decision) && Contains(r, reasoning)
    ensures forall k :: 0 <= k < |alternatives| ==> Contains(r, alternatives[k])
    ensures |r| >= 5 && r[|r| - 5..] == "\n---\n"
  {
    var head := "\n## Decision at " + time + "\n\n**Decision**: ";
    var tail := ReasoningSection(reasoning, alternatives);
    ContainsMiddle(head, decision, tail);
    ContainsExtendLeft(head + decision, tail, reasoning);
    forall k | 0 <= k < |alternatives| ensures Contains(head + decision + tail, alternatives[k]) {
      ContainsExtendLeft(head + decision, tail, alternatives[k]);
    }
    assert (head + decision + tail)[|head + decision + tail| - 5..] == tail[|tail| - 5..];
    head + decision + tail
  }

  /** `log_decision`: appends an entry to the topic's log, starting the log
      with its header on the first write. No other topic changes. */
  function LogDecision(logs: DecisionLogs, topic: string, decision: string, reasoning: string,
                       alternatives: seq<string>, now: string): (r: DecisionLogs)
    ensures topic in r
    ensures topic in logs ==> logs[topic] <= r[topic]
    ensures topic !in logs ==> DecisionHeader(topic) <= r[topic]
    ensures Contains(r[topic], decision) && Contains(r[topic], reasoning)
    ensures r.Keys == logs.Keys + {topic}
    ensures forall t :: t in logs && t != topic ==> r[t] == logs[t]
  {
    var entry := DecisionEntry(now, decision, reasoning, alternatives);
    var before := if topic in logs then logs[topic] else DecisionHeader(topic);
    ContainsExtendLeft(before, entry, decision);
    ContainsExtendLeft(before, entry, reasoning);
    logs[topic := before + entry]
  }

  /** Logging never loses text: every earlier log is a prefix of the later one. */
  lemma LogIsAppendOnly(logs: DecisionLogs, topic: string, decision: string, reasoning: string,
                        alternatives: seq<string>, now: string, t: string)
    requires t in logs
    ensures var r := LogDecision(logs, topic, decision, reasoning, alternatives, now);
      t in r && logs[t] <= r[t]
  {
  }
}

=== FILE: text.dfy ===
/** String primitives the dvx sources use through Python's `str` methods:
    ASCII `lower()`, `in` / `find` / `rfind`, `strip()`, `split('\n')`,
    `'\n'.join(...)`, `startswith`, `replace(x, "")`, `lstrip(chars)` and
    `str(n)` for naturals. Strings are `seq<char>`; only ASCII case folding
    and ASCII whitespace are modelled. */
module Text {

  import opened Wrappers

  // ---------------------------------------------------------------------
  // Case folding

  predicate IsUpper(c: char) {
    'A' <= c <= 'Z'
  }

  /** Two characters that `str.lower()` maps to the same ASCII character. */
  predicate SameIgnoringCase(a: char, b: char) {
    a == b || (IsUpper(a) && b as int == a as int + 32) || (IsUpper(b) && a as int == b as int + 32)
  }

  function LowerChar(c: char): (r: char)
    ensures !IsUpper(r) && SameIgnoringCase(r, c)
    ensures !IsUpper(c) ==> r == c
  {
    if IsUpper(c) then (c as int + 32) as char else c
  }

  /** `s.lower()` over ASCII: every character keeps its position, no
      upper-case letter survives, and each character changes only its case. */
  function Lower(s: string): (r: string)
    ensures |r| == |s|
    ensures forall i :: 0 <= i < |s| ==> !IsUpper(r[i]) && SameIgnoringCase(r[i], s[i])
  {
    seq(|s|, i requires 0 <= i < |s| => LowerChar(s[i]))
  }

  predicate IsLower(s: string) {
    forall i :: 0 <= i < |s| ==> !IsUpper(s[i])
  }

  /** Lower-casing twice is lower-casing once. */
  lemma LowerIdempotent(s: string)
    ensures Lower(Lower(s)) == Lower(s)
  {
    var l := Lower(s);
    assert forall i :: 0 <= i < |l| ==> LowerChar(l[i]) == l[i];
  }

  // ---------------------------------------------------------------------
  // Substring search

  /** `sub` occurs in `s` starting at index `i`. */
  predicate MatchAt(s: string, sub: string, i: nat) {
    i + |sub| <= |s| && s[i..i + |sub|] == sub
  }

  /** `s.find(sub, start)`: the least index `>= start` where `sub` occurs,
      or None (Python's -1). */
  function Find(s: string, sub: string, start: nat): (r: Option<nat>)
    ensures r.Some? ==> start <= r.value && MatchAt(s, sub, r.value)
    ensures r.Some? ==> forall j :: start <= j < r.value ==> !MatchAt(s, sub, j)
    ensures r.None? ==> forall j :: start <= j ==> !MatchAt(s, sub, j)
    decreases |s| - start
  {
    if start + |sub| > |s| then None
    else if s[start..start + |sub|] == sub then Some(start)
    else Find(s, sub, start + 1)
  }

  /** Python's `sub in s`. */
  predicate Contains(s: string, sub: string) {
    Find(s, sub, 0).Some?
  }

  lemma ContainsIff(s: string, sub: string)
    ensures Contains(s, sub) <==> exists i: nat :: MatchAt(s, sub, i)
  {
  }

  lemma ContainsAt(s: string, sub: string, i: nat)
    requires MatchAt(s, sub, i)
    ensures Contains(s, sub)
  {
  }

  /** A pattern occurs in any text built around it. */
  lemma ContainsMiddle(a: string, sub: string, b: string)
    ensures Contains(a + sub + b, sub)
  {
    var s := a + sub + b;
    assert s[|a|..|a| + |sub|] == sub;
    ContainsAt(s, sub, |a|);
  }

  lemma ContainsSelf(s: string)
    ensures Contains(s, s)
  {
    ContainsAt(s, s, 0);
  }

  /** A prefix stays a prefix when the longer sequence grows. */
  lemma PrefixExtend<T>(a: seq<T>, b: seq<T>, c: seq<T>)
    requires a <= b
    ensures a <= b + c
  {
  }

  lemma ContainsExtendRight(s: string, sub: string, b: string)
    requires Contains(s, sub)
    ensures Contains(s + b, sub)
  {
    var i := Find(s, sub, 0).value;
    assert (s + b)[i..i + |sub|] == s[i..i + |sub|];
    ContainsAt(s + b, sub, i);
  }

  lemma ContainsExtendLeft(a: string, s: string, sub: string)
    requires Contains(s, sub)
    ensures Contains(a + s, sub)
  {
    var i := Find(s, sub, 0).value;
    assert (a + s)[|a| + i..|a| + i + |sub|] == s[i..i + |sub|];
    ContainsAt(a + s, sub, |a| + i);
  }

  /** `s.rfind(c)`: the greatest index holding `c`, or None. */
  function LastIndexOf(s: string, c: char): (r: Option<nat>)
    ensures r.Some? ==> r.value < |s| && s[r.value] == c
    ensures r.Some? ==> forall j :: r.value < j < |s| ==> s[j] != c
    ensures r.None? ==> forall j :: 0 <= j < |s| ==> s[j] != c
  {
    if |s| == 0 then None
    else if s[|s| - 1] == c then Some(|s| - 1)
    else LastIndexOf(s[..|s| - 1], c)
  }

  // ---------------------------------------------------------------------
  // Whitespace

  /** Python's `str.isspace()` restricted to ASCII: space, `\t\n\v\f\r`
      and the four information separators 0x1C-0x1F. */
  predicate IsSpace(c: char) {
    c == ' ' || (9 <= c as int <= 13) || (28 <= c as int <= 31)
  }

  predicate AllSpace(s: string) {
    forall i :: 0 <= i < |s| ==> IsSpace(s[i])
  }

  /** Number of leading whitespace characters. */
  function LeadingSpaces(s: string): (n: nat)
    ensures n <= |s|
    ensures AllSpace(s[..n])
    ensures n == |s| || !IsSpace(s[n])
  {
    if |s| == 0 || !IsSpace(s[0]) then 0
    else
      var k := LeadingSpaces(s[1..]);
      assert s[1..][..k] == s[1..k + 1];
      1 + k
  }

  /** Number of trailing whitespace characters. */
  function TrailingSpaces(s: string): (n: nat)
    ensures n <= |s|
    ensures AllSpace(s[|s| - n..])
    ensures n == |s| || !IsSpace(s[|s| - n - 1])
  {
    if |s| == 0 || !IsSpace(s[|s| - 1]) then 0
    else
      var k := TrailingSpaces(s[..|s| - 1]);
      assert s[..|s| - 1][|s| - 1 - k..] == s[|s| - 1 - k..|s| - 1];
      1 + k
  }

  /** `s.strip()`: the result is a slice of `s` cut only at whitespace, and
      it neither starts nor ends with whitespace. */
  function Strip(s: string): (r: string)
    ensures |r| <= |s|
    ensures r == [] || (!IsSpace(r[0]) && !IsSpace(r[|r| - 1]))
  {
    var a := LeadingSpaces(s);
    var t := s[a..];
    var b := TrailingSpaces(t);
    var r := t[..|t| - b];
    assert r != [] ==> r[0] == s[a];
    r
  }

  /** What `strip` removes is whitespace only, at either end. */
  lemma StripIsSlice(s: string)
    ensures exists i, j :: 0 <= i <= j <= |s| && Strip(s) == s[i..j] && AllSpace(s[..i]) && AllSpace(s[j..])
  {
    var a := LeadingSpaces(s);
    var t := s[a..];
    var b := TrailingSpaces(t);
    var j := a + |t| - b;
    assert Strip(s) == s[a..j];
    assert s[j..] == t[|t| - b..];
    assert AllSpace(s[..a]) && AllSpace(s[j..]);
  }

  /** A text with no whitespace at either end is its own strip. */
  lemma StripKeeps(s: string)
    requires s == [] || (!IsSpace(s[0]) && !IsSpace(s[|s| - 1]))
    ensures Strip(s) == s
  {
    assert s[0..] == s;
  }

  /** `not s.strip()`: the text is empty or whitespace only. */
  lemma StripEmptyIff(s: string)
    ensures Strip(s) == [] <==> AllSpace(s)
  {
    if AllSpace(s) {
      assert LeadingSpaces(s) == |s|;
    } else {
      var k :| 0 <= k < |s| && !IsSpace(s[k]);
      StripIsSlice(s);
      var i, j :| 0 <= i <= j <= |s| && Strip(s) == s[i..j] && AllSpace(s[..i]) && AllSpace(s[j..]);
      assert forall m :: 0 <= m < i ==> IsSpace(s[m]) by {
        forall m | 0 <= m < i ensures IsSpace(s[m]) {
          assert AllSpace(s[..i]);
          assert IsSpace(s[..i][m]);
        }
      }
      assert forall m :: j <= m < |s| ==> IsSpace(s[m]) by {
        forall m | j <= m < |s| ensures IsSpace(s[m]) {
          assert AllSpace(s[j..]);
          assert IsSpace(s[j..][m - j]);
        }
      }
      assert i <= k < j;
    }
  }

  // ---------------------------------------------------------------------
  // Lines

  /** `s.split(sep)` for a one-character separator: never empty, no piece
      contains the separator. */
  function Split(s: string, sep: char): (r: seq<string>)
    ensures |r| >= 1
    ensures forall k :: 0 <= k < |r| ==> sep !in r[k]
    decreases |s|
  {
    if sep !in s then [s]
    else
      var i := IndexOfChar(s, sep);
      [s[..i]] + Split(s[i + 1..], sep)
  }

  /** The first index of a character known to occur. */
  function IndexOfChar(s: string, c: char): (i: nat)
    requires c in s
    ensures i < |s| && s[i] == c && c !in s[..i]
  {
    if s[0] == c then 0
    else
      var k := IndexOfChar(s[1..], c);
      assert s[..k + 1] == [s[0]] + s[1..][..k];
      k + 1
  }

  /** `sep.join(parts)` */
  function Join(parts: seq<string>, sep: char): string {
    if |parts| == 0 then ""
    else if |parts| == 1 then parts[0]
    else parts[0] + [sep] + Join(parts[1..], sep)
  }

  /** Splitting and re-joining on the same separator gives back the text. */
  lemma {:induction false} JoinSplit(s: string, sep: char)
    ensures Join(Split(s, sep), sep) == s
    decreases |s|
  {
    if sep in s {
      var i := IndexOfChar(s, sep);
      var rest := Split(s[i + 1..], sep);
      JoinSplit(s[i + 1..], sep);
      assert Split(s, sep) == [s[..i]] + rest;
      assert s == s[..i] + [sep] + s[i + 1..];
    }
  }

  /** Joining separator-free pieces and splitting again gives the pieces. */
  lemma {:induction false} SplitJoin(parts: seq<string>, sep: char)
    requires |parts| >= 1
    requires forall k :: 0 <= k < |parts| ==> sep !in parts[k]
    ensures Split(Join(parts, sep), sep) == parts
  {
    if |parts| > 1 {
      var tail := [sep] + Join(parts[1..], sep);
      var s := parts[0] + tail;
      assert Join(parts, sep) == s;
      SplitJoin(parts[1..], sep);
      IndexOfCharAfter(parts[0], tail, sep);
      assert tail[1..] == Join(parts[1..], sep);
      assert s[..|parts[0]|] == parts[0];
      assert s[|parts[0]| + 1..] == tail[1..];
      assert Split(s, sep) == [parts[0]] + Split(tail[1..], sep);
      ConsTail(parts);
    }
  }

  /** The first occurrence in `a + b`, when `a` lacks the character, is the
      first occurrence in `b` shifted by `|a|`. */
  lemma {:induction false} IndexOfCharAfter(a: string, b: string, c: char)
    requires c !in a && c in b
    ensures c in a + b && IndexOfChar(a + b, c) == |a| + IndexOfChar(b, c)
    decreases |a|
  {
    assert (a + b)[|a| + IndexOfChar(b, c)] == c;
    if |a| > 0 {
      assert (a + b)[0] == a[0];
      assert (a + b)[1..] == a[1..] + b;
      IndexOfCharAfter(a[1..], b, c);
    } else {
      assert a + b == b;
    }
  }

  /** A non-empty sequence is its head followed by its tail. */
  lemma ConsTail<T>(s: seq<T>)
    requires |s| > 0
    ensures [s[0]] + s[1..] == s
  {
  }

  /** A joined text starts with its first piece's first character... */
  lemma JoinFirst(parts: seq<string>, sep: char)
    requires |parts| >= 1 && parts[0] != []
    ensures |Join(parts, sep)| > 0 && Join(parts, sep)[0] == parts[0][0]
  {
  }

  /** ...and ends with its last piece's last character. */
  lemma {:induction false} JoinLast(parts: seq<string>, sep: char)
    requires |parts| >= 1 && parts[|parts| - 1] != []
    ensures var s, p := Join(parts, sep), parts[|parts| - 1];
      |s| > 0 && s[|s| - 1] == p[|p| - 1]
  {
    if |parts| > 1 {
      JoinLast(parts[1..], sep);
    }
  }

  /** The first `k` lines joined form a prefix of the whole text. */
  lemma {:induction false} JoinPrefix(parts: seq<string>, sep: char, k: nat)
    requires k <= |parts|
    ensures Join(parts[..k], sep) <= Join(parts, sep)
  {
    if k > 0 && |parts| > 1 {
      if k == 1 {
        assert parts[..1] == [parts[0]];
      } else {
        JoinPrefix(parts[1..], sep, k - 1);
        assert parts[..k][1..] == parts[1..][..k - 1];
      }
    } else if k == 1 {
      assert parts[..1] == parts;
    }
  }

  // ---------------------------------------------------------------------
  // Other str methods

  /** `s.replace(pat, "")`: left-to-right removal of non-overlapping
      occurrences of a non-empty pattern. */
  function RemoveAll(s: string, pat: string): (r: string)
    requires |pat| > 0
    ensures |r| <= |s|
    ensures !Contains(s, pat) ==> r == s
    decreases |s|
  {
    if |s| < |pat| then s
    else if s[..|pat|] == pat then RemoveAll(s[|pat|..], pat)
    else
      var rest := RemoveAll(s[1..], pat);
      assert !Contains(s, pat) ==> !Contains(s[1..], pat) by {
        if Contains(s[1..], pat) {
          var i := Find(s[1..], pat, 0).value;
          assert s[i + 1..i + 1 + |pat|] == s[1..][i..i + |pat|];
          ContainsAt(s, pat, i + 1);
        }
      }
      assert !Contains(s, pat) ==> s[..|pat|] != pat;
      [s[0]] + rest
  }

  /** `s.lstrip(chars)` */
  function LStripChars(s: string, chars: set<char>): (r: string)
    ensures |r| <= |s| && r == s[|s| - |r|..]
    ensures r == [] || r[0] !in chars
    ensures forall i :: 0 <= i < |s| - |r| ==> s[i] in chars
  {
    if |s| == 0 || s[0] !in chars then s
    else LStripChars(s[1..], chars)
  }

  // ---------------------------------------------------------------------
  // Decimal numerals

  predicate IsDigit(c: char) {
    '0' <= c <= '9'
  }

  function DigitChar(d: nat): (c: char)
    requires d < 10
    ensures IsDigit(c)
  {
    ('0' as int + d) as char
  }

  /** `str(n)` for a natural number. */
  function NatToString(n: nat): (r: string)
    ensures |r| >= 1
    ensures forall i :: 0 <= i < |r| ==> IsDigit(r[i])
  {
    if n < 10 then [DigitChar(n)] else NatToString(n / 10) + [DigitChar(n % 10)]
  }

  /** `str(n)` for any integer. */
  function IntToString(n: int): (r: string)
    ensures |r| >= 1
    ensures n >= 0 ==> r == NatToString(n)
    ensures n < 0 ==> r[0] == '-' && r[1..] == NatToString(-n)
  {
    if n >= 0 then NatToString(n) else "-" + NatToString(-n)
  }

  /** `int(s)` for a string of decimal digits. */
  function ParseDigits(s: string): nat
    requires forall i :: 0 <= i < |s| ==> IsDigit(s[i])
  {
    if |s| == 0 then 0
    else
      assert IsDigit(s[|s| - 1]);
      10 * ParseDigits(s[..|s| - 1]) + (s[|s| - 1] as int - '0' as int)
  }

  /** `int(str(n)) == n` */
  lemma {:induction false} ParseNatToString(n: nat)
    ensures ParseDigits(NatToString(n)) == n
  {
    if n >= 10 {
      var s := NatToString(n);
      ParseNatToString(n / 10);
      assert s[..|s| - 1] == NatToString(n / 10);
    }
  }

  // ---------------------------------------------------------------------
  // Optional strings

  /** Python truthiness of an optional string: present and non-empty. */
  predicate Truthy(s: Option<string>) {
    s.Some? && s.value != ""
  }

  /** `s or default` for an optional string. */
  function OrDefault(s: Option<string>, default: string): (r: string)
    ensures Truthy(s) ==> r == s.value
    ensures !Truthy(s) ==> r == default
  {
    if Truthy(s) then s.value else default
  }
}

=== FILE: wrappers.dfy ===
/** Failure-compatible wrappers shared by every module of the model:
    `Option` stands for Python's `Optional[...]` (None / a value) and
    `Result` for an operation that can raise. */
module Wrappers {

  datatype Option<+T> = None | Some(value: T) {

    /** The value, or `default` when there is none (Python's `x or default`
        restricted to the None case). */
    function GetOr(default: T): T {
      match this
      case Some(v) => v
      case None => default
    }
  }

  datatype Result<+R, +E> = Success(value: R) | Failure(error: E) {

    predicate IsFailure() {
      Failure?
    }

    function PropagateFailure<U>(): Result<U, E>
      requires Failure?
    {
      Failure(error)
    }

    function Extract(): R
      requires Success?
    {
      value
    }
  }
}
